=== FILE: README.md ===
# autoCodePro trading core in Dafny

This project models the decision logic of the autoCodePro Upbit trading bot and proves properties of it:

- **The current trader** (`AutoTrader` in `autoCodeProWeb/trading/auto_trade.py`).
  - One tick of `execute_trade` does these steps in order:
    - reload the in-memory positions from the `TradeRecord` table;
    - clear the positions the user sold by hand;
    - mark the markets moving more than 5% as high-volatility;
    - manage every position: fill check, high-water price, and a priority chain of exit rules that sends at most one sell;
    - buy at most one new coin, behind the capacity, candidate, volatility and budget gates.
  - Also modelled:
    - the 50-entry log;
    - the `save_trade` and `clear_trade` updates of the table and of memory;
    - the start and stop flags;
    - the candidate ranking `get_best_trade_coin`, with its 5-second order-book cache.
- **The older trader** in `autoCodeProWeb/trading/backUp/auto_trade_backUp.py`:
  - its volume cache, with 30-minute price samples;
  - its "pullback after a volume surge" selector;
  - its exit order, which takes a 1% profit first.

  The same `AutoTrader` class runs this variant under the rules `BackupRules`.
- **The `execute_trade` variant** of `compareFile/compare1.py`:
  - a crash stop;
  - an unconditional trailing stop;
  - a 3% volatility threshold;
  - a high-water price kept in memory only.
- **The exchange client rules** in `autoCodeProWeb/trading/utils.py`:
  - the failed-market exclusion and order-parameter construction of `upbit_order`;
  - the KRW filter and sort of `get_krw_market_coin_info`;
  - the fill test of `check_order_filled`;
  - the keying of `get_orderbook`.
- **The strategy search** of `autoCodeProWeb/trading/aiTrade/aiTrading_btc_15.py`:
  - the bar-by-bar backtest;
  - the search over 36 parameter combinations;
  - the top-10 coin list.

## How the outside world enters the model

The exchange and the database are state or inputs:

- **Classes.** The `TradeRecord` table is a map from market to record, held by the trader class. The module-level globals become objects that the trader references:
  - `TradeLog` is the log;
  - `OrderGateway` holds the excluded markets and the requests sent;
  - `OrderbookCache` is the order-book cache.
- **The `Tick` value.** Everything the exchange answers during one tick is a field of this value:
  - the account listing;
  - the market data, or its error tag;
  - the order replies, as a function of market and side;
  - the fill-query replies;
  - the order-book fetch;
  - the trend label;
  - the clock readings.
- **Kept separately.** The in-memory positions are kept apart from the table. The uuid of a sell order is written only in memory, so it does not survive the reload at the start of the next tick. The model keeps that behaviour.

Prices and amounts are exact reals.

## Model

| member | source | states |
|---|---|---|
| Positions.Load | autoCodeProWeb/trading/auto_trade.py:186-190 | the in-memory view has exactly the active markets, each mirroring its record |
| Positions.Saved | autoCodeProWeb/trading/auto_trade.py:104-114 | `update_or_create` leaves one active record for the market, with high-water price = buy price; other markets unchanged |
| Positions.Cleared | autoCodeProWeb/trading/auto_trade.py:125 | only the market's record is deactivated; no row appears or disappears |
| Positions.LoadAfterSave | autoCodeProWeb/trading/auto_trade.py:101-120 | after a save, the loaded view is the old view with exactly that market's entry replaced |
| Positions.ClearTwice | autoCodeProWeb/trading/auto_trade.py:122-127 | clearing is idempotent and removes exactly that market from the loaded view |
| Positions.Unheld | autoCodeProWeb/trading/auto_trade.py:193-195 | a market is unheld iff its currency (market minus "KRW-") is not held |
| Positions.Appended | autoCodeProWeb/trading/auto_trade.py:94-99 | the message is last; only the oldest entry is dropped, and only past 50; a log of at most 50 entries stays at most 50 |
| Positions.TradeLog.Append | autoCodeProWeb/trading/auto_trade.py:96-99 | the in-place append and pop keep at most 50 entries and equal `Appended` |
| Positions.HighWater | autoCodeProWeb/trading/auto_trade.py:227-234 | the new high-water price is at least the price and the old value (the buy price when missing), and is one of them |
| Positions.HoldingTime | autoCodeProWeb/trading/auto_trade.py:242-245 | 0 when the opening time is unknown; otherwise the opening time plus the holding time is now, and it is not negative for a position opened in the past |
| Positions.ProfitRate | autoCodeProWeb/trading/auto_trade.py:237-240 | the fee-adjusted profit rate is non-negative iff the net sell price covers the gross buy price |
| Positions.CurrentExit | autoCodeProWeb/trading/auto_trade.py:266-348 | exit priority: time exits (iff), the volatility stop (iff price ≤ factor·buy), the fixed stop only in the 96–98% high-volatility band, no take-profit in a bullish market, and the trailing stop only once armed at +2%; it never gives the crash stop or the loss cut, and with a positive buy price it holds iff no rule of the chain fires |
| Common.SortDesc | autoCodeProWeb/trading/auto_trade.py:37 | `sorted(..., reverse=True)` is a permutation of the input ordered by descending key |
| Common.TopOfSorted | autoCodeProWeb/trading/auto_trade.py:37 | the `[:n]` cut of the sort keeps exactly min(n, len) elements of the input (as a sub-multiset), in descending order; none left out has a larger key, and elements with equal keys keep their input order |
| Common.SortDescStable | autoCodeProWeb/trading/auto_trade.py:37 | the sort is stable: the elements with any one key appear in the same order as in the input |
| Common.FirstMaxIndex | autoCodeProWeb/trading/auto_trade.py:69 | `max` with a key returns the first element whose score is not exceeded |
| Common.KeyByKeepsLast | autoCodeProWeb/trading/auto_trade.py:180 | in a dict comprehension the last item with a key wins |
| Common.RemoveAllAbsent | autoCodeProWeb/trading/auto_trade.py:194 | `str.replace(pat, "")` returns a text holding no occurrence of the pattern unchanged |
| Common.CurrencyOfKrwMarket | autoCodeProWeb/trading/auto_trade.py:194 | `"KRW-" + c` maps back to `c` when `c` holds no "KRW-" |
| CandidateSelection.Rising | autoCodeProWeb/trading/auto_trade.py:36 | keeps exactly the coins with a positive change |
| CandidateSelection.TopGainersCut | autoCodeProWeb/trading/auto_trade.py:36-37 | exactly min(10, number rising) rising coins, as a sub-multiset, by descending change; no rising coin left out beats a kept one, and coins with equal change keep their feed order |
| CandidateSelection.StaleMarkets | autoCodeProWeb/trading/auto_trade.py:43 | a market is fetched iff its book is missing or more than 5 s old |
| CandidateSelection.Refreshed | autoCodeProWeb/trading/auto_trade.py:44-47 | every fetched book is stored with the current timestamp, and every other entry is kept |
| CandidateSelection.AfterLookup | autoCodeProWeb/trading/auto_trade.py:39-47 | with nothing stale the cache is unchanged; no entry is lost; an entry either stays as it was or carries the current timestamp; a stale market whose book came back holds that book, stamped now |
| CandidateSelection.Qualified | autoCodeProWeb/trading/auto_trade.py:49-63 | keeps exactly the coins with a cached book showing bids > 1.5×asks and a spread under 0.1% |
| CandidateSelection.Shortlist | autoCodeProWeb/trading/auto_trade.py:68 | exactly min(5, number passed) of the passing coins, as a sub-multiset, by descending 24h traded value; none left out is larger, and equal values keep their input order |
| CandidateSelection.Best | autoCodeProWeb/trading/auto_trade.py:69 | the first shortlisted coin with the maximal price × traded value |
| CandidateSelection.Choose | autoCodeProWeb/trading/auto_trade.py:49-71 | `(None, [])` iff nothing qualifies; otherwise a shortlist of exactly min(5, number qualified) qualifying gainers by value (ties in input order) and its best coin |
| CandidateSelection.OrderbookCache.Store | autoCodeProWeb/trading/auto_trade.py:46-47 | the loop stores every fetched book, which equals `Refreshed` |
| CandidateSelection.OrderbookCache.Refresh | autoCodeProWeb/trading/auto_trade.py:41-47 | fetches only when some market is stale, and only the stale ones |
| CandidateSelection.OrderbookCache.BestTradeCoin | autoCodeProWeb/trading/auto_trade.py:29-71 | the error tag gives `(None, [])` with the cache untouched; otherwise the gainers' books are refreshed and the choice is made on the new cache |
| Exchange.KrwMarkets | autoCodeProWeb/trading/utils.py:41 | keeps exactly the markets starting with "KRW-" |
| Exchange.KrwMarketCoinInfo | autoCodeProWeb/trading/utils.py:32-54 | the error tag iff either reply is not 200; otherwise a permutation of the projected tickers sorted by descending traded value, rows with equal value keeping the reply's order |
| Exchange.OrderParams | autoCodeProWeb/trading/utils.py:66-80 | "price" sets only the price, "market" only the volume, "limit" both; `time_in_force` only when given |
| Exchange.OrderOutcome | autoCodeProWeb/trading/utils.py:58-60 | an excluded market gets the error tag; otherwise only a 201 reply places the order |
| Exchange.OrderGateway.Order | autoCodeProWeb/trading/utils.py:56-105 | an excluded market sends nothing; otherwise one request is sent, and a non-201 reply adds the market to the set and the table; one call is one step of the run that `ExclusionIsFinal` covers |
| Exchange.ExclusionIsFinal | autoCodeProWeb/trading/utils.py:56-103 | over any run of orders the excluded set only grows, no request is ever sent for a market excluded at the start, and every market whose order got a non-201 reply ends up excluded |
| Exchange.CheckOrderFilled | autoCodeProWeb/trading/utils.py:144-149 | filled iff the reply is 200 and the state is "done" |
| Exchange.GetOrderbook | autoCodeProWeb/trading/utils.py:153-169 | on a 200 reply every listed book's market is a key, mapped to a listed book of that market; any failure gives an empty map |
| AutoTrade.KrwBalance | autoCodeProWeb/trading/auto_trade.py:183 | the first KRW balance of the listing, or 0 when there is none |
| AutoTrade.PriceOf | autoCodeProWeb/trading/auto_trade.py:221 | the price of the first row for the market; None iff no row has it |
| AutoTrade.HighVolatility | autoCodeProWeb/trading/auto_trade.py:208-209 | every high-volatility market has a row moving more than the threshold; a market listed once with such a move is in the set |
| AutoTrade.EntryFor | autoCodeProWeb/trading/auto_trade.py:362-371 | buys iff there is a candidate, not tracked and not high-volatility, and min(budget, balance) ≥ 5000, spending exactly that |
| AutoTrade.Decision | autoCodeProWeb/trading/auto_trade.py:356-371 | no buy at three tracked markets or when stopped; otherwise the gate of `EntryFor` on the selector's pick |
| AutoTrade.FeedDecision | autoCodeProWeb/trading/auto_trade.py:356-371 | a buy needs an active trader holding fewer than 3 positions, an untracked calm market, and spends min(budget, balance) ≥ 5000 |
| AutoTrade.AutoTrader.constructor | autoCodeProWeb/trading/auto_trade.py:75-91 | a new trader is inactive with no failures, and its memory is the loaded table |
| AutoTrade.AutoTrader.Log | autoCodeProWeb/trading/auto_trade.py:94-99 | the shared log becomes `Appended` of the message and stays at most 50 entries |
| AutoTrade.AutoTrader.SaveTrade | autoCodeProWeb/trading/auto_trade.py:101-120 | the table becomes `Saved` and memory gets the same position; nothing else changes |
| AutoTrade.AutoTrader.ClearTrade | autoCodeProWeb/trading/auto_trade.py:122-127 | the table becomes `Cleared` and the market leaves memory |
| AutoTrade.AutoTrader.ChangeTrade | autoCodeProWeb/trading/auto_trade.py:129-134 | the same effect as `clear_trade` |
| AutoTrade.AutoTrader.StartTrading | autoCodeProWeb/trading/auto_trade.py:149-157 | afterwards the trader is active; a stopped trader resets its failure count and logs the start; a running one only logs a warning |
| AutoTrade.AutoTrader.StopTrading | autoCodeProWeb/trading/auto_trade.py:163-170 | afterwards the trader is inactive, with the matching log line |
| AutoTrade.AutoTrader.Reconcile | autoCodeProWeb/trading/auto_trade.py:192-199 | exactly the unheld tracked markets are cleared in the table and in memory, and are dropped from the markets returned |
| AutoTrade.AutoTrader.RaiseHighWater | autoCodeProWeb/trading/auto_trade.py:227-234 | table and memory both get `HighWater` of the stored value, the buy price and the price |
| AutoTrade.AutoTrader.SellPosition | autoCodeProWeb/trading/auto_trade.py:273-277 | one market sell of the held balance; a placed order's uuid goes to memory only |
| AutoTrade.AutoTrader.ManagePosition | autoCodeProWeb/trading/auto_trade.py:212-348 | a filled order closes the position; a missing or zero price skips it; otherwise the high-water price is updated and a sell is sent iff the exit rules say so |
| AutoTrade.AutoTrader.ManageRow | autoCodeProWeb/trading/auto_trade.py:212-348 | one loop pass extends the loop state by one row |
| AutoTrade.AutoTrader.ManagePositions | autoCodeProWeb/trading/auto_trade.py:212-348 | the loop leaves the table, memory, requests and exclusions of `Managed`, `TradesAfter`, `SellRequests` and `SoldFailed` |
| AutoTrade.AutoTrader.Enter | autoCodeProWeb/trading/auto_trade.py:351-377 | the entry follows `Decision`; the cache is refreshed only when the selector runs; the trade is saved only on a placed order |
| AutoTrade.AutoTrader.Pick | autoCodeProWeb/trading/auto_trade.py:362 | the pick of the selector in force; only the current selector writes the cache |
| AutoTrade.AutoTrader.BuyCoin | autoCodeProWeb/trading/auto_trade.py:374-377 | one "price" bid for the amount; saved with the coin's price only when placed; a failed bid excludes the market |
| AutoTrade.AutoTrader.TradeOnFeed | autoCodeProWeb/trading/auto_trade.py:208-377 | the position loop and then the entry, composed into the feed functions |
| AutoTrade.AutoTrader.ExecuteTrade | autoCodeProWeb/trading/auto_trade.py:175-377 | one tick's new table, memory, requests, exclusions and cache are the tick functions of the old state |
| AutoTrade.Plan | autoCodeProWeb/trading/auto_trade.py:212-348 | closed iff the order whose uuid the position carries is filled (after the table reload, the buy order); skipped iff not filled and the price is missing or 0; otherwise the new high-water price is at least the price and the old high (the buy price when missing), and is one of them |
| AutoTrade.Reconciled | autoCodeProWeb/trading/auto_trade.py:192-199 | no record appears or disappears; a record stays active iff it was active and its currency is still held; nothing but the active flag changes |
| AutoTrade.ActiveAfterReconcile | autoCodeProWeb/trading/auto_trade.py:192-199 | after reconciliation the tracked markets are the old ones minus the unheld ones |
| AutoTrade.ManagedActive | autoCodeProWeb/trading/auto_trade.py:212-348 | the loop only deactivates records and leaves inactive ones untouched |
| AutoTrade.ManagedHighWater | autoCodeProWeb/trading/auto_trade.py:227-234 | the loop never lowers a high-water price and keeps it at or above the buy price |
| AutoTrade.SellRequestsFacts | autoCodeProWeb/trading/auto_trade.py:212-348 | every sell is for a tracked, non-excluded market whose exit rules sell; with distinct rows, no market is sold twice |
| AutoTrade.FeedCapacity | autoCodeProWeb/trading/auto_trade.py:356-377 | a buy only happens below three tracked markets, for an untracked market |
| AutoTrade.FeedRequestsFacts | autoCodeProWeb/trading/auto_trade.py:212-377 | the requests are the loop's sells, then at most one bid, which is the entry's |
| AutoTrade.FeedBuyGate | autoCodeProWeb/trading/auto_trade.py:356-377 | the only bid is the entry decision's, for its market and amount |
| AutoTrade.FeedHighWater | autoCodeProWeb/trading/auto_trade.py:227-234 | no high-water price falls during the feed part |
| AutoTrade.FeedKeepsInactive | autoCodeProWeb/trading/auto_trade.py:212-377 | an inactive record that is active after the feed part is a fresh buy, stamped with the tick's time and with high-water price = buy price |
| AutoTrade.TickKeepsCapacity | autoCodeProWeb/trading/auto_trade.py:356-377 | a tick opens at most one position and never a fourth |
| AutoTrade.TickReconciles | autoCodeProWeb/trading/auto_trade.py:192-199 | a hand-sold market gets no sell, and stays inactive unless bought afresh |
| AutoTrade.TickSellsOnce | autoCodeProWeb/trading/auto_trade.py:201-348 | without market data nothing is sent; otherwise every sell is of a tracked market whose rules sell, at most once per market |
| AutoTrade.TickBuysGated | autoCodeProWeb/trading/auto_trade.py:356-377 | at most one bid, sent last, only when active with fewer than 3 positions, for an untracked calm market, spending min(budget, KRW) ≥ 5000 |
| AutoTrade.ReconciledFacts | autoCodeProWeb/trading/auto_trade.py:192-199 | reconciliation keeps prices and leaves the kept records unchanged |
| AutoTrade.TickHighWater | autoCodeProWeb/trading/auto_trade.py:227-234 | a kept position's recorded high-water price never falls, and it stays at or above the buy price |
| AutoTradeBackup.Prune | autoCodeProWeb/trading/backUp/auto_trade_backUp.py:58-62 | keeps exactly the samples at most 30 minutes old |
| AutoTradeBackup.Observe | autoCodeProWeb/trading/backUp/auto_trade_backUp.py:38-67 | a new market gets previous volume 0 and no sample; a known one shifts its volumes; its samples are the new one plus exactly the cached ones still inside the window |
| AutoTradeBackup.ObserveAllKeys | autoCodeProWeb/trading/backUp/auto_trade_backUp.py:38-67 | the volume cache gains exactly the feed's markets |
| AutoTradeBackup.VolumeChange | autoCodeProWeb/trading/backUp/auto_trade_backUp.py:85-89 | 0 for a market never observed or with previous volume 0; otherwise change × previous = current − previous, and with a positive previous volume the change is at least 1 iff the volume at least doubled |
| AutoTradeBackup.FirstObservationHasNoPrevious | autoCodeProWeb/trading/backUp/auto_trade_backUp.py:63-67 | a market observed once has previous volume 0 |
| AutoTradeBackup.MarketCaches.ObserveRow | autoCodeProWeb/trading/backUp/auto_trade_backUp.py:39-67 | the in-place loop body equals `Observe` |
| AutoTradeBackup.MarketCaches.UpdateVolumeCache | autoCodeProWeb/trading/backUp/auto_trade_backUp.py:33-67 | the loop over the feed equals `ObserveAll` |
| AutoTradeBackup.MaxPrice | autoCodeProWeb/trading/backUp/auto_trade_backUp.py:99 | the largest sampled price, attained by a sample |
| AutoTradeBackup.RecentHigh | autoCodeProWeb/trading/backUp/auto_trade_backUp.py:98-103 | the sample maximum, or the day's high when there are no samples |
| AutoTradeBackup.Surging | autoCodeProWeb/trading/backUp/auto_trade_backUp.py:79-130 | keeps exactly the coins passing the surge, drop, pullback and book tests |
| AutoTradeBackup.TopByValue | autoCodeProWeb/trading/backUp/auto_trade_backUp.py:136 | exactly min(5, number passed) of the passing coins, as a sub-multiset, by descending traded value; none left out is larger, and equal values keep their input order |
| AutoTradeBackup.BestByScore | autoCodeProWeb/trading/backUp/auto_trade_backUp.py:139 | the first coin with the maximal price × value |
| AutoTradeBackup.BackupChoose | autoCodeProWeb/trading/backUp/auto_trade_backUp.py:132-141 | `(None, [])` iff nothing passes; otherwise a shortlist of exactly min(5, number passed) passing coins (ties in input order) and its best coin |
| AutoTradeBackup.BackupSelect | autoCodeProWeb/trading/backUp/auto_trade_backUp.py:69-141 | the error tag gives `(None, [])`; otherwise `BackupChoose` |
| AutoTradeBackup.KeptCoinSurged | autoCodeProWeb/trading/backUp/auto_trade_backUp.py:84-108 | a kept coin had a positive previous volume and its volume at least doubled since |
| AutoTradeBackup.EmptyCachesPickNothing | autoCodeProWeb/trading/backUp/auto_trade_backUp.py:85-113 | with an empty volume or order-book cache no coin is ever picked |
| AutoTradeBackup.BackupExit | autoCodeProWeb/trading/backUp/auto_trade_backUp.py:323-405 | one iff per exit reason fixes the order: the 1% take-profit iff up 1% and not bullish; else the trailing stop (high raised at +2%, armed at +2%, 1% under it); else the bullish time exit after 360 s at +1%; the neutral/bearish time exit never fires; with a positive buy price the volatility stop, the fixed stop only in the high-volatility band above 96%, and Hold otherwise |
| Compare1.Compare1Exit | compareFile/compare1.py:64-95 | crash stop iff price ≤ 0.95·high; take-profit iff not crashed and price ≥ 1.02·buy; trailing stop only at ≤ 0.99·high; loss cut only above it |
| Compare1.LossCutUnreachable | compareFile/compare1.py:64-95 | with high ≥ buy > 0 the loss cut never fires, and a sell happens iff price ≤ 0.99·high or price ≥ 1.02·buy |
| Compare1.Load1 | compareFile/compare1.py:10-12 | the view has exactly the active markets, without creation times |
| Compare1.Plan1 | compareFile/compare1.py:39-95 | closed iff the order filled; skipped iff not filled and the price is missing or 0; otherwise watched, with high-water price max(stored, price) and `Compare1Exit` deciding |
| Compare1.Filled1 | compareFile/compare1.py:39-43 | exactly the tracked markets of the rows whose order filled are cleared |
| Compare1.Trades1 | compareFile/compare1.py:35-95 | filled positions leave memory, positions of no row are untouched, and every kept position carries a high-water price |
| Compare1.SoldFailed1 | compareFile/compare1.py:64-95 | only tracked markets can fail a sell |
| Compare1.Decision1 | compareFile/compare1.py:101-117 | a buy needs an active trader below 3 positions, an untracked market outside the 3% set, and min(budget, balance) ≥ 5000 |
| Compare1.Reconcile1 | compareFile/compare1.py:25-32 | exactly the unheld tracked markets are cleared in the table and in memory, and are dropped from the markets returned |
| Compare1.ManagePosition1 | compareFile/compare1.py:35-95 | one loop pass: clear on fill, skip without a price, otherwise raise the in-memory high and sell iff `Compare1Exit` sells |
| Compare1.ManageRow1 | compareFile/compare1.py:35-95 | one loop pass extends the loop state by one row |
| Compare1.ManagePositions1 | compareFile/compare1.py:35-95 | the loop's result equals the loop functions |
| Compare1.ExecuteTrade | compareFile/compare1.py:1-123 | without market data only memory is rebuilt; otherwise the tick's state is given by the feed functions on the reconciled table |
| Compare1.Feed1 | compareFile/compare1.py:35-123 | the loop and then the trader's entry, composed |
| Compare1.SellRequests1Facts | compareFile/compare1.py:35-95 | every sell is for a tracked, non-excluded market whose rules sell; with distinct rows, at most one per market |
| Compare1.Feed1HighWater | compareFile/compare1.py:50-52 | the table's high-water prices are never written, and the in-memory high never falls |
| Compare1.NeverLossCuts | compareFile/compare1.py:88-95 | on a table whose highs are at or above positive buy prices, no position's plan is a loss cut |
| Compare1.Feed1LeavesUntracked | compareFile/compare1.py:35-123 | an untracked market gets no sell and stays inactive unless bought |
| Compare1.Tick1Reconciles | compareFile/compare1.py:25-32 | a hand-sold market gets no sell, and stays inactive unless bought afresh |
| Backtest.BacktestStrategy | autoCodeProWeb/trading/aiTrade/aiTrading_btc_15.py:85-116 | the loop's result equals `Profit`: the bars run through `BarStep` from 1,000,000 cash, then (final/initial − 1)·100 |
| Backtest.TradeBar | autoCodeProWeb/trading/aiTrade/aiTrading_btc_15.py:93-113 | one bar: buy only when flat on the buy signal, sell on the sell signal, then the stop-loss, then the take-profit |
| Backtest.BarTradesOnce | autoCodeProWeb/trading/aiTrade/aiTrading_btc_15.py:94-113 | the stop-loss and the take-profit never both fire; with stop ≤ 1 ≤ tp the buy bar only buys and keeps its position |
| Backtest.BarKeepsOneSide | autoCodeProWeb/trading/aiTrade/aiTrading_btc_15.py:92-113 | at a positive price a bar keeps exactly one of cash and coins nonzero |
| Backtest.RunKeepsOneSide | autoCodeProWeb/trading/aiTrade/aiTrading_btc_15.py:87-113 | with positive prices the run succeeds and after every bar exactly one of balance and position is nonzero |
| Backtest.NoTradesNoProfit | autoCodeProWeb/trading/aiTrade/aiTrading_btc_15.py:87-116 | without a buy signal the account never changes and the return is 0 |
| Backtest.Grid | autoCodeProWeb/trading/aiTrade/aiTrading_btc_15.py:70-75 | 3·3·2·2 = 36 configurations |
| Backtest.GridIsProduct | autoCodeProWeb/trading/aiTrade/aiTrading_btc_15.py:70-75 | each combination sits once in the grid, at its `product` position |
| Backtest.Search | autoCodeProWeb/trading/aiTrade/aiTrading_btc_15.py:75-83 | the best return dominates every tried one and −9999; the kept configuration is the first with it, and is None iff nothing beat −9999 |
| Backtest.OptimizeStrategy | autoCodeProWeb/trading/aiTrade/aiTrading_btc_15.py:65-83 | the loop over the grid equals `Search` of the grid |
| Backtest.TopRows | autoCodeProWeb/trading/aiTrade/aiTrading_btc_15.py:54 | exactly min(10, number of rows) rows, as a sub-multiset, by descending traded value (missing = 0); none left out is larger, and equal values keep their input order |
| Backtest.TopTradeCoins | autoCodeProWeb/trading/aiTrade/aiTrading_btc_15.py:32-63 | a reply that is not a list, or a failed request, gives []; otherwise market and price of the top rows, in order |
| Backtest.TopTradeCoinsFromRows | autoCodeProWeb/trading/aiTrade/aiTrading_btc_15.py:54-56 | at most 10 coins, each from a row, in descending traded value |

## Left out

- HTTP requests, JWT signing and SHA-512 hashing are not modelled. Every exchange reply is an input of the tick.
- Threads, `_run_trading` and its exception-driven retry are not modelled. Neither is the thread spawning or joining in `start_trading`/`stop_trading`; only their flag logic is kept.
- Django ORM transactions are not modelled. The `TradeRecord` table is a map keyed by its unique market.
- Floating-point rounding is not modelled. All prices are exact reals.
- The indicator computations (`calculate_rsi`, `calculate_macd`, `apply_technical_indicators`) are not modelled. The backtest reads the RSI, MACD and signal as given bar values, and the search takes the frame of each (RSI range, MACD setting) as a function.
- `mainAI`, `get_historical_data`, `fetch_all_data`, `dayTrading.py`, `views.py`, `urls.py`, `serializers.py` and `apps.py` are not part of this model.
- `load_active_trade`, `recently_sold`, `getRecntTradeLog` and `listProfit` are not modelled. They do not affect any decision.
- `get_combined_market_trend` is not part of this model. The trend is an input label.
- AutoTrade.AutoTrader.ExecuteTrade: the log lines a tick writes are not modelled. Its contract says nothing about the log.
- AutoTrade.AutoTrader.ExecuteTrade: requires that the tick's rows list each active record once, as the unique market column guarantees.
- AutoTrade.AutoTrader.SaveTrade: the record's `buy_krw_price` field is written, although `models.py` does not declare it.
- AutoTradeBackup.BackupSelect: reads the traded volume and the day's high from full ticker rows, which the current `get_krw_market_coin_info` no longer returns.
- Compare1.ExecuteTrade: requires every active record to have a high-water price. On a record without one, `max(None, price)` raises, and that exception is not modelled.
- CandidateSelection.PassesBook (and AutoTradeBackup.BackupPassesBook): a book whose best bid is 0 is rejected by the model. In Python the spread division raises `ZeroDivisionError` (auto_trade.py:58-59, auto_trade_backUp.py:119-120), which aborts the whole selection and with it the tick's entry; the model instead skips that coin and may still pick another.
- AutoTradeBackup.MarketCaches.UpdateVolumeCache: two failures are not modelled. The current `get_krw_market_coin_info` (utils.py:47-54) returns no `trade_volume`, so `coin["trade_volume"]` raises `KeyError`; and on the error-tag reply the loop iterates over a dict and indexes a string, which raises `TypeError`. The model's update takes full ticker rows only, so neither failure has a counterpart in it.
- AutoTrade.AutoTrader.ExecuteTrade: two exceptions that abort a tick are not modelled. When the account request fails, `get_account_info` returns the error tag (utils.py:30), and the holdings comprehension (auto_trade.py:180, auto_trade_backUp.py:250) then raises `TypeError`; the model's account listing is always a list. A position whose buy price is 0 raises `ZeroDivisionError` in the profit-rate line (auto_trade.py:240, auto_trade_backUp.py:312) before its exit is decided; the model decides an exit for it.
- Compare1.ExecuteTrade: the same two exceptions are not modelled: the error-tag account reply at compare1.py:4 and the zero buy price in the profit-rate line at compare1.py:58.
- Compare1.Reconcile1: line 32 (and line 42 in the loop) deletes a key that `clear_trade` has already removed, which raises `KeyError` in Python. The model performs a single removal and continues.
- Compare1.Feed1: compare1.py calls `save_trade` with three arguments, while the trader's method takes four. The model saves with the trader's budget.
- Backtest.BacktestStrategy: a buy at a zero price gives None. NumPy's division would instead give an infinite position, which reals cannot express.
- Backtest.TopTradeCoins: a row missing `market` or `trade_price` raises `KeyError`, which is not modelled. The unused first request (`res`) is left out too.

=== FILE: auto_trade.dfy ===
/** The trader of autoCodeProWeb/trading/auto_trade.py: one tick of
    `execute_trade` reloads the active positions from the TradeRecord table,
    drops the ones the user sold by hand, manages every remaining position
    (fill check, high-water price, at most one sell), and then opens at most
    one new position. The exchange, the account, the clock and the trend
    classifier are inputs of the tick; the state is the table, the
    in-memory view, the order gateway and the order-book cache.

    The same class also runs the exit order and selector of the backup file
    autoCodeProWeb/trading/backUp/auto_trade_backUp.py (rules `BackupRules`),
    whose `execute_trade` is otherwise the same. */
module AutoTrade {
  import opened Common
  import opened Exchange
  import opened CandidateSelection
  import opened AutoTradeBackup
  import opened Positions

  // ---------------------------------------------------------------------
  // Tick inputs
  // ---------------------------------------------------------------------

  /** One entry of the account listing. */
  datatype Balance = Balance(currency: string, balance: real)

  function BalanceCurrency(b: Balance): string { b.currency }

  /** `{item["currency"]: item for item in account_info}`. */
  function Holdings(accounts: seq<Balance>): map<string, Balance>
  {
    KeyBy(accounts, BalanceCurrency)
  }

  /** The first "KRW" balance of the listing, or 0 when there is none. */
  function KrwBalance(accounts: seq<Balance>): (r: real)
    ensures (forall b :: b in accounts ==> b.currency != "KRW") ==> r == 0.0
    ensures (exists b :: b in accounts && b.currency == "KRW") ==>
      exists i :: (&& 0 <= i < |accounts| && accounts[i].currency == "KRW" && r == accounts[i].balance
                   && forall j :: 0 <= j < i ==> accounts[j].currency != "KRW")
  {
    if accounts == [] then 0.0
    else if accounts[0].currency == "KRW" then accounts[0].balance
    else
      assert forall b :: b in accounts[1..] ==> b in accounts;
      assert forall b :: b in accounts ==> b == accounts[0] || b in accounts[1..];
      var r := KrwBalance(accounts[1..]);
      assert (exists b :: b in accounts[1..] && b.currency == "KRW") ==>
        exists i :: (&& 0 <= i < |accounts| && accounts[i].currency == "KRW" && r == accounts[i].balance
                     && forall j :: 0 <= j < i ==> accounts[j].currency != "KRW") by {
        if exists b :: b in accounts[1..] && b.currency == "KRW" {
          var i :| && 0 <= i < |accounts[1..]| && accounts[1..][i].currency == "KRW" && r == accounts[1..][i].balance
                   && forall j :: 0 <= j < i ==> accounts[1..][j].currency != "KRW";
          assert accounts[i + 1] == accounts[1..][i];
          forall j | 0 <= j < i + 1 ensures accounts[j].currency != "KRW" {
            if j > 0 { assert accounts[j] == accounts[1..][j - 1]; }
          }
        }
      }
      r
  }

  /** The volume of a market sell: the held balance of the currency, or 0. */
  function SellVolume(holdings: map<string, Balance>, currency: string): Arg
  {
    if currency in holdings then Num(holdings[currency].balance) else Num(0.0)
  }

  /** The first row's price for `market`, or None when no row has it. */
  function PriceOf(coins: seq<Quote>, market: string): (r: Option<real>)
    ensures r.None? <==> forall q :: q in coins ==> q.market != market
    ensures r.Some? ==>
      exists i :: (&& 0 <= i < |coins| && coins[i].market == market && coins[i].tradePrice == r.value
                   && forall j :: 0 <= j < i ==> coins[j].market != market)
  {
    if coins == [] then None
    else if coins[0].market == market then Some(coins[0].tradePrice)
    else
      assert forall q :: q in coins ==> q == coins[0] || q in coins[1..];
      var r := PriceOf(coins[1..], market);
      assert r.Some? ==>
        exists i :: (&& 0 <= i < |coins| && coins[i].market == market && coins[i].tradePrice == r.value
                     && forall j :: 0 <= j < i ==> coins[j].market != market) by {
        if r.Some? {
          var i :| && 0 <= i < |coins[1..]| && coins[1..][i].market == market && coins[1..][i].tradePrice == r.value
                   && forall j :: 0 <= j < i ==> coins[1..][j].market != market;
          assert coins[i + 1] == coins[1..][i];
          forall j | 0 <= j < i + 1 ensures coins[j].market != market {
            if j > 0 { assert coins[j] == coins[1..][j - 1]; }
          }
        }
      }
      r
  }

  /** The markets whose day-over-day change exceeds `threshold` in absolute
      value (the last row of a market decides, as in a dict comprehension). */
  function HighVolatility(coins: seq<Quote>, threshold: real): (r: set<string>)
    ensures forall m :: m in r ==> exists q :: q in coins && q.market == m && Abs(q.changeRate) > threshold
    ensures forall q :: (&& q in coins && Abs(q.changeRate) > threshold
                         && forall q2 :: q2 in coins && q2.market == q.market ==> q2 == q) ==> q.market in r
  {
    var latest := KeyBy(coins, QuoteMarket);
    set m | m in latest && Abs(latest[m].changeRate) > threshold
  }

  function QuoteMarket(q: Quote): string { q.market }

  /** Which exit order and selector the trader runs. The backup file's
      selector reads its volume and sample caches and its own order-book
      cache, which that file never writes; they are given here as values. */
  datatype Rules =
    | CurrentRules
    | BackupRules(tickers: TickerFeed, caches: Caches, books: map<string, CacheEntry>)

  /** Everything the outside world answers during one tick. */
  datatype Tick = Tick(
    accounts: seq<Balance>,                        // get_account_info()
    trend: Trend,                                  // get_combined_market_trend()
    now: real,                                     // timezone.now(), seconds
    feed: Feed,                                    // get_krw_market_coin_info()
    rows: seq<string>,                             // active records, in query order
    orderState: Option<string> -> OrderQuery,      // the order query, by uuid
    replies: (string, string) -> OrderResponse,    // order replies, by market and side
    selectFeed: Feed,                              // the selector's own market-data call
    selectNow: real,                               // time.time() in the selector
    fetchBooks: seq<string> -> BookReply)          // get_orderbook's reply

  /** No element occurs twice. */
  ghost predicate Distinct<T>(s: seq<T>)
  {
    forall i, j :: 0 <= i < j < |s| ==> s[i] != s[j]
  }

  /** In a list without repeats, an element is not among the ones before it. */
  lemma NotBefore<T>(s: seq<T>, i: int)
    requires Distinct(s) && 0 <= i < |s|
    ensures s[i] !in s[..i]
  {
    assert forall k :: 0 <= k < i ==> s[..i][k] == s[k];
  }

  /** The rows of a tick list every active record once. */
  ghost predicate RowsMatch(rows: seq<string>, store: Store)
  {
    && Distinct(rows)
    && (forall m :: m in rows <==> m in Active(store))
  }

  /** The inputs of the position loop. */
  datatype Env = Env(
    rules: Rules,
    trend: Trend,
    now: real,
    coins: seq<Quote>,
    highVol: set<string>,
    orderState: Option<string> -> OrderQuery,
    replies: (string, string) -> OrderResponse,
    holdings: map<string, Balance>)

  /** Markets moving more than 5% are high-volatility. */
  const VolatilityThreshold: real := 0.05

  function EnvOf(tick: Tick, rules: Rules): Env
    requires tick.feed.Quotes?
  {
    Env(rules, tick.trend, tick.now, tick.feed.coins, HighVolatility(tick.feed.coins, VolatilityThreshold),
        tick.orderState, tick.replies, Holdings(tick.accounts))
  }

  // ---------------------------------------------------------------------
  // One position
  // ---------------------------------------------------------------------

  function ExitFor(rules: Rules, trend: Trend, holding: real, buy: real, price: real, h: real, highVol: bool): Exit
    requires h >= price
  {
    if rules.CurrentRules? then CurrentExit(trend, holding, buy, price, h, highVol)
    else BackupExit(trend, holding, buy, price, h, highVol)
  }

  /** What a tick does with one position: its order filled (closed), no
      usable price (skipped), or watched with a new high-water price and an
      exit decision. */
  datatype Step = Closed | Skipped | Watched(highest: real, exit: Exit)

  function Plan(env: Env, market: string, p: Position): (s: Step)
    ensures s == Closed <==> CheckOrderFilled(env.orderState(p.uuid))
    ensures s == Skipped <==>
      !CheckOrderFilled(env.orderState(p.uuid)) && (PriceOf(env.coins, market).None? || PriceOf(env.coins, market).value == 0.0)
    ensures s.Watched? ==>
      var price := PriceOf(env.coins, market).value;
      var start := if p.highestPrice.Some? then p.highestPrice.value else p.buyPrice;
      && price != 0.0
      && s.highest >= price && s.highest >= start
      && (s.highest == price || s.highest == start)
  {
    if CheckOrderFilled(env.orderState(p.uuid)) then Closed
    else
      var price := PriceOf(env.coins, market);
      if price.None? || price.value == 0.0 then Skipped
      else
        var h := HighWater(p.highestPrice, p.buyPrice, price.value);
        Watched(h, ExitFor(env.rules, env.trend, HoldingTime(env.now, p.createdAt), p.buyPrice, price.value, h,
                           market in env.highVol))
  }

  predicate Sells(env: Env, market: string, p: Position)
  {
    Plan(env, market, p).Watched? && Plan(env, market, p).exit.Sell?
  }

  /** The record after the step: closed records become inactive, watched
      ones carry the new high-water price. */
  function RecordAfter(r: TradeRecord, s: Step): TradeRecord
  {
    match s
    case Closed => r.(isActive := false)
    case Skipped => r
    case Watched(h, _) => r.(highestPrice := Some(h))
  }

  /** The in-memory position after the step; a placed sell's uuid is kept
      here only. */
  function PositionAfter(p: Position, s: Step, reply: OrderResponse, excluded: bool): Position
  {
    match s
    case Closed => p
    case Skipped => p
    case Watched(h, exit) =>
      if exit.Sell? && OrderOutcome(excluded, reply).Placed? then p.(highestPrice := Some(h), uuid := Some(reply.uuid))
      else p.(highestPrice := Some(h))
  }

  /** The sell request for a market. */
  function SellParams(env: Env, market: string): map<string, Arg>
  {
    OrderParams(market, "ask", SellVolume(env.holdings, Currency(market)), NoArg, "market", None)
  }

  // ---------------------------------------------------------------------
  // The position loop, as values
  // ---------------------------------------------------------------------

  /** The table after the positions of `trades` listed in `rows` are managed. */
  function Managed(store: Store, trades: map<string, Position>, env: Env, rows: seq<string>): (r: Store)
    ensures r.Keys == store.Keys
  {
    map m | m in store :: if m in trades && m in rows then RecordAfter(store[m], Plan(env, m, trades[m])) else store[m]
  }

  /** The in-memory view after the same positions are managed. */
  function TradesAfter(trades: map<string, Position>, env: Env, failed: set<string>, rows: seq<string>): map<string, Position>
  {
    map m | m in trades && !(m in rows && Plan(env, m, trades[m]).Closed?) ::
      if m in rows then PositionAfter(trades[m], Plan(env, m, trades[m]), env.replies(m, "ask"), m in failed)
      else trades[m]
  }

  /** The sell requests sent, in row order: one per selling position whose
      market is not excluded. */
  function SellRequests(rows: seq<string>, trades: map<string, Position>, env: Env, failed: set<string>): seq<map<string, Arg>>
  {
    if rows == [] then []
    else
      var m := rows[|rows| - 1];
      SellRequests(rows[..|rows| - 1], trades, env, failed)
        + (if m in trades && Sells(env, m, trades[m]) && m !in failed then [SellParams(env, m)] else [])
  }

  /** The markets whose sell attempt came back as an error. */
  function SoldFailed(trades: map<string, Position>, env: Env, rows: seq<string>): set<string>
  {
    set m | m in trades && m in rows && Sells(env, m, trades[m]) && env.replies(m, "ask").status != 201
  }

  // ---------------------------------------------------------------------
  // Entry, as values
  // ---------------------------------------------------------------------

  /** A coin offered by a selector: its market and its price. */
  datatype Candidate = Candidate(market: string, price: real)

  /** The entry decision: no buy, or a buy of `amount` won on `market`,
      recorded at `price`. */
  datatype Entry = NoEntry | Buy(market: string, price: real, amount: real)

  const MinOrder: real := 5000.0
  const MaxPositions: nat := 3

  /** The entry gate once the trader is active and holds fewer than three
      positions: a candidate, not already held, not high-volatility, and at
      least 5000 won to spend (the smaller of the budget and the balance). */
  function EntryFor(markets: set<string>, highVol: set<string>, best: Option<Candidate>, budget: real, krw: real): (e: Entry)
    ensures e.Buy? <==>
      best.Some? && best.value.market !in markets && best.value.market !in highVol && Min(budget, krw) >= MinOrder
    ensures e.Buy? ==> e == Buy(best.value.market, best.value.price, Min(budget, krw))
  {
    if best.None? || best.value.market in markets || best.value.market in highVol then NoEntry
    else if Min(budget, krw) < MinOrder then NoEntry
    else Buy(best.value.market, best.value.price, Min(budget, krw))
  }

  /** The order-book cache after the selector ran. */
  function BooksAfter(rules: Rules, tick: Tick, entries: map<string, CacheEntry>): map<string, CacheEntry>
  {
    if rules.CurrentRules? then SelectedCache(entries, tick.selectFeed, tick.selectNow, tick.fetchBooks)
    else entries
  }

  /** The selector's pick, read against the cache it left. */
  function BestCandidate(rules: Rules, tick: Tick, entries: map<string, CacheEntry>): Option<Candidate>
  {
    match rules
    case CurrentRules =>
      if tick.selectFeed.FeedError? then None
      else QuoteCandidate(Choose(TopGainers(tick.selectFeed.coins), entries).best)
    case BackupRules(tickers, caches, bookCache) =>
      TickerCandidate(BackupSelect(tickers, caches, bookCache).best)
  }

  function QuoteCandidate(best: Option<Quote>): Option<Candidate>
  {
    if best.Some? then Some(Candidate(best.value.market, best.value.tradePrice)) else None
  }

  function TickerCandidate(best: Option<Ticker>): Option<Candidate>
  {
    if best.Some? then Some(Candidate(best.value.market, best.value.tradePrice)) else None
  }

  /** The selector runs only when the trader is active and holds fewer than
      three positions. */
  predicate Selects(isActive: bool, markets: set<string>)
  {
    |markets| < MaxPositions && isActive
  }

  function Decision(rules: Rules, tick: Tick, isActive: bool, markets: set<string>, highVol: set<string>,
                    budget: real, krw: real, entries: map<string, CacheEntry>): (e: Entry)
    ensures e.Buy? ==> Selects(isActive, markets) && e.market !in markets && e.market !in highVol
    ensures e.Buy? ==> e.amount >= MinOrder && e.amount == Min(budget, krw)
  {
    if !Selects(isActive, markets) then NoEntry
    else EntryFor(markets, highVol, BestCandidate(rules, tick, BooksAfter(rules, tick, entries)), budget, krw)
  }

  function BuyParams(e: Entry): map<string, Arg>
    requires e.Buy?
  {
    OrderParams(e.market, "bid", NoArg, Num(e.amount), "price", None)
  }

  predicate BuyPlaced(e: Entry, tick: Tick, failed: set<string>)
  {
    e.Buy? && OrderOutcome(e.market in failed, tick.replies(e.market, "bid")).Placed?
  }

  // ---------------------------------------------------------------------
  // One whole tick, as values
  // ---------------------------------------------------------------------

  function HeldCurrencies(accounts: seq<Balance>): set<string>
  {
    Holdings(accounts).Keys
  }

  /** The table after the hand-sold positions are cleared. */
  function Reconciled(store: Store, held: set<string>): (r: Store)
    ensures r.Keys == store.Keys
    ensures forall m :: m in store ==> r[m].isActive == (store[m].isActive && Currency(m) in held)
    ensures forall m :: m in store ==> r[m] == store[m] || r[m] == store[m].(isActive := false)
  {
    DeactivateAll(store, Unheld(Active(store), held))
  }

  // The part of a tick that runs once the market data arrived, on the
  // reconciled table `r` (lines 208-377).

  function FeedDecision(r: Store, tick: Tick, rules: Rules, isActive: bool, budget: real,
                        entries: map<string, CacheEntry>): (e: Entry)
    requires tick.feed.Quotes?
    ensures e.Buy? ==> Selects(isActive, Active(r)) && e.market !in Active(r)
    ensures e.Buy? ==> e.market !in HighVolatility(tick.feed.coins, VolatilityThreshold)
    ensures e.Buy? ==> e.amount == Min(budget, KrwBalance(tick.accounts)) && e.amount >= MinOrder
  {
    Decision(rules, tick, isActive, Active(r), EnvOf(tick, rules).highVol, budget, KrwBalance(tick.accounts), entries)
  }

  /** The table after the position loop and the entry `e`. */
  function FeedStore(r: Store, tick: Tick, env: Env, e: Entry, failed: set<string>, budget: real): Store
  {
    var managed := Managed(r, Load(r), env, tick.rows);
    if BuyPlaced(e, tick, failed) then Saved(managed, e.market, e.price, tick.replies(e.market, "bid").uuid, tick.now, budget)
    else managed
  }

  function FeedTrades(r: Store, tick: Tick, env: Env, e: Entry, failed: set<string>): map<string, Position>
  {
    var trades := TradesAfter(Load(r), env, failed, tick.rows);
    if BuyPlaced(e, tick, failed) then
      trades[e.market := Position(e.price, Some(e.price), Some(tick.replies(e.market, "bid").uuid), Some(tick.now))]
    else trades
  }

  function FeedRequests(r: Store, tick: Tick, env: Env, e: Entry, failed: set<string>): seq<map<string, Arg>>
  {
    SellRequests(tick.rows, Load(r), env, failed) + (if e.Buy? && e.market !in failed then [BuyParams(e)] else [])
  }

  function FeedFailed(r: Store, tick: Tick, env: Env, e: Entry, failed: set<string>): set<string>
  {
    failed + SoldFailed(Load(r), env, tick.rows) + (if e.Buy? && !BuyPlaced(e, tick, failed) then {e.market} else {})
  }

  // One whole tick (lines 175-377).

  /** The table after one tick. */
  function TickStore(store: Store, tick: Tick, rules: Rules, isActive: bool, budget: real,
                     failed: set<string>, entries: map<string, CacheEntry>): Store
  {
    var r := Reconciled(store, HeldCurrencies(tick.accounts));
    if tick.feed.FeedError? then r else FeedStore(r, tick, EnvOf(tick, rules), FeedDecision(r, tick, rules, isActive, budget, entries), failed, budget)
  }

  /** The in-memory view after one tick. */
  function TickTrades(store: Store, tick: Tick, rules: Rules, isActive: bool, budget: real,
                      failed: set<string>, entries: map<string, CacheEntry>): map<string, Position>
  {
    var r := Reconciled(store, HeldCurrencies(tick.accounts));
    if tick.feed.FeedError? then Load(r) else FeedTrades(r, tick, EnvOf(tick, rules), FeedDecision(r, tick, rules, isActive, budget, entries), failed)
  }

  /** The requests sent during one tick: the sells, then at most one buy. */
  function TickRequests(store: Store, tick: Tick, rules: Rules, isActive: bool, budget: real,
                        failed: set<string>, entries: map<string, CacheEntry>): seq<map<string, Arg>>
  {
    var r := Reconciled(store, HeldCurrencies(tick.accounts));
    if tick.feed.FeedError? then [] else FeedRequests(r, tick, EnvOf(tick, rules), FeedDecision(r, tick, rules, isActive, budget, entries), failed)
  }

  /** The excluded markets after one tick. */
  function TickFailed(store: Store, tick: Tick, rules: Rules, isActive: bool, budget: real,
                      failed: set<string>, entries: map<string, CacheEntry>): set<string>
  {
    var r := Reconciled(store, HeldCurrencies(tick.accounts));
    if tick.feed.FeedError? then failed else FeedFailed(r, tick, EnvOf(tick, rules), FeedDecision(r, tick, rules, isActive, budget, entries), failed)
  }

  /** The order-book cache after one tick. */
  function TickBooks(store: Store, tick: Tick, rules: Rules, isActive: bool, entries: map<string, CacheEntry>): map<string, CacheEntry>
  {
    var r := Reconciled(store, HeldCurrencies(tick.accounts));
    if tick.feed.FeedError? || !Selects(isActive, Active(r)) then entries
    else BooksAfter(rules, tick, entries)
  }

  // ---------------------------------------------------------------------
  // The trader
  // ---------------------------------------------------------------------

  const AlreadyRunning: string := "auto-trading is already running"
  const Started: string := "auto-trading started"
  const AlreadyStopped: string := "auto-trading is already stopped"
  const Stopped: string := "auto-trading stopped"

  class AutoTrader {
    const budget: real
    var isActive: bool
    var failedTrade: int
    var activeTrades: map<string, Position>
    /** The TradeRecord table. */
    var store: Store
    /** The module-level log, order gateway and order-book cache. */
    const log: TradeLog
    const gateway: OrderGateway
    const books: OrderbookCache

    ghost predicate Valid()
      reads this, log
    {
      log.Valid()
    }

    /** A new trader starts inactive with the table's active records loaded. */
    constructor(budget: real, store: Store, log: TradeLog, gateway: OrderGateway, books: OrderbookCache)
      requires log.Valid()
      ensures Valid()
      ensures this.budget == budget && this.store == store && activeTrades == Load(store)
      ensures !isActive && failedTrade == 0
      ensures this.log == log && this.gateway == gateway && this.books == books
    {
      this.budget := budget;
      isActive := false;
      failedTrade := 0;
      this.store := store;
      activeTrades := Load(store);
      this.log := log;
      this.gateway := gateway;
      this.books := books;
    }

    method Log(message: string)
      requires Valid()
      modifies log
      ensures Valid()
      ensures log.entries == Appended(old(log.entries), message)
    {
      log.Append(message);
    }

    /** `save_trade`: the market's record becomes an active position bought
        at `buyPrice`, mirrored in memory. */
    method SaveTrade(market: string, buyPrice: real, uuid: string, budget: real, now: real)
      modifies this
      ensures store == Saved(old(store), market, buyPrice, uuid, now, budget)
      ensures activeTrades == old(activeTrades)[market := Position(buyPrice, Some(buyPrice), Some(uuid), Some(now))]
      ensures isActive == old(isActive) && failedTrade == old(failedTrade)
    {
      store := store[market := TradeRecord(buyPrice, Some(buyPrice), Some(uuid), now, true, budget)];
      activeTrades := activeTrades[market := Position(buyPrice, Some(buyPrice), Some(uuid), Some(now))];
    }

    /** `clear_trade`: the market's record becomes inactive and it leaves
        the in-memory view. */
    method ClearTrade(market: string)
      modifies this
      ensures store == Cleared(old(store), market)
      ensures activeTrades == old(activeTrades) - {market}
      ensures isActive == old(isActive) && failedTrade == old(failedTrade)
    {
      if market in store {
        store := store[market := store[market].(isActive := false)];
      }
      if market in activeTrades {
        activeTrades := activeTrades - {market};
      }
    }

    /** `change_trade`, which does the same as `clear_trade`. */
    method ChangeTrade(market: string)
      modifies this
      ensures store == Cleared(old(store), market)
      ensures activeTrades == old(activeTrades) - {market}
      ensures isActive == old(isActive) && failedTrade == old(failedTrade)
    {
      ClearTrade(market);
    }

    /** `start_trading`, without the thread it spawns. */
    method StartTrading()
      requires Valid()
      modifies this, log
      ensures Valid()
      ensures isActive
      ensures old(isActive) ==> failedTrade == old(failedTrade) && log.entries == Appended(old(log.entries), AlreadyRunning)
      ensures !old(isActive) ==> failedTrade == 0 && log.entries == Appended(old(log.entries), Started)
      ensures store == old(store) && activeTrades == old(activeTrades)
    {
      if isActive {
        Log(AlreadyRunning);
        return;
      }
      isActive := true;
      failedTrade := 0;
      Log(Started);
    }

    /** `stop_trading`, without the thread join. */
    method StopTrading()
      requires Valid()
      modifies this, log
      ensures Valid()
      ensures !isActive
      ensures !old(isActive) ==> log.entries == Appended(old(log.entries), AlreadyStopped)
      ensures old(isActive) ==> log.entries == Appended(old(log.entries), Stopped)
      ensures failedTrade == old(failedTrade) && store == old(store) && activeTrades == old(activeTrades)
    {
      if !isActive {
        Log(AlreadyStopped);
        return;
      }
      isActive := false;
      Log(Stopped);
    }

    /** Lines 192-199: every tracked market whose currency is not held is
        cleared and dropped from `markets`; no order is sent. */
    method Reconcile(held: set<string>) returns (markets: set<string>)
      requires activeTrades == Load(store)
      modifies this
      ensures store == Reconciled(old(store), held)
      ensures activeTrades == Load(store)
      ensures markets == Active(old(store)) - Unheld(Active(old(store)), held)
      ensures isActive == old(isActive) && failedTrade == old(failedTrade)
    {
      markets := activeTrades.Keys;
      var todo := activeTrades.Keys;
      ghost var done: set<string> := {};
      while todo != {}
        invariant todo <= Active(old(store))
        invariant done == Unheld(Active(old(store)) - todo, held)
        invariant store == DeactivateAll(old(store), done)
        invariant activeTrades == Load(store)
        invariant markets == Active(old(store)) - done
        invariant isActive == old(isActive) && failedTrade == old(failedTrade)
        decreases todo
      {
        var m :| m in todo;
        if Currency(m) !in held {
          ClearStep(old(store), done, m);
          ClearTwice(store, m);
          ClearTrade(m);
          markets := markets - {m};
          done := done + {m};
        }
        todo := todo - {m};
      }
    }

    /** Lines 227-234: the high-water price becomes the buy price when it
        is missing and is raised to a higher current price, in the table and
        in memory. */
    method RaiseHighWater(market: string, current: real) returns (h: real)
      requires market in activeTrades && market in store
      requires store[market].highestPrice == activeTrades[market].highestPrice
      modifies this
      ensures var p := old(activeTrades)[market];
        && h == HighWater(p.highestPrice, p.buyPrice, current)
        && store == old(store)[market := old(store)[market].(highestPrice := Some(h))]
        && activeTrades == old(activeTrades)[market := p.(highestPrice := Some(h))]
      ensures isActive == old(isActive) && failedTrade == old(failedTrade)
    {
      var p := activeTrades[market];
      var highest := p.highestPrice;
      if highest.None? {
        highest := Some(p.buyPrice);
        store := store[market := store[market].(highestPrice := highest)];
      }
      if current > highest.value {
        highest := Some(current);
        store := store[market := store[market].(highestPrice := highest)];
      }
      activeTrades := activeTrades[market := p.(highestPrice := highest)];
      h := highest.value;
    }

    /** Lines 275-348, the order side: a market sell of the whole holding;
        a placed order's uuid replaces the position's in memory only. */
    method SellPosition(env: Env, market: string)
      requires market in activeTrades
      modifies this, gateway
      ensures var r := OrderOutcome(market in old(gateway.failedMarkets), env.replies(market, "ask"));
        && gateway.sent == old(gateway.sent) + (if market in old(gateway.failedMarkets) then [] else [SellParams(env, market)])
        && gateway.failedMarkets == old(gateway.failedMarkets) + (if r.Failed? then {market} else {})
        && gateway.failedTable == old(gateway.failedTable)
             + (if r.Failed? && market !in old(gateway.failedMarkets) then {market} else {})
        && activeTrades == (if r.Placed? then old(activeTrades)[market := old(activeTrades)[market].(uuid := Some(r.uuid))]
                            else old(activeTrades))
      ensures store == old(store) && isActive == old(isActive) && failedTrade == old(failedTrade)
    {
      var reply := gateway.Order(market, "ask", SellVolume(env.holdings, Currency(market)), NoArg, "market", None,
                                 env.replies(market, "ask"));
      if reply.Placed? {
        activeTrades := activeTrades[market := activeTrades[market].(uuid := Some(reply.uuid))];
      }
    }

    /** One iteration of the position loop (lines 213-348): a filled order
        closes the position; a missing or zero price skips it; otherwise the
        high-water price is kept up and at most one sell is sent. */
    method ManagePosition(env: Env, market: string)
      requires market in activeTrades && market in store
      requires store[market].highestPrice == activeTrades[market].highestPrice
      modifies this, gateway
      ensures var s := Plan(env, market, old(activeTrades)[market]);
        && store == old(store)[market := RecordAfter(old(store)[market], s)]
        && activeTrades == (if s.Closed? then old(activeTrades) - {market}
                            else old(activeTrades)[market := PositionAfter(old(activeTrades)[market], s,
                                                      env.replies(market, "ask"), market in old(gateway.failedMarkets))])
      ensures Sells(env, market, old(activeTrades)[market]) ==>
        var r := OrderOutcome(market in old(gateway.failedMarkets), env.replies(market, "ask"));
        && gateway.sent == old(gateway.sent) + (if market in old(gateway.failedMarkets) then [] else [SellParams(env, market)])
        && gateway.failedMarkets == old(gateway.failedMarkets) + (if r.Failed? then {market} else {})
        && gateway.failedTable == old(gateway.failedTable)
             + (if r.Failed? && market !in old(gateway.failedMarkets) then {market} else {})
      ensures !Sells(env, market, old(activeTrades)[market]) ==>
        && gateway.sent == old(gateway.sent)
        && gateway.failedMarkets == old(gateway.failedMarkets)
        && gateway.failedTable == old(gateway.failedTable)
      ensures isActive == old(isActive) && failedTrade == old(failedTrade)
    {
      var p := activeTrades[market];
      if CheckOrderFilled(env.orderState(p.uuid)) {
        ClearTrade(market);
        return;
      }
      var price := PriceOf(env.coins, market);
      if price.None? || price.value == 0.0 {
        return;
      }
      var current := price.value;
      var h := RaiseHighWater(market, current);
      var holding := HoldingTime(env.now, p.createdAt);
      var exit := ExitFor(env.rules, env.trend, holding, p.buyPrice, current, h, market in env.highVol);
      assert Plan(env, market, p) == Watched(h, exit);
      if exit.Sell? {
        SellPosition(env, market);
      }
    }

    /** The loop state after the rows `done` were managed, starting from
        the table `store0`, the view `trades0` and the gateway state. */
    ghost predicate ManagedSoFar(env: Env, store0: Store, trades0: map<string, Position>, sent0: seq<map<string, Arg>>,
                                 failed0: set<string>, table0: set<string>, done: seq<string>)
      reads this, gateway
    {
      && store == Managed(store0, trades0, env, done)
      && activeTrades == TradesAfter(trades0, env, failed0, done)
      && gateway.sent == sent0 + SellRequests(done, trades0, env, failed0)
      && gateway.failedMarkets == failed0 + SoldFailed(trades0, env, done)
      && gateway.failedTable == table0 + (SoldFailed(trades0, env, done) - failed0)
    }

    /** One pass of the loop body, on the row `m`. */
    method ManageRow(env: Env, m: string, ghost store0: Store, ghost trades0: map<string, Position>,
                     ghost sent0: seq<map<string, Arg>>, ghost failed0: set<string>, ghost table0: set<string>,
                     ghost done: seq<string>)
      requires trades0 == Load(store0) && m !in done
      requires ManagedSoFar(env, store0, trades0, sent0, failed0, table0, done)
      modifies this, gateway
      ensures ManagedSoFar(env, store0, trades0, sent0, failed0, table0, done + [m])
      ensures isActive == old(isActive) && failedTrade == old(failedTrade)
    {
      RowUntouched(store0, trades0, env, failed0, done, m);
      if m in activeTrades {
        ghost var store1, trades1, sent1, failed1, table1 := store, activeTrades, gateway.sent, gateway.failedMarkets, gateway.failedTable;
        assert m in failed1 <==> m in failed0;
        ManagePosition(env, m);
        RowStore(store0, trades0, env, done, m, store1, store);
        RowTrades(trades0, env, failed0, done, m, trades1, activeTrades);
        RowSent(trades0, env, failed0, done, m, sent0, sent1, gateway.sent, failed1);
        RowFailed(trades0, env, failed0, done, m, failed1, gateway.failedMarkets, table0, table1, gateway.failedTable);
      } else {
        RowAbsent(store0, trades0, env, failed0, done, m);
      }
    }

    /** The position loop (lines 212-348) over the rows of the query. */
    method ManagePositions(env: Env, rows: seq<string>)
      requires Distinct(rows)
      requires activeTrades == Load(store)
      modifies this, gateway
      ensures ManagedSoFar(env, old(store), old(activeTrades), old(gateway.sent), old(gateway.failedMarkets),
                           old(gateway.failedTable), rows)
      ensures isActive == old(isActive) && failedTrade == old(failedTrade)
    {
      var i := 0;
      while i < |rows|
        invariant 0 <= i <= |rows|
        invariant ManagedSoFar(env, old(store), old(activeTrades), old(gateway.sent), old(gateway.failedMarkets),
                               old(gateway.failedTable), rows[..i])
        invariant isActive == old(isActive) && failedTrade == old(failedTrade)
      {
        assert rows[..i + 1] == rows[..i] + [rows[i]];
        NotBefore(rows, i);
        ManageRow(env, rows[i], old(store), old(activeTrades), old(gateway.sent), old(gateway.failedMarkets),
                  old(gateway.failedTable), rows[..i]);
        i := i + 1;
      }
      assert rows[..|rows|] == rows;
    }

    /** Lines 351-377: the entry. Nothing happens at three or more tracked
        markets or when stopped; otherwise the selector runs, and a
        candidate that is new, calm and affordable is bought for
        min(budget, balance) won and saved only on a placed order. */
    method Enter(env: Env, tick: Tick, markets: set<string>, krw: real)
      modifies this, gateway, books
      ensures var e := Decision(env.rules, tick, old(isActive), markets, env.highVol, budget, krw, old(books.entries));
        var placed := BuyPlaced(e, tick, old(gateway.failedMarkets));
        && books.entries == (if Selects(old(isActive), markets) then BooksAfter(env.rules, tick, old(books.entries))
                             else old(books.entries))
        && store == (if placed then Saved(old(store), e.market, e.price, tick.replies(e.market, "bid").uuid, tick.now, budget)
                     else old(store))
        && activeTrades == (if placed then old(activeTrades)[e.market := Position(e.price, Some(e.price),
                                                                 Some(tick.replies(e.market, "bid").uuid), Some(tick.now))]
                            else old(activeTrades))
        && gateway.sent == old(gateway.sent) + (if e.Buy? && e.market !in old(gateway.failedMarkets) then [BuyParams(e)] else [])
        && gateway.failedMarkets == old(gateway.failedMarkets) + (if e.Buy? && !placed then {e.market} else {})
        && gateway.failedTable == old(gateway.failedTable)
             + (if e.Buy? && !placed && e.market !in old(gateway.failedMarkets) then {e.market} else {})
      ensures isActive == old(isActive) && failedTrade == old(failedTrade)
    {
      if |markets| >= MaxPositions || !isActive {
        return;
      }
      var best := Pick(env.rules, tick);
      if best.None? || best.value.market in markets || best.value.market in env.highVol {
        return;
      }
      var amount := Min(budget, krw);
      if amount < MinOrder {
        return;
      }
      BuyCoin(Buy(best.value.market, best.value.price, amount), tick);
    }

    /** The selector of the rules in force (line 363); only the current
        selector touches the order-book cache. */
    method Pick(rules: Rules, tick: Tick) returns (best: Option<Candidate>)
      modifies books
      ensures books.entries == BooksAfter(rules, tick, old(books.entries))
      ensures best == BestCandidate(rules, tick, books.entries)
    {
      match rules {
        case CurrentRules =>
          var s := books.BestTradeCoin(tick.selectFeed, tick.selectNow, tick.fetchBooks);
          best := QuoteCandidate(s.best);
        case BackupRules(tickers, caches, bookCache) =>
          best := TickerCandidate(BackupSelect(tickers, caches, bookCache).best);
      }
    }

    /** Lines 374-377: the buy order, and the save on a placed order. */
    method BuyCoin(e: Entry, tick: Tick)
      requires e.Buy?
      modifies this, gateway
      ensures var placed := BuyPlaced(e, tick, old(gateway.failedMarkets));
        && store == (if placed then Saved(old(store), e.market, e.price, tick.replies(e.market, "bid").uuid, tick.now, budget)
                     else old(store))
        && activeTrades == (if placed then old(activeTrades)[e.market := Position(e.price, Some(e.price),
                                                                 Some(tick.replies(e.market, "bid").uuid), Some(tick.now))]
                            else old(activeTrades))
        && gateway.sent == old(gateway.sent) + (if e.market !in old(gateway.failedMarkets) then [BuyParams(e)] else [])
        && gateway.failedMarkets == old(gateway.failedMarkets) + (if !placed then {e.market} else {})
        && gateway.failedTable == old(gateway.failedTable)
             + (if !placed && e.market !in old(gateway.failedMarkets) then {e.market} else {})
      ensures isActive == old(isActive) && failedTrade == old(failedTrade)
    {
      var reply := gateway.Order(e.market, "bid", NoArg, Num(e.amount), "price", None, tick.replies(e.market, "bid"));
      if reply.Placed? {
        SaveTrade(e.market, e.price, reply.uuid, budget, tick.now);
      }
    }

    /** Lines 208-377 on the reconciled table: the positions, then the
        entry. */
    method TradeOnFeed(tick: Tick, rules: Rules, markets: set<string>, krw: real)
      requires tick.feed.Quotes?
      requires Distinct(tick.rows)
      requires activeTrades == Load(store) && markets == Active(store) && krw == KrwBalance(tick.accounts)
      modifies this, gateway, books
      ensures var failed := old(gateway.failedMarkets);
        var entries := old(books.entries);
        var e := FeedDecision(old(store), tick, rules, old(isActive), budget, entries);
        && store == FeedStore(old(store), tick, EnvOf(tick, rules), e, failed, budget)
        && activeTrades == FeedTrades(old(store), tick, EnvOf(tick, rules), e, failed)
        && gateway.sent == old(gateway.sent) + FeedRequests(old(store), tick, EnvOf(tick, rules), e, failed)
        && gateway.failedMarkets == FeedFailed(old(store), tick, EnvOf(tick, rules), e, failed)
        && gateway.failedTable == old(gateway.failedTable) + (gateway.failedMarkets - failed)
        && books.entries == (if Selects(old(isActive), markets) then BooksAfter(rules, tick, entries) else entries)
      ensures isActive == old(isActive) && failedTrade == old(failedTrade)
    {
      var env := EnvOf(tick, rules);
      ghost var store0, trades0, sent0, failed0, table0 := store, activeTrades, gateway.sent, gateway.failedMarkets, gateway.failedTable;
      ManagePositions(env, tick.rows);
      ghost var store1, trades1, sent1, failed1, table1 := store, activeTrades, gateway.sent, gateway.failedMarkets, gateway.failedTable;
      Enter(env, tick, markets, krw);
      ghost var e := FeedDecision(store0, tick, rules, isActive, budget, old(books.entries));
      assert e == Decision(env.rules, tick, isActive, markets, env.highVol, budget, krw, old(books.entries));
      StoreComposes(store0, tick, env, e, failed0, budget, store1, failed1, store);
      TradesComposes(store0, tick, env, e, failed0, trades1, failed1, activeTrades);
      SentComposes(store0, tick, env, e, failed0, sent0, sent1, failed1, gateway.sent);
      FailedComposes(store0, tick, env, e, failed0, failed1, gateway.failedMarkets);
      TableComposes(failed0, SoldFailed(trades0, env, tick.rows), e, BuyPlaced(e, tick, failed1), table0, failed1, table1,
                    gateway.failedMarkets, gateway.failedTable);
    }

    /** `execute_trade`: one tick, stated as the tick functions of the old
        state. The rows list the active records once each, in query order. */
    method ExecuteTrade(tick: Tick, rules: Rules)
      requires RowsMatch(tick.rows, store)
      modifies this, gateway, books
      ensures var failed := old(gateway.failedMarkets);
        && store == TickStore(old(store), tick, rules, old(isActive), budget, failed, old(books.entries))
        && activeTrades == TickTrades(old(store), tick, rules, old(isActive), budget, failed, old(books.entries))
        && gateway.sent == old(gateway.sent) + TickRequests(old(store), tick, rules, old(isActive), budget, failed, old(books.entries))
        && gateway.failedMarkets == TickFailed(old(store), tick, rules, old(isActive), budget, failed, old(books.entries))
        && gateway.failedTable == old(gateway.failedTable) + (gateway.failedMarkets - failed)
        && books.entries == TickBooks(old(store), tick, rules, old(isActive), old(books.entries))
      ensures isActive == old(isActive) && failedTrade == old(failedTrade)
    {
      var holdings := Holdings(tick.accounts);
      var krw := KrwBalance(tick.accounts);
      activeTrades := Load(store);
      var markets := Reconcile(holdings.Keys);
      ActiveAfterReconcile(old(store), holdings.Keys);
      if tick.feed.FeedError? {
        TickWithoutFeed(old(store), tick, rules, isActive, budget, old(gateway.failedMarkets), old(books.entries));
        return;
      }
      StoreOnFeed(old(store), tick, rules, isActive, budget, old(gateway.failedMarkets), old(books.entries));
      TradesOnFeed(old(store), tick, rules, isActive, budget, old(gateway.failedMarkets), old(books.entries));
      RequestsOnFeed(old(store), tick, rules, isActive, budget, old(gateway.failedMarkets), old(books.entries));
      FailedOnFeed(old(store), tick, rules, isActive, budget, old(gateway.failedMarkets), old(books.entries));
      BooksOnFeed(old(store), tick, rules, isActive, old(books.entries));
      TradeOnFeed(tick, rules, markets, krw);
    }
  }

  /** Without market data a tick only reconciles. */
  lemma TickWithoutFeed(store: Store, tick: Tick, rules: Rules, isActive: bool, budget: real,
                        failed: set<string>, entries: map<string, CacheEntry>)
    requires tick.feed.FeedError?
    ensures var r := Reconciled(store, HeldCurrencies(tick.accounts));
      && TickStore(store, tick, rules, isActive, budget, failed, entries) == r
      && TickTrades(store, tick, rules, isActive, budget, failed, entries) == Load(r)
      && TickRequests(store, tick, rules, isActive, budget, failed, entries) == []
      && TickFailed(store, tick, rules, isActive, budget, failed, entries) == failed
      && TickBooks(store, tick, rules, isActive, entries) == entries
  {
  }

  /** With market data the table is the feed part's table on the reconciled one. */
  lemma StoreOnFeed(store: Store, tick: Tick, rules: Rules, isActive: bool, budget: real,
                   failed: set<string>, entries: map<string, CacheEntry>)
    requires tick.feed.Quotes?
    ensures var r := Reconciled(store, HeldCurrencies(tick.accounts));
      var env := EnvOf(tick, rules);
      var e := FeedDecision(r, tick, rules, isActive, budget, entries);
      TickStore(store, tick, rules, isActive, budget, failed, entries) == FeedStore(r, tick, env, e, failed, budget)
  {
  }

  /** With market data the in-memory view is the feed part's. */
  lemma TradesOnFeed(store: Store, tick: Tick, rules: Rules, isActive: bool, budget: real,
                   failed: set<string>, entries: map<string, CacheEntry>)
    requires tick.feed.Quotes?
    ensures var r := Reconciled(store, HeldCurrencies(tick.accounts));
      var env := EnvOf(tick, rules);
      var e := FeedDecision(r, tick, rules, isActive, budget, entries);
      TickTrades(store, tick, rules, isActive, budget, failed, entries) == FeedTrades(r, tick, env, e, failed)
  {
  }

  /** With market data the requests are the feed part's. */
  lemma RequestsOnFeed(store: Store, tick: Tick, rules: Rules, isActive: bool, budget: real,
                   failed: set<string>, entries: map<string, CacheEntry>)
    requires tick.feed.Quotes?
    ensures var r := Reconciled(store, HeldCurrencies(tick.accounts));
      var env := EnvOf(tick, rules);
      var e := FeedDecision(r, tick, rules, isActive, budget, entries);
      TickRequests(store, tick, rules, isActive, budget, failed, entries) == FeedRequests(r, tick, env, e, failed)
  {
  }

  /** With market data the excluded markets are the feed part's. */
  lemma FailedOnFeed(store: Store, tick: Tick, rules: Rules, isActive: bool, budget: real,
                   failed: set<string>, entries: map<string, CacheEntry>)
    requires tick.feed.Quotes?
    ensures var r := Reconciled(store, HeldCurrencies(tick.accounts));
      var env := EnvOf(tick, rules);
      var e := FeedDecision(r, tick, rules, isActive, budget, entries);
      TickFailed(store, tick, rules, isActive, budget, failed, entries) == FeedFailed(r, tick, env, e, failed)
  {
  }

  /** With market data the selector refreshes the cache only when it runs. */
  lemma BooksOnFeed(store: Store, tick: Tick, rules: Rules, isActive: bool, entries: map<string, CacheEntry>)
    requires tick.feed.Quotes?
    ensures var r := Reconciled(store, HeldCurrencies(tick.accounts));
      TickBooks(store, tick, rules, isActive, entries)
        == (if Selects(isActive, Active(r)) then BooksAfter(rules, tick, entries) else entries)
  {
  }

  /** The markets still tracked after reconciliation. */
  lemma ActiveAfterReconcile(store: Store, held: set<string>)
    ensures Active(Reconciled(store, held)) == Active(store) - Unheld(Active(store), held)
  {
  }

  // The position loop followed by the entry is the feed part of a tick:
  // one lemma per piece of state.

  /** The buy decision is the feed decision, and its market cannot be one
      whose sell just failed (only tracked markets sell). */
  lemma BuyIgnoresSells(r: Store, tick: Tick, env: Env, e: Entry, failed0: set<string>)
    requires e.Buy? ==> e.market !in Active(r)
    ensures var sold := SoldFailed(Load(r), env, tick.rows);
      && (e.Buy? ==> e.market !in sold)
      && BuyPlaced(e, tick, failed0 + sold) == BuyPlaced(e, tick, failed0)
  {
    SoldFailedTracked(Load(r), env, tick.rows);
  }

  lemma StoreComposes(r: Store, tick: Tick, env: Env, e: Entry, failed0: set<string>, budget: real,
                      store1: Store, failed1: set<string>, store2: Store)
    requires e.Buy? ==> e.market !in Active(r)
    requires store1 == Managed(r, Load(r), env, tick.rows)
    requires failed1 == failed0 + SoldFailed(Load(r), env, tick.rows)
    requires store2 == (if BuyPlaced(e, tick, failed1)
                        then Saved(store1, e.market, e.price, tick.replies(e.market, "bid").uuid, tick.now, budget)
                        else store1)
    ensures store2 == FeedStore(r, tick, env, e, failed0, budget)
  {
    BuyIgnoresSells(r, tick, env, e, failed0);
  }

  lemma TradesComposes(r: Store, tick: Tick, env: Env, e: Entry, failed0: set<string>,
                       trades1: map<string, Position>, failed1: set<string>, trades2: map<string, Position>)
    requires e.Buy? ==> e.market !in Active(r)
    requires trades1 == TradesAfter(Load(r), env, failed0, tick.rows)
    requires failed1 == failed0 + SoldFailed(Load(r), env, tick.rows)
    requires trades2 == (if BuyPlaced(e, tick, failed1)
                         then trades1[e.market := Position(e.price, Some(e.price), Some(tick.replies(e.market, "bid").uuid), Some(tick.now))]
                         else trades1)
    ensures trades2 == FeedTrades(r, tick, env, e, failed0)
  {
    BuyIgnoresSells(r, tick, env, e, failed0);
  }

  lemma SentComposes(r: Store, tick: Tick, env: Env, e: Entry, failed0: set<string>,
                     sent0: seq<map<string, Arg>>, sent1: seq<map<string, Arg>>, failed1: set<string>, sent2: seq<map<string, Arg>>)
    requires e.Buy? ==> e.market !in Active(r)
    requires sent1 == sent0 + SellRequests(tick.rows, Load(r), env, failed0)
    requires failed1 == failed0 + SoldFailed(Load(r), env, tick.rows)
    requires sent2 == sent1 + (if e.Buy? && e.market !in failed1 then [BuyParams(e)] else [])
    ensures sent2 == sent0 + FeedRequests(r, tick, env, e, failed0)
  {
    BuyIgnoresSells(r, tick, env, e, failed0);
  }

  lemma FailedComposes(r: Store, tick: Tick, env: Env, e: Entry, failed0: set<string>, failed1: set<string>, failed2: set<string>)
    requires e.Buy? ==> e.market !in Active(r)
    requires failed1 == failed0 + SoldFailed(Load(r), env, tick.rows)
    requires failed2 == failed1 + (if e.Buy? && !BuyPlaced(e, tick, failed1) then {e.market} else {})
    ensures failed2 == FeedFailed(r, tick, env, e, failed0)
  {
    BuyIgnoresSells(r, tick, env, e, failed0);
  }

  /** The table of excluded markets gains exactly the markets newly failed
      over the two phases. */
  lemma TableComposes(failed0: set<string>, sold: set<string>, e: Entry, placed: bool, table0: set<string>,
                      failed1: set<string>, table1: set<string>, failed2: set<string>, table2: set<string>)
    requires failed1 == failed0 + sold && table1 == table0 + (sold - failed0)
    requires failed2 == failed1 + (if e.Buy? && !placed then {e.market} else {})
    requires table2 == table1 + (if e.Buy? && !placed && e.market !in failed1 then {e.market} else {})
    ensures table2 == table0 + (failed2 - failed0)
  {
  }

  /** Only tracked markets can fail a sell. */
  lemma SoldFailedTracked(trades: map<string, Position>, env: Env, rows: seq<string>)
    ensures SoldFailed(trades, env, rows) <= trades.Keys
  {
  }

  // Managing one more market `m`, not managed before, one piece of state
  // at a time.

  /** Before its turn, `m` keeps its starting entries. */
  lemma RowUntouched(store: Store, trades: map<string, Position>, env: Env, failed: set<string>, done: seq<string>, m: string)
    requires trades == Load(store) && m !in done
    ensures m in trades <==> m in TradesAfter(trades, env, failed, done)
    ensures m in trades ==>
      && m in store
      && Managed(store, trades, env, done)[m] == store[m]
      && TradesAfter(trades, env, failed, done)[m] == trades[m]
      && trades[m].highestPrice == store[m].highestPrice
      && m !in SoldFailed(trades, env, done)
  {
  }

  /** An untracked row changes nothing. */
  lemma RowAbsent(store: Store, trades: map<string, Position>, env: Env, failed: set<string>, done: seq<string>, m: string)
    requires m !in trades
    ensures Managed(store, trades, env, done + [m]) == Managed(store, trades, env, done)
    ensures TradesAfter(trades, env, failed, done + [m]) == TradesAfter(trades, env, failed, done)
    ensures SellRequests(done + [m], trades, env, failed) == SellRequests(done, trades, env, failed)
    ensures SoldFailed(trades, env, done + [m]) == SoldFailed(trades, env, done)
  {
    assert (done + [m])[..|done + [m]| - 1] == done;
  }

  /** A tracked row's record is stepped by its plan. */
  lemma RowStore(store: Store, trades: map<string, Position>, env: Env, done: seq<string>, m: string,
                 store1: Store, store2: Store)
    requires trades == Load(store) && m in trades && m !in done
    requires store1 == Managed(store, trades, env, done)
    requires store2 == store1[m := RecordAfter(store1[m], Plan(env, m, trades[m]))]
    ensures store2 == Managed(store, trades, env, done + [m])
  {
  }

  /** A tracked row's position is dropped when its order filled and
      stepped otherwise. */
  lemma RowTrades(trades: map<string, Position>, env: Env, failed: set<string>, done: seq<string>, m: string,
                  trades1: map<string, Position>, trades2: map<string, Position>)
    requires m in trades && m !in done
    requires trades1 == TradesAfter(trades, env, failed, done)
    requires trades2 == if Plan(env, m, trades[m]).Closed? then trades1 - {m}
                        else trades1[m := PositionAfter(trades[m], Plan(env, m, trades[m]), env.replies(m, "ask"), m in failed)]
    ensures trades2 == TradesAfter(trades, env, failed, done + [m])
  {
    var expected := TradesAfter(trades, env, failed, done + [m]);
    assert trades2.Keys == expected.Keys;
  }

  /** A tracked row adds its sell request, if any. */
  lemma RowSent(trades: map<string, Position>, env: Env, failed0: set<string>, done: seq<string>, m: string,
                sent0: seq<map<string, Arg>>, sent1: seq<map<string, Arg>>, sent2: seq<map<string, Arg>>, failed1: set<string>)
    requires m in trades && (m in failed1 <==> m in failed0)
    requires sent1 == sent0 + SellRequests(done, trades, env, failed0)
    requires Sells(env, m, trades[m]) ==> sent2 == sent1 + (if m in failed1 then [] else [SellParams(env, m)])
    requires !Sells(env, m, trades[m]) ==> sent2 == sent1
    ensures sent2 == sent0 + SellRequests(done + [m], trades, env, failed0)
  {
    assert (done + [m])[..|done + [m]| - 1] == done;
  }

  /** A tracked row's failed sell adds its market to the excluded ones. */
  lemma RowFailed(trades: map<string, Position>, env: Env, failed0: set<string>, done: seq<string>, m: string,
                  failed1: set<string>, failed2: set<string>, table0: set<string>, table1: set<string>, table2: set<string>)
    requires m in trades && m !in done
    requires failed1 == failed0 + SoldFailed(trades, env, done)
    requires table1 == table0 + (SoldFailed(trades, env, done) - failed0)
    requires Sells(env, m, trades[m]) ==>
      var r := OrderOutcome(m in failed1, env.replies(m, "ask"));
      && failed2 == failed1 + (if r.Failed? then {m} else {})
      && table2 == table1 + (if r.Failed? && m !in failed1 then {m} else {})
    requires !Sells(env, m, trades[m]) ==> failed2 == failed1 && table2 == table1
    ensures failed2 == failed0 + SoldFailed(trades, env, done + [m])
    ensures table2 == table0 + (SoldFailed(trades, env, done + [m]) - failed0)
  {
    var sold := SoldFailed(trades, env, done);
    var adds := Sells(env, m, trades[m]) && env.replies(m, "ask").status != 201;
    assert SoldFailed(trades, env, done + [m]) == sold + (if adds then {m} else {});
    assert m !in sold;
    var failedNow := Sells(env, m, trades[m]) && OrderOutcome(m in failed1, env.replies(m, "ask")).Failed?;
    ExcludedStep(failed0, sold, m, adds, failedNow, failed1, failed2, table0, table1, table2);
  }

  // ---------------------------------------------------------------------
  // What one tick guarantees
  // ---------------------------------------------------------------------

  lemma {:induction false} SubsetCard(a: set<string>, b: set<string>)
    requires a <= b
    ensures |a| <= |b|
    decreases |b|
  {
    if a != {} {
      var x :| x in a;
      SubsetCard(a - {x}, b - {x});
    }
  }

  /** The position loop only ever deactivates records, and leaves the
      inactive ones as they were. */
  lemma ManagedActive(store: Store, env: Env, rows: seq<string>)
    ensures var after := Managed(store, Load(store), env, rows);
      && Active(after) <= Active(store)
      && (forall m :: m in store && m !in Active(store) ==> after[m] == store[m])
  {
  }

  /** The position loop keeps or raises high-water prices, and keeps them
      at or above the buy prices. */
  lemma ManagedHighWater(store: Store, env: Env, rows: seq<string>)
    ensures var after := Managed(store, Load(store), env, rows);
      && (forall m :: m in Active(store) && store[m].highestPrice.Some? ==>
            after[m].highestPrice.Some? && after[m].highestPrice.value >= store[m].highestPrice.value)
      && (HighWaterAtLeastBuy(store) ==> HighWaterAtLeastBuy(after))
  {
    ManagedRaises(store, env, rows);
    if HighWaterAtLeastBuy(store) {
      ManagedAboveBuy(store, env, rows);
    }
  }

  lemma ManagedRaises(store: Store, env: Env, rows: seq<string>)
    ensures var after := Managed(store, Load(store), env, rows);
      forall m :: m in Active(store) && store[m].highestPrice.Some? ==>
        after[m].highestPrice.Some? && after[m].highestPrice.value >= store[m].highestPrice.value
  {
  }

  lemma ManagedAboveBuy(store: Store, env: Env, rows: seq<string>)
    requires HighWaterAtLeastBuy(store)
    ensures HighWaterAtLeastBuy(Managed(store, Load(store), env, rows))
  {
    var after := Managed(store, Load(store), env, rows);
    forall m | m in after && after[m].highestPrice.Some?
      ensures after[m].highestPrice.value >= after[m].buyPrice
    {
    }
  }

  /** Every request of `reqs` is a sell of a tracked market of `rows` whose
      exit rules sell and which is not excluded. */
  ghost predicate SellsOf(reqs: seq<map<string, Arg>>, rows: seq<string>, trades: map<string, Position>, env: Env,
                          failed: set<string>)
  {
    forall p :: p in reqs ==>
      && SideOf(p) == "ask"
      && MarketOf(p) in trades && MarketOf(p) in rows && MarketOf(p) !in failed
      && Sells(env, MarketOf(p), trades[MarketOf(p)])
  }

  ghost predicate DistinctMarkets(reqs: seq<map<string, Arg>>)
  {
    forall i, j :: 0 <= i < j < |reqs| ==> MarketOf(reqs[i]) != MarketOf(reqs[j])
  }

  /** Every sell request is for a tracked market of the rows whose exit
      rules sell and which is not excluded; with distinct rows no market
      gets two sell requests. */
  lemma SellRequestsFacts(rows: seq<string>, trades: map<string, Position>, env: Env, failed: set<string>)
    ensures SellsOf(SellRequests(rows, trades, env, failed), rows, trades, env, failed)
    ensures Distinct(rows) ==> DistinctMarkets(SellRequests(rows, trades, env, failed))
  {
    SellRequestsSell(rows, trades, env, failed);
    if Distinct(rows) {
      SellRequestsDistinct(rows, trades, env, failed);
    }
  }

  /** The last row adds at most one request, a sell of that row's market. */
  lemma SellRequestsSnoc(rows: seq<string>, trades: map<string, Position>, env: Env, failed: set<string>)
    requires rows != []
    ensures var m := rows[|rows| - 1];
      var added := SellRequests(rows, trades, env, failed)[|SellRequests(rows[..|rows| - 1], trades, env, failed)|..];
      && SellRequests(rows, trades, env, failed) == SellRequests(rows[..|rows| - 1], trades, env, failed) + added
      && added == (if m in trades && Sells(env, m, trades[m]) && m !in failed then [SellParams(env, m)] else [])
      && |added| <= 1
      && forall k :: 0 <= k < |added| ==> MarketOf(added[k]) == m && SideOf(added[k]) == "ask"
  {
    var m := rows[|rows| - 1];
    var prev := SellRequests(rows[..|rows| - 1], trades, env, failed);
    var added := if m in trades && Sells(env, m, trades[m]) && m !in failed then [SellParams(env, m)] else [];
    assert SellRequests(rows, trades, env, failed) == prev + added;
    assert (prev + added)[|prev|..] == added;
  }

  lemma {:induction false} SellRequestsSell(rows: seq<string>, trades: map<string, Position>, env: Env, failed: set<string>)
    ensures SellsOf(SellRequests(rows, trades, env, failed), rows, trades, env, failed)
  {
    if rows != [] {
      var front := rows[..|rows| - 1];
      var m := rows[|rows| - 1];
      SellRequestsSell(front, trades, env, failed);
      SellRequestsSnoc(rows, trades, env, failed);
      assert rows == front + [m];
      var reqs := SellRequests(rows, trades, env, failed);
      var prev := SellRequests(front, trades, env, failed);
      var added := reqs[|prev|..];
      forall p | p in reqs
        ensures SideOf(p) == "ask"
        ensures MarketOf(p) in trades && MarketOf(p) in rows && MarketOf(p) !in failed
        ensures Sells(env, MarketOf(p), trades[MarketOf(p)])
      {
        if p in prev {
          assert MarketOf(p) in front;
        } else {
          assert p == added[0] && MarketOf(added[0]) == m;
        }
      }
    }
  }

  lemma {:induction false} SellRequestsDistinct(rows: seq<string>, trades: map<string, Position>, env: Env, failed: set<string>)
    requires Distinct(rows)
    ensures DistinctMarkets(SellRequests(rows, trades, env, failed))
  {
    if rows != [] {
      var front := rows[..|rows| - 1];
      var m := rows[|rows| - 1];
      assert Distinct(front) by {
        forall i, j | 0 <= i < j < |front| ensures front[i] != front[j] {
          assert front[i] == rows[i] && front[j] == rows[j];
        }
      }
      NotBefore(rows, |rows| - 1);
      SellRequestsDistinct(front, trades, env, failed);
      SellRequestsSell(front, trades, env, failed);
      SellRequestsSnoc(rows, trades, env, failed);
      var reqs := SellRequests(rows, trades, env, failed);
      var prev := SellRequests(front, trades, env, failed);
      var added := reqs[|prev|..];
      forall i, j | 0 <= i < j < |reqs| ensures MarketOf(reqs[i]) != MarketOf(reqs[j]) {
        assert reqs[i] == prev[i];
        if j >= |prev| {
          assert reqs[j] == added[0] && MarketOf(added[0]) == m;
          assert prev[i] in prev && MarketOf(prev[i]) in front;
        } else {
          assert reqs[j] == prev[j];
        }
      }
    }
  }

  // The feed part of a tick, for any entry decision the gate allows.

  /** An entry decision allowed on the reconciled table `r`. */
  ghost predicate Admissible(e: Entry, r: Store)
  {
    e.Buy? ==> |Active(r)| < MaxPositions && e.market !in Active(r)
  }

  lemma FeedCapacity(r: Store, tick: Tick, env: Env, e: Entry, failed: set<string>, budget: real)
    requires Admissible(e, r)
    ensures var after := Active(FeedStore(r, tick, env, e, failed, budget));
      && after - Active(r) <= (if e.Buy? then {e.market} else {})
      && (|after| <= |Active(r)| || |after| <= MaxPositions)
  {
    var managed := Managed(r, Load(r), env, tick.rows);
    ManagedActive(r, env, tick.rows);
    SubsetCard(Active(managed), Active(r));
    if BuyPlaced(e, tick, failed) {
      ActiveSaved(managed, e.market, e.price, tick.replies(e.market, "bid").uuid, tick.now, budget);
    }
  }

  /** The requests of the feed part: the sells of the loop, then at most
      one buy, which is `e`'s. */
  lemma FeedRequestsFacts(r: Store, tick: Tick, env: Env, e: Entry, failed: set<string>)
    ensures var reqs := FeedRequests(r, tick, env, e, failed);
      && SellsOf(AskRequests(reqs), tick.rows, Load(r), env, failed)
      && (Distinct(tick.rows) ==> DistinctMarkets(AskRequests(reqs)))
      && (forall k :: 0 <= k < |reqs| && SideOf(reqs[k]) == "bid" ==>
            k == |reqs| - 1 && e.Buy? && reqs[k] == BuyParams(e))
      && (forall p :: p in reqs && SideOf(p) == "bid" ==> e.Buy? && p == BuyParams(e))
  {
    var sells := SellRequests(tick.rows, Load(r), env, failed);
    var extra := if e.Buy? && e.market !in failed then [BuyParams(e)] else [];
    SellRequestsFacts(tick.rows, Load(r), env, failed);
    assert forall p :: p in sells ==> SideOf(p) == "ask";
    assert forall i :: 0 <= i < |sells| ==> sells[i] in sells;
    assert forall i :: 0 <= i < |extra| ==> SideOf(extra[i]) == "bid" && "bid"[0] != "ask"[0];
    AsksThenOthers(sells, extra);
    BidLast(sells, extra);
    assert FeedRequests(r, tick, env, e, failed) == sells + extra;
  }

  /** The sell requests among `reqs`, in order. */
  function AskRequests(reqs: seq<map<string, Arg>>): seq<map<string, Arg>>
  {
    if reqs == [] then []
    else (if SideOf(reqs[0]) == "ask" then [reqs[0]] else []) + AskRequests(reqs[1..])
  }

  /** A request is among the sells exactly when it is a sell request. */
  lemma {:induction false} AskRequestsMembers(reqs: seq<map<string, Arg>>)
    ensures forall p :: p in AskRequests(reqs) <==> p in reqs && SideOf(p) == "ask"
  {
    if reqs != [] {
      AskRequestsMembers(reqs[1..]);
      assert forall p :: p in reqs <==> p == reqs[0] || p in reqs[1..];
    }
  }

  /** Requests that are all sells are their own sells. */
  lemma {:induction false} AsksOnly(reqs: seq<map<string, Arg>>)
    requires forall i :: 0 <= i < |reqs| ==> SideOf(reqs[i]) == "ask"
    ensures AskRequests(reqs) == reqs
  {
    if reqs != [] {
      var rest := reqs[1..];
      assert forall i :: 0 <= i < |rest| ==> rest[i] == reqs[i + 1];
      AsksOnly(rest);
      assert reqs == [reqs[0]] + rest;
    }
  }

  /** The sells of two request lists in a row are the sells of each. */
  lemma {:induction false} AsksAppend(a: seq<map<string, Arg>>, b: seq<map<string, Arg>>)
    ensures AskRequests(a + b) == AskRequests(a) + AskRequests(b)
  {
    if a != [] {
      AsksAppend(a[1..], b);
      assert (a + b)[1..] == a[1..] + b;
    } else {
      assert a + b == b;
    }
  }

  /** Sells followed by requests that are not sells: the sells are kept. */
  lemma AsksThenOthers(asks: seq<map<string, Arg>>, extra: seq<map<string, Arg>>)
    requires forall i :: 0 <= i < |asks| ==> SideOf(asks[i]) == "ask"
    requires |extra| <= 1 && forall i :: 0 <= i < |extra| ==> SideOf(extra[i]) != "ask"
    ensures AskRequests(asks + extra) == asks
  {
    AsksOnly(asks);
    AsksAppend(asks, extra);
    if extra != [] {
      assert extra[1..] == [];
    }
    assert AskRequests(extra) == [];
  }

  /** Sells followed by at most one buy: a buy can only be the last
      request. */
  lemma BidLast(asks: seq<map<string, Arg>>, extra: seq<map<string, Arg>>)
    requires forall p :: p in asks ==> SideOf(p) == "ask"
    requires |extra| <= 1
    ensures forall k :: 0 <= k < |asks + extra| && SideOf((asks + extra)[k]) == "bid" ==>
      k == |asks| && (asks + extra)[k] == extra[0]
    ensures forall p :: p in asks + extra && SideOf(p) == "bid" ==> p == extra[0]
  {
    assert forall k :: 0 <= k < |asks| ==> (asks + extra)[k] == asks[k] && asks[k] in asks;
  }

  /** The only buy request of the feed part is `e`'s, for its market and
      spending its amount. */
  lemma FeedBuyGate(r: Store, tick: Tick, env: Env, e: Entry, failed: set<string>)
    ensures var reqs := FeedRequests(r, tick, env, e, failed);
      && (forall k :: 0 <= k < |reqs| && SideOf(reqs[k]) == "bid" ==> k == |reqs| - 1)
      && (forall p :: p in reqs && SideOf(p) == "bid" ==>
            e.Buy? && MarketOf(p) == e.market && "price" in p && p["price"] == Num(e.amount))
  {
    FeedRequestsFacts(r, tick, env, e, failed);
    if e.Buy? {
      var b := BuyParams(e);
      assert MarketOf(b) == e.market && "price" in b && b["price"] == Num(e.amount);
    }
  }

  lemma FeedHighWater(r: Store, tick: Tick, env: Env, e: Entry, failed: set<string>, budget: real)
    requires Admissible(e, r)
    ensures var after := FeedStore(r, tick, env, e, failed, budget);
      && (forall m :: m in Active(r) && r[m].highestPrice.Some? ==>
            after[m].highestPrice.Some? && after[m].highestPrice.value >= r[m].highestPrice.value)
      && (HighWaterAtLeastBuy(r) ==> HighWaterAtLeastBuy(after))
  {
    ManagedHighWater(r, env, tick.rows);
  }

  lemma FeedKeepsInactive(r: Store, tick: Tick, env: Env, e: Entry, failed: set<string>, budget: real, m: string)
    requires m in r && m !in Active(r)
    ensures var after := FeedStore(r, tick, env, e, failed, budget);
      m in after && (after[m].isActive ==> after[m].createdAt == tick.now && after[m].highestPrice == Some(after[m].buyPrice))
  {
    ManagedActive(r, env, tick.rows);
  }

  // One whole tick.

  /** Capacity: a tick opens at most one new position, never one beyond
      the third, and otherwise only closes positions. */
  lemma TickKeepsCapacity(store: Store, tick: Tick, rules: Rules, isActive: bool, budget: real,
                          failed: set<string>, entries: map<string, CacheEntry>)
    ensures var after := Active(TickStore(store, tick, rules, isActive, budget, failed, entries));
      && |after - Active(store)| <= 1
      && (|after| <= |Active(store)| || |after| <= MaxPositions)
  {
    var r := Reconciled(store, HeldCurrencies(tick.accounts));
    var after := Active(TickStore(store, tick, rules, isActive, budget, failed, entries));
    assert Active(r) <= Active(store);
    SubsetCard(Active(r), Active(store));
    if tick.feed.FeedError? {
      TickWithoutFeed(store, tick, rules, isActive, budget, failed, entries);
      SubsetCard(after, Active(store));
    } else {
      var e := FeedDecision(r, tick, rules, isActive, budget, entries);
      StoreOnFeed(store, tick, rules, isActive, budget, failed, entries);
      FeedCapacity(r, tick, EnvOf(tick, rules), e, failed, budget);
      if e.Buy? {
        SubsetCard(after - Active(store), {e.market});
      } else {
        SubsetCard(after, Active(store));
      }
    }
  }

  /** Reconciliation: a tracked market whose currency is no longer held
      gets no sell request, and its record is inactive after the tick
      unless the tick bought it afresh. */
  lemma TickReconciles(store: Store, tick: Tick, rules: Rules, isActive: bool, budget: real,
                       failed: set<string>, entries: map<string, CacheEntry>, m: string)
    requires m in Active(store) && Currency(m) !in HeldCurrencies(tick.accounts)
    ensures var after := TickStore(store, tick, rules, isActive, budget, failed, entries);
      m in after && (after[m].isActive ==> after[m].createdAt == tick.now && after[m].highestPrice == Some(after[m].buyPrice))
    ensures forall p :: p in AskRequests(TickRequests(store, tick, rules, isActive, budget, failed, entries)) ==>
      MarketOf(p) != m
  {
    var r := Reconciled(store, HeldCurrencies(tick.accounts));
    assert m in r && m !in Active(r);
    if tick.feed.Quotes? {
      var e := FeedDecision(r, tick, rules, isActive, budget, entries);
      StoreOnFeed(store, tick, rules, isActive, budget, failed, entries);
      RequestsOnFeed(store, tick, rules, isActive, budget, failed, entries);
      FeedRequestsFacts(r, tick, EnvOf(tick, rules), e, failed);
      FeedKeepsInactive(r, tick, EnvOf(tick, rules), e, failed, budget, m);
    } else {
      TickWithoutFeed(store, tick, rules, isActive, budget, failed, entries);
    }
  }

  /** Without market data nothing is sent; otherwise only markets tracked
      after reconciliation are sold, each at most once per tick when the
      rows are distinct, and only when its exit rules say so. */
  lemma TickSellsOnce(store: Store, tick: Tick, rules: Rules, isActive: bool, budget: real,
                      failed: set<string>, entries: map<string, CacheEntry>)
    ensures tick.feed.FeedError? ==> TickRequests(store, tick, rules, isActive, budget, failed, entries) == []
    ensures tick.feed.Quotes? ==>
      var asks := AskRequests(TickRequests(store, tick, rules, isActive, budget, failed, entries));
      var r := Reconciled(store, HeldCurrencies(tick.accounts));
      && SellsOf(asks, tick.rows, Load(r), EnvOf(tick, rules), failed)
      && (Distinct(tick.rows) ==> DistinctMarkets(asks))
  {
    var r := Reconciled(store, HeldCurrencies(tick.accounts));
    if tick.feed.Quotes? {
      var e := FeedDecision(r, tick, rules, isActive, budget, entries);
      RequestsOnFeed(store, tick, rules, isActive, budget, failed, entries);
      FeedRequestsFacts(r, tick, EnvOf(tick, rules), e, failed);
    } else {
      TickWithoutFeed(store, tick, rules, isActive, budget, failed, entries);
    }
  }

  /** The entry gate: a tick sends at most one buy, as its last request,
      only while active and tracking fewer than three markets, for an
      untracked, calm market, spending min(budget, KRW balance) of at least
      5000 won. */
  lemma TickBuysGated(store: Store, tick: Tick, rules: Rules, isActive: bool, budget: real,
                      failed: set<string>, entries: map<string, CacheEntry>)
    ensures var reqs := TickRequests(store, tick, rules, isActive, budget, failed, entries);
      forall k :: 0 <= k < |reqs| && SideOf(reqs[k]) == "bid" ==> k == |reqs| - 1
    ensures var reqs := TickRequests(store, tick, rules, isActive, budget, failed, entries);
      var r := Reconciled(store, HeldCurrencies(tick.accounts));
      forall p :: p in reqs && SideOf(p) == "bid" ==>
        && tick.feed.Quotes?
        && isActive && |Active(r)| < MaxPositions
        && MarketOf(p) !in Active(r)
        && MarketOf(p) !in HighVolatility(tick.feed.coins, VolatilityThreshold)
        && "price" in p && p["price"] == Num(Min(budget, KrwBalance(tick.accounts)))
        && Min(budget, KrwBalance(tick.accounts)) >= MinOrder
  {
    var r := Reconciled(store, HeldCurrencies(tick.accounts));
    if tick.feed.Quotes? {
      var e := FeedDecision(r, tick, rules, isActive, budget, entries);
      RequestsOnFeed(store, tick, rules, isActive, budget, failed, entries);
      FeedBuyGate(r, tick, EnvOf(tick, rules), e, failed);
    } else {
      TickWithoutFeed(store, tick, rules, isActive, budget, failed, entries);
    }
  }

  /** Every recorded high-water price is at least the buy price. */
  ghost predicate HighWaterAtLeastBuy(store: Store)
  {
    forall m :: m in store && store[m].highestPrice.Some? ==> store[m].highestPrice.value >= store[m].buyPrice
  }

  /** Reconciliation only clears flags: it keeps every row's prices, and the
      markets it leaves active keep their records unchanged. */
  lemma ReconciledFacts(store: Store, held: set<string>)
    ensures var r := Reconciled(store, held);
      && r.Keys == store.Keys
      && Active(r) <= Active(store)
      && (forall m :: m in Active(r) ==> r[m] == store[m])
      && (HighWaterAtLeastBuy(store) ==> HighWaterAtLeastBuy(r))
  {
  }

  /** The high-water price of a position kept through the tick never falls,
      and every recorded high-water price stays at or above its buy price. */
  lemma TickHighWater(store: Store, tick: Tick, rules: Rules, isActive: bool, budget: real,
                      failed: set<string>, entries: map<string, CacheEntry>)
    ensures var after := TickStore(store, tick, rules, isActive, budget, failed, entries);
      var r := Reconciled(store, HeldCurrencies(tick.accounts));
      forall m :: m in Active(r) && store[m].highestPrice.Some? ==>
        after[m].highestPrice.Some? && after[m].highestPrice.value >= store[m].highestPrice.value
    ensures HighWaterAtLeastBuy(store) ==>
      HighWaterAtLeastBuy(TickStore(store, tick, rules, isActive, budget, failed, entries))
  {
    var r := Reconciled(store, HeldCurrencies(tick.accounts));
    ReconciledFacts(store, HeldCurrencies(tick.accounts));
    if tick.feed.Quotes? {
      var e := FeedDecision(r, tick, rules, isActive, budget, entries);
      StoreOnFeed(store, tick, rules, isActive, budget, failed, entries);
      FeedHighWater(r, tick, EnvOf(tick, rules), e, failed, budget);
    } else {
      TickWithoutFeed(store, tick, rules, isActive, budget, failed, entries);
    }
  }
}

=== FILE: auto_trade_backup.dfy ===
/** The earlier trader kept in autoCodeProWeb/trading/backUp/auto_trade_backUp.py:
    a volume cache with thirty-minute price samples, a "pullback after a
    volume surge" candidate selector, and an exit order that takes a 1%
    profit before anything else. The rest of that file's trader is the same
    as the current one and is modelled there (AutoTrade, rules `BackupRules`). */
module AutoTradeBackup {
  import opened Common
  import opened Exchange
  import opened CandidateSelection
  import opened Positions

  // ---------------------------------------------------------------------
  // update_volume_cache
  // ---------------------------------------------------------------------

  /** The last two traded volumes seen for a market. */
  datatype VolumeEntry = VolumeEntry(prev: real, current: real)

  /** A price sample: (milliseconds since the epoch, price). */
  datatype Sample = Sample(timestamp: int, price: real)

  /** The two module-level caches as values. */
  datatype Caches = Caches(volume: map<string, VolumeEntry>, recentHigh: map<string, seq<Sample>>)

  /** Samples are kept for thirty minutes. */
  const Window: int := 30 * 60 * 1000

  /** The samples no older than the window, in their original order. */
  function Prune(samples: seq<Sample>, now: int): (r: seq<Sample>)
    ensures |r| <= |samples|
    ensures forall s :: s in r <==> s in samples && now - s.timestamp <= Window
  {
    if samples == [] then []
    else
      assert samples == [samples[0]] + samples[1..];
      (if now - samples[0].timestamp <= Window then [samples[0]] else []) + Prune(samples[1..], now)
  }

  /** One ticker row's effect on the caches. A market seen for the first
      time gets previous volume 0 and no price sample; a known market's
      current volume becomes its previous one, and the sample (now, price)
      is appended to its list, which is then pruned to the window. */
  function Observe(c: Caches, t: Ticker, now: int): (r: Caches)
    ensures r.volume.Keys == c.volume.Keys + {t.market}
    ensures forall m :: m in c.volume && m != t.market ==> r.volume[m] == c.volume[m]
    ensures forall m :: m in c.recentHigh && m != t.market ==> m in r.recentHigh && r.recentHigh[m] == c.recentHigh[m]
    ensures r.recentHigh.Keys <= c.recentHigh.Keys + {t.market}
    ensures t.market !in c.volume ==>
      && r.volume[t.market] == VolumeEntry(0.0, t.tradeVolume)
      && r.recentHigh == c.recentHigh
    ensures t.market in c.volume ==>
      && r.volume[t.market] == VolumeEntry(c.volume[t.market].current, t.tradeVolume)
      && t.market in r.recentHigh
      && Sample(now, t.tradePrice) in r.recentHigh[t.market]
      && (forall s :: s in r.recentHigh[t.market] ==> now - s.timestamp <= Window)
      && (forall s :: s in r.recentHigh[t.market] ==>
            s == Sample(now, t.tradePrice) || (t.market in c.recentHigh && s in c.recentHigh[t.market]))
      // the cached samples still inside the window are kept
      && (forall s :: t.market in c.recentHigh && s in c.recentHigh[t.market] && now - s.timestamp <= Window ==>
            s in r.recentHigh[t.market])
  {
    var m := t.market;
    if m in c.volume then
      var samples := (if m in c.recentHigh then c.recentHigh[m] else []) + [Sample(now, t.tradePrice)];
      Caches(c.volume[m := VolumeEntry(c.volume[m].current, t.tradeVolume)],
             c.recentHigh[m := Prune(samples, now)])
    else
      Caches(c.volume[m := VolumeEntry(0.0, t.tradeVolume)], c.recentHigh)
  }

  /** The caches after observing every row in order. */
  function ObserveAll(c: Caches, rows: seq<Ticker>, now: int): Caches
  {
    if rows == [] then c else Observe(ObserveAll(c, rows[..|rows| - 1], now), rows[|rows| - 1], now)
  }

  /** Every market of the feed ends up in the volume cache; nothing else is
      added to it. */
  lemma {:induction false} ObserveAllKeys(c: Caches, rows: seq<Ticker>, now: int)
    ensures ObserveAll(c, rows, now).volume.Keys == c.volume.Keys + set t | t in rows :: t.market
  {
    if rows != [] {
      var init, last := rows[..|rows| - 1], rows[|rows| - 1];
      assert rows == init + [last];
      MarketsSnoc(init, last);
      ObserveAllKeys(c, init, now);
    }
  }

  lemma MarketsSnoc(init: seq<Ticker>, last: Ticker)
    ensures (set t | t in init + [last] :: t.market) == (set t | t in init :: t.market) + {last.market}
  {
    assert forall t :: t in init + [last] <==> t in init || t == last;
  }

  /** A surge needs two observations: a market observed once has previous
      volume 0, which the selector reads as no change. */
  lemma FirstObservationHasNoPrevious(c: Caches, t: Ticker, now: int)
    requires t.market !in c.volume
    ensures VolumeChange(Observe(c, t, now).volume, t) == 0.0
  {
  }

  /** The module-level caches, updated in place. */
  class MarketCaches {
    var volume: map<string, VolumeEntry>
    var recentHigh: map<string, seq<Sample>>

    constructor()
      ensures volume == map[] && recentHigh == map[]
    {
      volume := map[];
      recentHigh := map[];
    }

    /** The loop body of `update_volume_cache` for one row. */
    method ObserveRow(t: Ticker, now: int)
      modifies this
      ensures Caches(volume, recentHigh) == Observe(old(Caches(volume, recentHigh)), t, now)
    {
      var m := t.market;
      if m in volume {
        volume := volume[m := VolumeEntry(volume[m].current, t.tradeVolume)];
        if m !in recentHigh {
          recentHigh := recentHigh[m := []];
        }
        recentHigh := recentHigh[m := recentHigh[m] + [Sample(now, t.tradePrice)]];
        recentHigh := recentHigh[m := Prune(recentHigh[m], now)];
      } else {
        volume := volume[m := VolumeEntry(0.0, t.tradeVolume)];
      }
    }

    /** `update_volume_cache` for one market-data list and one clock
        reading (milliseconds). */
    method UpdateVolumeCache(rows: seq<Ticker>, now: int)
      modifies this
      ensures Caches(volume, recentHigh) == ObserveAll(old(Caches(volume, recentHigh)), rows, now)
    {
      var i := 0;
      while i < |rows|
        invariant 0 <= i <= |rows|
        invariant Caches(volume, recentHigh) == ObserveAll(old(Caches(volume, recentHigh)), rows[..i], now)
      {
        ObserveRow(rows[i], now);
        assert rows[..i + 1][..i] == rows[..i];
        i := i + 1;
      }
      assert rows[..|rows|] == rows;
    }
  }

  // ---------------------------------------------------------------------
  // get_best_trade_coin (pullback after a volume surge)
  // ---------------------------------------------------------------------

  /** `get_krw_market_coin_info` as this selector reads it: full ticker rows
      (it also reads the traded volume and the day's high), or the error tag. */
  datatype TickerFeed = TickerRows(rows: seq<Ticker>) | TickerFeedError

  /** Relative change of the traded volume since the previous observation;
      0 for a market never observed or whose previous volume is 0. */
  function VolumeChange(volume: map<string, VolumeEntry>, t: Ticker): (r: real)
    ensures t.market !in volume || volume[t.market].prev == 0.0 ==> r == 0.0
    ensures t.market in volume && volume[t.market].prev != 0.0 ==>
      r * volume[t.market].prev == t.tradeVolume - volume[t.market].prev
    ensures t.market in volume && volume[t.market].prev > 0.0 ==>
      (r >= 1.0 <==> t.tradeVolume >= 2.0 * volume[t.market].prev)
  {
    if t.market in volume && volume[t.market].prev != 0.0 then
      var prev := volume[t.market].prev;
      var r := (t.tradeVolume - prev) / prev;
      assert r * prev == t.tradeVolume - prev;
      assert prev > 0.0 ==> (r >= 1.0 <==> t.tradeVolume >= 2.0 * prev) by {
        if prev > 0.0 { DoubledVolume(r, prev, t.tradeVolume); }
      }
      r
    else 0.0
  }

  /** With a positive previous volume, a relative change of at least 1 is
      a volume that at least doubled. */
  lemma DoubledVolume(r: real, prev: real, v: real)
    requires prev > 0.0 && r * prev == v - prev
    ensures r >= 1.0 <==> v >= 2.0 * prev
  {
    if r >= 1.0 {
      assert r * prev >= 1.0 * prev;
    } else {
      assert r * prev < 1.0 * prev;
    }
  }

  function SamplePrice(s: Sample): real { s.price }

  /** The largest sampled price. */
  function MaxPrice(samples: seq<Sample>): (r: real)
    requires samples != []
    ensures exists s :: s in samples && s.price == r
    ensures forall s :: s in samples ==> s.price <= r
  {
    var k := FirstMaxIndex(samples, SamplePrice);
    samples[k].price
  }

  /** The recent high: the largest cached sample, or the day's high when
      the market has no samples. */
  function RecentHigh(recentHigh: map<string, seq<Sample>>, t: Ticker): (r: real)
    ensures t.market in recentHigh && recentHigh[t.market] != [] ==>
      && (exists s :: s in recentHigh[t.market] && s.price == r)
      && (forall s :: s in recentHigh[t.market] ==> s.price <= r)
    ensures !(t.market in recentHigh && recentHigh[t.market] != []) ==> r == t.highPrice
  {
    if t.market in recentHigh && recentHigh[t.market] != [] then MaxPrice(recentHigh[t.market])
    else t.highPrice
  }

  /** A book is acceptable with a spread of at most 0.7% of the best bid and
      asks at most 2.5 times the bids. A zero best bid is refused. */
  predicate BackupPassesBook(b: Orderbook)
  {
    && b.bidPrice != 0.0
    && (b.askPrice - b.bidPrice) / b.bidPrice <= 0.007
    && b.totalAskSize <= b.totalBidSize * 2.5
  }

  /** All of the selector's tests for one coin, in the order it applies them. */
  predicate Keeps(t: Ticker, c: Caches, books: map<string, CacheEntry>)
  {
    && VolumeChange(c.volume, t) >= 1.0
    && t.changeRate >= -0.07
    && RecentHigh(c.recentHigh, t) * 0.96 <= t.tradePrice <= RecentHigh(c.recentHigh, t) * 0.99
    && t.market in books
    && BackupPassesBook(books[t.market].data)
  }

  /** The coins that pass, in feed order. */
  function Surging(rows: seq<Ticker>, c: Caches, books: map<string, CacheEntry>): (r: seq<Ticker>)
    ensures forall t :: t in r <==> t in rows && Keeps(t, c, books)
    ensures (forall t :: t in rows ==> !Keeps(t, c, books)) ==> r == []
  {
    if rows == [] then []
    else
      assert rows == [rows[0]] + rows[1..];
      (if Keeps(rows[0], c, books) then [rows[0]] else []) + Surging(rows[1..], c, books)
  }

  function TickerAcc(t: Ticker): real { t.accTradePrice24h }
  function TickerScore(t: Ticker): real { t.tradePrice * t.accTradePrice24h }

  /** `(best_coin, top_5_coins)` of this selector. */
  datatype Pick = Pick(best: Option<Ticker>, shortlist: seq<Ticker>)

  /** This selector's choice among the rows of a successful feed: nothing
      passing gives `(None, [])`; otherwise at most five passing coins by
      descending 24h traded value (none left out has a larger one), and the
      first of them with the largest price x value. */
  function BackupChoose(rows: seq<Ticker>, c: Caches, books: map<string, CacheEntry>): (p: Pick)
    ensures p.best.None? <==> Surging(rows, c, books) == []
    ensures p.best.None? ==> p.shortlist == []
    ensures p.best.Some? ==> |p.shortlist| > 0 && p.best.value == BestByScore(p.shortlist)
    ensures var passing := Surging(rows, c, books);
      && |p.shortlist| == (if |passing| <= 5 then |passing| else 5)
      && multiset(p.shortlist) <= multiset(passing)
      && forall k :: WithKey(p.shortlist, TickerAcc, k) <= WithKey(passing, TickerAcc, k)
    ensures forall t :: t in p.shortlist ==> t in rows && Keeps(t, c, books)
    ensures DescendingBy(p.shortlist, TickerAcc)
    ensures forall t, i :: t in rows && Keeps(t, c, books) && t !in p.shortlist && 0 <= i < |p.shortlist| ==>
      TickerAcc(t) <= TickerAcc(p.shortlist[i])
  {
    var passing := Surging(rows, c, books);
    if passing == [] then Pick(None, [])
    else
      var shortlist := TopByValue(passing);
      assert forall t :: t in rows && Keeps(t, c, books) ==> t in passing;
      Pick(Some(BestByScore(shortlist)), shortlist)
  }

  /** This file's `get_best_trade_coin`: it reads the caches and never
      writes them; the error tag gives `(None, [])`. */
  function BackupSelect(feed: TickerFeed, c: Caches, books: map<string, CacheEntry>): (p: Pick)
    ensures feed.TickerFeedError? ==> p == Pick(None, [])
    ensures feed.TickerRows? ==> p == BackupChoose(feed.rows, c, books)
  {
    match feed
    case TickerFeedError => Pick(None, [])
    case TickerRows(rows) => BackupChoose(rows, c, books)
  }

  /** `sorted(filtered_coins, key=acc_trade_price_24h, reverse=True)[:5]`. */
  function TopByValue(passing: seq<Ticker>): (r: seq<Ticker>)
    ensures |r| == if |passing| <= 5 then |passing| else 5
    ensures multiset(r) <= multiset(passing)
    ensures forall t :: t in r ==> t in passing
    ensures DescendingBy(r, TickerAcc)
    ensures forall t, i :: t in passing && t !in r && 0 <= i < |r| ==> TickerAcc(t) <= TickerAcc(r[i])
    ensures forall k :: WithKey(r, TickerAcc, k) <= WithKey(passing, TickerAcc, k)
  {
    TopOfSorted(passing, TickerAcc, 5);
    Take(SortDesc(passing, TickerAcc), 5)
  }

  /** `max(top_5_coins, key=trade_price * acc_trade_price_24h)`. */
  function BestByScore(shortlist: seq<Ticker>): (b: Ticker)
    requires |shortlist| > 0
    ensures exists k :: (
      && 0 <= k < |shortlist| && b == shortlist[k]
      && (forall j :: 0 <= j < |shortlist| ==> TickerScore(shortlist[j]) <= TickerScore(shortlist[k]))
      && (forall j :: 0 <= j < k ==> TickerScore(shortlist[j]) < TickerScore(shortlist[k])))
  {
    var k := FirstMaxIndex(shortlist, TickerScore);
    shortlist[k]
  }

  /** A kept coin's volume at least doubled since the previous observation
      (volumes are never negative). */
  lemma KeptCoinSurged(t: Ticker, c: Caches, books: map<string, CacheEntry>)
    requires Keeps(t, c, books)
    requires t.market in c.volume && c.volume[t.market].prev >= 0.0
    ensures c.volume[t.market].prev > 0.0
    ensures t.tradeVolume >= 2.0 * c.volume[t.market].prev
  {
    var prev := c.volume[t.market].prev;
    assert prev != 0.0;
    assert (t.tradeVolume - prev) / prev >= 1.0;
    assert t.tradeVolume - prev >= prev by {
      assert (t.tradeVolume - prev) == ((t.tradeVolume - prev) / prev) * prev;
    }
  }

  /** The file's trader never calls `update_volume_cache` and never writes
      its order-book cache; with either cache empty no coin is ever picked. */
  lemma {:induction false} EmptyCachesPickNothing(feed: TickerFeed, c: Caches, books: map<string, CacheEntry>)
    requires c.volume == map[] || books == map[]
    ensures BackupSelect(feed, c, books) == Pick(None, [])
  {
    if feed.TickerRows? {
      assert forall t :: !Keeps(t, c, books);
    }
  }

  // ---------------------------------------------------------------------
  // This variant's exit order
  // ---------------------------------------------------------------------

  /** The exit decision of this file's `execute_trade` (lines 323-405) for a
      position bought at `buy`, now priced `price`, with high-water price
      `h`: a 1% take-profit unless the market is bullish, then the trailing
      stop armed at +2%, then the time exits, the volatility stop and the
      -2% stop. The neutral/bearish time exit can never fire here: its price
      condition is the take-profit's, which is checked first. */
  function BackupExit(trend: Trend, holding: real, buy: real, price: real, h: real, highVol: bool): (e: Exit)
    ensures e != Sell(TimeExitCalm)
    ensures e == Sell(TakeProfit) <==> QuickProfit(trend, buy, price)
    ensures e == Sell(TrailingStop) <==> !QuickProfit(trend, buy, price) && Trailing(buy, price, h)
    ensures e == Sell(TimeExitBullish) <==>
      && !QuickProfit(trend, buy, price) && !Trailing(buy, price, h)
      && trend == Bullish && holding > 360.0 && price >= buy * 1.01
    // with a positive buy price a price at or under 98% is never a profit
    // exit: the trailing stop, else the volatility stop, else (only in the
    // high-volatility band above 96%) the fixed stop
    ensures buy > 0.0 ==>
      (e == Sell(VolatilityStop) <==> !Trailing(buy, price, h) && price <= buy * VolatilityFactor(highVol))
    ensures buy > 0.0 ==>
      (e == Sell(FixedStop) <==> !Trailing(buy, price, h) && highVol && buy * 0.96 < price <= buy * 0.98)
    ensures buy > 0.0 ==>
      (e == Hold <==>
         && !QuickProfit(trend, buy, price) && !Trailing(buy, price, h)
         && !(trend == Bullish && holding > 360.0 && price >= buy * 1.01)
         && price > buy * 0.98)
  {
    if QuickProfit(trend, buy, price) then Sell(TakeProfit)
    else if Trailing(buy, price, h) then Sell(TrailingStop)
    else if trend.Calm() && holding > 600.0 && price >= buy * 1.01 then Sell(TimeExitCalm)
    else if trend == Bullish && holding > 360.0 && price >= buy * 1.01 then Sell(TimeExitBullish)
    else if price <= buy * VolatilityFactor(highVol) then Sell(VolatilityStop)
    else if price <= buy * 0.98 then Sell(FixedStop)
    else Hold
  }

  /** The 1% take-profit of this file, which a bullish market skips. */
  predicate QuickProfit(trend: Trend, buy: real, price: real)
  {
    price >= buy * 1.01 && trend != Bullish
  }

  /** The trailing stop: the high-water price, first raised to the price
      when the price is 2% up, is at least 2% up and the price is 1% under
      it. */
  predicate Trailing(buy: real, price: real, h: real)
  {
    var h2 := if price >= buy * 1.02 then Max(h, price) else h;
    h2 >= buy * 1.02 && price <= h2 * 0.99
  }
}

=== FILE: backtest.dfy ===
/** The strategy search of autoCodeProWeb/trading/aiTrade/aiTrading_btc_15.py:
    a bar-by-bar backtest of an RSI/MACD entry with a stop-loss and a
    take-profit, the search over its 36 parameter combinations, and the
    list of the ten coins with the largest traded value. The indicator
    columns are given: their computation is not part of this model. */
module Backtest {
  import opened Common

  // ---------------------------------------------------------------------
  // The backtest
  // ---------------------------------------------------------------------

  /** One row of the frame: the indicators and the traded price. */
  datatype Bar = Bar(rsi: real, macd: real, signal: real, price: real)

  /** `(oversold, overbought)` RSI levels. */
  datatype RsiRange = RsiRange(low: real, high: real)

  /** The simulated account: cash, coins held, and the last buy price. */
  datatype Account = Account(balance: real, position: real, buyPrice: real)

  const InitialBalance: real := 1000000.0

  const Start: Account := Account(InitialBalance, 0.0, 0.0)

  /** What a bar did to the account, in order. */
  datatype Event = Bought | SoldOnSignal | StoppedOut | TookProfit

  predicate BuySignal(b: Bar, rsi: RsiRange)
  {
    b.rsi < rsi.low && b.macd > b.signal
  }

  predicate SellSignal(b: Bar, rsi: RsiRange)
  {
    b.rsi > rsi.high && b.macd < b.signal
  }

  /** A buy needs a flat account; it spends the whole balance at the bar's
      price, and a zero price is a division by zero (None). */
  predicate Buys(a: Account, b: Bar, rsi: RsiRange)
  {
    BuySignal(b, rsi) && a.position == 0.0
  }

  predicate SellsOnSignal(a: Account, b: Bar, rsi: RsiRange)
  {
    !BuySignal(b, rsi) && SellSignal(b, rsi) && a.position > 0.0
  }

  /** Selling the whole position at the bar's price. */
  function Liquidated(a: Account, b: Bar): Account
  {
    Account(a.position * b.price, 0.0, a.buyPrice)
  }

  /** Lines 93-103: the signal part of a bar. */
  function Signal(a: Account, b: Bar, rsi: RsiRange): Option<Account>
  {
    if Buys(a, b, rsi) then
      if b.price == 0.0 then None
      else Some(Account(0.0, a.balance / b.price, b.price))
    else if SellsOnSignal(a, b, rsi) then Some(Liquidated(a, b))
    else Some(a)
  }

  predicate StopFires(a: Account, b: Bar, stopLoss: real)
  {
    a.position > 0.0 && b.price < a.buyPrice * stopLoss
  }

  predicate TakeProfitFires(a: Account, b: Bar, takeProfit: real)
  {
    a.position > 0.0 && b.price > a.buyPrice * takeProfit
  }

  /** Lines 105-113: the stop-loss, then the take-profit. */
  function Exits(a: Account, b: Bar, stopLoss: real, takeProfit: real): Account
  {
    var a1 := if StopFires(a, b, stopLoss) then Liquidated(a, b) else a;
    if TakeProfitFires(a1, b, takeProfit) then Liquidated(a1, b) else a1
  }

  /** One bar of the loop (lines 93-113). */
  function BarStep(a: Account, b: Bar, rsi: RsiRange, stopLoss: real, takeProfit: real): Option<Account>
  {
    var s := Signal(a, b, rsi);
    if s.None? then None else Some(Exits(s.value, b, stopLoss, takeProfit))
  }

  /** The trades one bar makes, in order. */
  function BarEvents(a: Account, b: Bar, rsi: RsiRange, stopLoss: real, takeProfit: real): seq<Event>
    requires Signal(a, b, rsi).Some?
  {
    var s := Signal(a, b, rsi).value;
    var stops := StopFires(s, b, stopLoss);
    var a1 := if stops then Liquidated(s, b) else s;
    (if Buys(a, b, rsi) then [Bought] else if SellsOnSignal(a, b, rsi) then [SoldOnSignal] else [])
      + (if stops then [StoppedOut] else [])
      + (if TakeProfitFires(a1, b, takeProfit) then [TookProfit] else [])
  }

  /** The account after the bars, or None when a buy met a zero price. */
  function Run(bars: seq<Bar>, rsi: RsiRange, stopLoss: real, takeProfit: real): Option<Account>
  {
    if bars == [] then Some(Start)
    else
      var prev := Run(bars[..|bars| - 1], rsi, stopLoss, takeProfit);
      if prev.None? then None else BarStep(prev.value, bars[|bars| - 1], rsi, stopLoss, takeProfit)
  }

  /** Line 115: the cash when flat, else the position at the last price. */
  function FinalBalance(a: Account, bars: seq<Bar>): real
  {
    if a.position == 0.0 || bars == [] then a.balance else a.position * bars[|bars| - 1].price
  }

  /** Line 116: the return in percent. */
  function ProfitOf(a: Account, bars: seq<Bar>): real
  {
    (FinalBalance(a, bars) / InitialBalance - 1.0) * 100.0
  }

  function Profit(bars: seq<Bar>, rsi: RsiRange, stopLoss: real, takeProfit: real): Option<real>
  {
    var a := Run(bars, rsi, stopLoss, takeProfit);
    if a.None? then None else Some(ProfitOf(a.value, bars))
  }

  /** `backtest_strategy`: the loop over the bars. Its `macd_setting`
      argument is never read, so it is not a parameter here. */
  method BacktestStrategy(bars: seq<Bar>, rsi: RsiRange, stopLoss: real, takeProfit: real) returns (profit: Option<real>)
    ensures profit == Profit(bars, rsi, stopLoss, takeProfit)
  {
    var balance := InitialBalance;
    var position := 0.0;
    var buyPrice := 0.0;
    var i := 0;
    while i < |bars|
      invariant 0 <= i <= |bars|
      invariant Run(bars[..i], rsi, stopLoss, takeProfit) == Some(Account(balance, position, buyPrice))
    {
      assert bars[..i + 1][..i] == bars[..i];
      var ok;
      ok, balance, position, buyPrice := TradeBar(balance, position, buyPrice, bars[i], rsi, stopLoss, takeProfit);
      if !ok {
        RunFailureStays(bars, rsi, stopLoss, takeProfit, i + 1);
        return None;
      }
      i := i + 1;
    }
    assert bars[..i] == bars;
    var final := if position == 0.0 || bars == [] then balance else position * bars[|bars| - 1].price;
    assert final == FinalBalance(Account(balance, position, buyPrice), bars);
    profit := Some((final / InitialBalance - 1.0) * 100.0);
  }

  /** The body of the loop for one bar; `ok` is false when a buy meets a
      zero price. */
  method TradeBar(balance0: real, position0: real, buyPrice0: real, b: Bar, rsi: RsiRange, stopLoss: real, takeProfit: real)
    returns (ok: bool, balance: real, position: real, buyPrice: real)
    ensures var r := BarStep(Account(balance0, position0, buyPrice0), b, rsi, stopLoss, takeProfit);
      ok <==> r.Some?
    ensures ok ==> (BarStep(Account(balance0, position0, buyPrice0), b, rsi, stopLoss, takeProfit)
                    == Some(Account(balance, position, buyPrice)))
  {
    ghost var before := Account(balance0, position0, buyPrice0);
    balance, position, buyPrice := balance0, position0, buyPrice0;
    if b.rsi < rsi.low && b.macd > b.signal {
      if position == 0.0 {
        if b.price == 0.0 {
          return false, balance, position, buyPrice;
        }
        assert Signal(before, b, rsi) == Some(Account(0.0, balance / b.price, b.price));
        buyPrice := b.price;
        position := balance / buyPrice;
        balance := 0.0;
        assert Signal(before, b, rsi) == Some(Account(balance, position, buyPrice));
      } else {
        assert Signal(before, b, rsi) == Some(Account(balance, position, buyPrice));
      }
    } else if b.rsi > rsi.high && b.macd < b.signal {
      if position > 0.0 {
        assert Signal(before, b, rsi) == Some(Liquidated(before, b));
        balance := position * b.price;
        position := 0.0;
        assert Liquidated(before, b) == Account(balance, position, buyPrice);
      } else {
        assert Signal(before, b, rsi) == Some(Account(balance, position, buyPrice));
      }
    } else {
      assert Signal(before, b, rsi) == Some(Account(balance, position, buyPrice));
    }
    ghost var signalled := Account(balance, position, buyPrice);
    assert Signal(before, b, rsi) == Some(signalled);
    if position > 0.0 && b.price < buyPrice * stopLoss {
      balance := position * b.price;
      position := 0.0;
      assert Liquidated(signalled, b) == Account(balance, position, buyPrice);
    }
    ghost var stopped := Account(balance, position, buyPrice);
    assert stopped == if StopFires(signalled, b, stopLoss) then Liquidated(signalled, b) else signalled;
    if position > 0.0 && b.price > buyPrice * takeProfit {
      balance := position * b.price;
      position := 0.0;
      assert Liquidated(stopped, b) == Account(balance, position, buyPrice);
    }
    assert Exits(signalled, b, stopLoss, takeProfit) == Account(balance, position, buyPrice);
    ok := true;
  }

  /** Once a prefix of the bars fails, the whole run fails. */
  lemma {:induction false} RunFailureStays(bars: seq<Bar>, rsi: RsiRange, stopLoss: real, takeProfit: real, n: nat)
    requires n <= |bars| && Run(bars[..n], rsi, stopLoss, takeProfit).None?
    ensures Run(bars, rsi, stopLoss, takeProfit).None?
    decreases |bars| - n
  {
    if n < |bars| {
      assert bars[..n + 1][..n] == bars[..n];
      RunFailureStays(bars, rsi, stopLoss, takeProfit, n + 1);
    } else {
      assert bars[..n] == bars;
    }
  }

  // ---------------------------------------------------------------------
  // What the backtest guarantees
  // ---------------------------------------------------------------------

  /** Exactly one side of the account is nonzero: cash or coins. */
  predicate OneSide(a: Account)
  {
    (a.balance > 0.0 && a.position == 0.0) || (a.balance == 0.0 && a.position > 0.0)
  }

  ghost predicate PositivePrices(bars: seq<Bar>)
  {
    forall i :: 0 <= i < |bars| ==> bars[i].price > 0.0
  }

  /** A bar trades at most once when the stop-loss is at most 1 and the
      take-profit at least 1; in general the stop-loss and the take-profit
      never both fire, since the first one empties the position; and the
      bar that buys keeps its position. */
  lemma BarTradesOnce(a: Account, b: Bar, rsi: RsiRange, stopLoss: real, takeProfit: real)
    requires Signal(a, b, rsi).Some?
    ensures var ev := BarEvents(a, b, rsi, stopLoss, takeProfit);
      !(StoppedOut in ev && TookProfit in ev)
    ensures b.price > 0.0 && a.balance > 0.0 && stopLoss <= 1.0 <= takeProfit && Buys(a, b, rsi) ==>
      && BarEvents(a, b, rsi, stopLoss, takeProfit) == [Bought]
      && BarStep(a, b, rsi, stopLoss, takeProfit).value.position > 0.0
  {
    if b.price > 0.0 && a.balance > 0.0 && stopLoss <= 1.0 <= takeProfit && Buys(a, b, rsi) {
      var s := Signal(a, b, rsi).value;
      assert s.buyPrice == b.price && s.position > 0.0;
      assert b.price * stopLoss <= b.price;
      assert b.price * takeProfit >= b.price;
    }
  }

  /** A bar with a positive price keeps the account on exactly one side. */
  lemma BarKeepsOneSide(a: Account, b: Bar, rsi: RsiRange, stopLoss: real, takeProfit: real)
    requires OneSide(a) && b.price > 0.0
    ensures BarStep(a, b, rsi, stopLoss, takeProfit).Some?
    ensures OneSide(BarStep(a, b, rsi, stopLoss, takeProfit).value)
  {
    var s := Signal(a, b, rsi).value;
    if Buys(a, b, rsi) {
      assert a.balance > 0.0;
      assert s.position == a.balance / b.price > 0.0;
    }
    assert OneSide(s);
    if s.position > 0.0 {
      assert s.position * b.price > 0.0;
    }
  }

  /** With positive prices the backtest never fails, and after every bar
      exactly one of the balance and the position is nonzero. */
  lemma {:induction false} RunKeepsOneSide(bars: seq<Bar>, rsi: RsiRange, stopLoss: real, takeProfit: real)
    requires PositivePrices(bars)
    ensures Run(bars, rsi, stopLoss, takeProfit).Some?
    ensures OneSide(Run(bars, rsi, stopLoss, takeProfit).value)
  {
    if bars != [] {
      var front := bars[..|bars| - 1];
      assert PositivePrices(front) by {
        forall i | 0 <= i < |front| ensures front[i].price > 0.0 {
          assert front[i] == bars[i];
        }
      }
      RunKeepsOneSide(front, rsi, stopLoss, takeProfit);
      BarKeepsOneSide(Run(front, rsi, stopLoss, takeProfit).value, bars[|bars| - 1], rsi, stopLoss, takeProfit);
    }
  }

  /** Without a buy signal nothing is ever traded and the return is 0. */
  lemma {:induction false} NoTradesNoProfit(bars: seq<Bar>, rsi: RsiRange, stopLoss: real, takeProfit: real)
    requires forall i :: 0 <= i < |bars| ==> !BuySignal(bars[i], rsi)
    ensures Run(bars, rsi, stopLoss, takeProfit) == Some(Start)
    ensures Profit(bars, rsi, stopLoss, takeProfit) == Some(0.0)
  {
    if bars != [] {
      var front := bars[..|bars| - 1];
      assert forall i :: 0 <= i < |front| ==> front[i] == bars[i];
      NoTradesNoProfit(front, rsi, stopLoss, takeProfit);
    }
  }

  // ---------------------------------------------------------------------
  // The parameter search
  // ---------------------------------------------------------------------

  /** `(fast, slow, signal)` periods of the MACD. */
  datatype MacdSetting = MacdSetting(fast: int, slow: int, signal: int)

  datatype Config = Config(rsi: RsiRange, macd: MacdSetting, stopLoss: real, takeProfit: real)

  const RsiRanges: seq<RsiRange> := [RsiRange(25.0, 70.0), RsiRange(28.0, 72.0), RsiRange(30.0, 75.0)]
  const MacdSettings: seq<MacdSetting> := [MacdSetting(12, 26, 9), MacdSetting(10, 24, 8), MacdSetting(14, 30, 10)]
  const StopLossLevels: seq<real> := [0.98, 0.97]
  const TakeProfitLevels: seq<real> := [1.02, 1.03]

  /** `product(rsi_ranges, macd_ranges, stop_loss_levels,
      take_profit_levels)`: the last factor varies fastest. */
  function Grid(): (g: seq<Config>)
    ensures |g| == |RsiRanges| * |MacdSettings| * |StopLossLevels| * |TakeProfitLevels| == 36
  {
    seq(36, i requires 0 <= i < 36 =>
      Config(RsiRanges[i / 12], MacdSettings[i / 4 % 3], StopLossLevels[i / 2 % 2], TakeProfitLevels[i % 2]))
  }

  /** Every combination appears in the grid exactly once, at its position
      in product order. */
  lemma GridIsProduct(a: nat, b: nat, c: nat, d: nat)
    requires a < 3 && b < 3 && c < 2 && d < 2
    ensures var k := ((a * 3 + b) * 2 + c) * 2 + d;
      && k < 36
      && Grid()[k] == Config(RsiRanges[a], MacdSettings[b], StopLossLevels[c], TakeProfitLevels[d])
      && forall j :: 0 <= j < 36 && j != k ==> Grid()[j] != Grid()[k]
  {
    var k := ((a * 3 + b) * 2 + c) * 2 + d;
    Digits(k);
    assert k / 12 == a && k / 4 % 3 == b && k / 2 % 2 == c && k % 2 == d;
    forall j | 0 <= j < 36 && j != k ensures Grid()[j] != Grid()[k] {
      Digits(j);
      LevelsDistinct(j / 12, k / 12, j / 4 % 3, k / 4 % 3, j / 2 % 2, k / 2 % 2, j % 2, k % 2);
    }
  }

  /** A grid position is its four digits in mixed radix 3, 3, 2, 2. */
  lemma Digits(j: int)
    requires 0 <= j < 36
    ensures j / 12 < 3 && j / 4 % 3 < 3 && j / 2 % 2 < 2 && j % 2 < 2
    ensures j == ((j / 12 * 3 + j / 4 % 3) * 2 + j / 2 % 2) * 2 + j % 2
  {
  }

  /** No level is listed twice. */
  lemma LevelsDistinct(a: nat, a': nat, b: nat, b': nat, c: nat, c': nat, d: nat, d': nat)
    requires a < 3 && a' < 3 && b < 3 && b' < 3 && c < 2 && c' < 2 && d < 2 && d' < 2
    ensures RsiRanges[a] == RsiRanges[a'] ==> a == a'
    ensures MacdSettings[b] == MacdSettings[b'] ==> b == b'
    ensures StopLossLevels[c] == StopLossLevels[c'] ==> c == c'
    ensures TakeProfitLevels[d] == TakeProfitLevels[d'] ==> d == d'
  {
  }

  /** The search result: the best configuration so far (None until one
      beats the start value) and its return. */
  datatype Optimum = Optimum(config: Option<Config>, profit: real)

  const NoProfit: real := -9999.0

  /** The frame a configuration is scored on: the indicators are recomputed
      for its MACD setting and RSI range. */
  function ProfitFor(c: Config, frames: (RsiRange, MacdSetting) -> seq<Bar>): Option<real>
  {
    Profit(frames(c.rsi, c.macd), c.rsi, c.stopLoss, c.takeProfit)
  }

  ghost predicate Tried(cs: seq<Config>, frames: (RsiRange, MacdSetting) -> seq<Bar>)
  {
    forall i :: 0 <= i < |cs| ==> ProfitFor(cs[i], frames).Some?
  }

  /** The search over `cs`, in order; None when a backtest fails. The
      result dominates every tried return and the start value, and the
      configuration kept is the first with the largest return, when that
      return beats the start value. */
  function Search(cs: seq<Config>, frames: (RsiRange, MacdSetting) -> seq<Bar>): (r: Option<Optimum>)
    ensures r.Some? <==> Tried(cs, frames)
    ensures r.Some? ==> r.value.profit >= NoProfit
    ensures r.Some? ==> forall i :: 0 <= i < |cs| ==> ProfitFor(cs[i], frames).value <= r.value.profit
    ensures r.Some? && r.value.config.None? ==> r.value.profit == NoProfit
    ensures r.Some? && r.value.config.Some? ==>
      exists k :: (&& 0 <= k < |cs| && cs[k] == r.value.config.value
                   && ProfitFor(cs[k], frames) == Some(r.value.profit) && r.value.profit > NoProfit
                   && forall j :: 0 <= j < k ==> ProfitFor(cs[j], frames).value < r.value.profit)
  {
    if cs == [] then Some(Optimum(None, NoProfit))
    else
      var front := cs[..|cs| - 1];
      var c := cs[|cs| - 1];
      var prev := Search(front, frames);
      var p := ProfitFor(c, frames);
      assert forall i :: 0 <= i < |front| ==> front[i] == cs[i];
      if prev.None? || p.None? then None
      else if p.value > prev.value.profit then Some(Optimum(Some(c), p.value))
      else prev
  }

  /** `optimize_strategy`: every grid configuration is scored by the backtest in
      order and a strictly larger return replaces the best so far. A failed
      backtest ends the search with no result. */
  method OptimizeStrategy(frames: (RsiRange, MacdSetting) -> seq<Bar>) returns (r: Option<Optimum>)
    ensures r == Search(Grid(), frames)
  {
    var grid := Grid();
    var best := Optimum(None, NoProfit);
    var i := 0;
    while i < |grid|
      invariant 0 <= i <= |grid|
      invariant Search(grid[..i], frames) == Some(best)
    {
      var c := grid[i];
      SearchStep(grid, frames, i);
      var profit := BacktestStrategy(frames(c.rsi, c.macd), c.rsi, c.stopLoss, c.takeProfit);
      if profit.None? {
        NoneStaysNone(grid, frames, i + 1);
        return None;
      }
      if profit.value > best.profit {
        best := Optimum(Some(c), profit.value);
      }
      i := i + 1;
    }
    assert grid[..i] == grid;
    r := Some(best);
  }

  /** The search over one more configuration. */
  lemma SearchStep(cs: seq<Config>, frames: (RsiRange, MacdSetting) -> seq<Bar>, n: nat)
    requires n < |cs|
    ensures var prev := Search(cs[..n], frames);
      var p := ProfitFor(cs[n], frames);
      Search(cs[..n + 1], frames)
        == if prev.None? || p.None? then None
           else if p.value > prev.value.profit then Some(Optimum(Some(cs[n]), p.value))
           else prev
  {
    assert cs[..n + 1][..n] == cs[..n];
  }

  /** A failed prefix fails the whole search. */
  lemma {:induction false} NoneStaysNone(cs: seq<Config>, frames: (RsiRange, MacdSetting) -> seq<Bar>, n: nat)
    requires n <= |cs| && Search(cs[..n], frames).None?
    ensures Search(cs, frames).None?
    decreases |cs| - n
  {
    if n < |cs| {
      assert cs[..n + 1][..n] == cs[..n];
      NoneStaysNone(cs, frames, n + 1);
    } else {
      assert cs[..n] == cs;
    }
  }

  // ---------------------------------------------------------------------
  // The coin list
  // ---------------------------------------------------------------------

  /** One ticker row; `acc_trade_price_24h` may be missing. */
  datatype TickerRow = TickerRow(market: string, tradePrice: real, acc: Option<real>)

  /** The ticker reply: the rows, a body that is not a list, or a failed
      request. */
  datatype TickerReply = TickerRows(rows: seq<TickerRow>) | NotAList | RequestFailed

  datatype CoinPrice = CoinPrice(market: string, tradePrice: real)

  /** `x.get("acc_trade_price_24h", 0)`. */
  function AccOrZero(r: TickerRow): real
  {
    if r.acc.Some? then r.acc.value else 0.0
  }

  /** The ten rows with the largest traded value, a missing one counting as
      0, in descending order. */
  function TopRows(rows: seq<TickerRow>): (top: seq<TickerRow>)
    ensures |top| == if |rows| <= 10 then |rows| else 10
    ensures multiset(top) <= multiset(rows)
    ensures DescendingBy(top, AccOrZero)
    ensures forall r :: r in top ==> r in rows
    ensures forall k :: WithKey(top, AccOrZero, k) <= WithKey(rows, AccOrZero, k)
    ensures forall r, i :: r in rows && r !in top && 0 <= i < |top| ==> AccOrZero(r) <= AccOrZero(top[i])
  {
    TopOfSorted(rows, AccOrZero, 10);
    Take(SortDesc(rows, AccOrZero), 10)
  }

  /** `get_top_trade_coins`: the market and price of the top rows, or no
      coin at all when the reply is not a list of rows. */
  function TopTradeCoins(reply: TickerReply): (coins: seq<CoinPrice>)
    ensures !reply.TickerRows? ==> coins == []
    ensures reply.TickerRows? ==>
      && |coins| == |TopRows(reply.rows)|
      && forall i :: 0 <= i < |coins| ==>
           coins[i] == CoinPrice(TopRows(reply.rows)[i].market, TopRows(reply.rows)[i].tradePrice)
  {
    match reply
    case TickerRows(rows) =>
      var top := TopRows(rows);
      seq(|top|, i requires 0 <= i < |top| => CoinPrice(top[i].market, top[i].tradePrice))
    case _ => []
  }

  /** Every listed coin comes from a row, at most ten are listed, and no
      row left out has a larger traded value than a listed one. */
  lemma TopTradeCoinsFromRows(rows: seq<TickerRow>)
    ensures var coins := TopTradeCoins(TickerRows(rows));
      && |coins| <= 10
      && (forall i :: 0 <= i < |coins| ==> exists r :: r in rows && coins[i] == CoinPrice(r.market, r.tradePrice))
      && (forall i, j :: 0 <= i < j < |coins| ==> AccOrZero(TopRows(rows)[i]) >= AccOrZero(TopRows(rows)[j]))
  {
    var top := TopRows(rows);
    var coins := TopTradeCoins(TickerRows(rows));
    forall i | 0 <= i < |coins| ensures exists r :: r in rows && coins[i] == CoinPrice(r.market, r.tradePrice) {
      assert top[i] in top;
    }
  }
}

=== FILE: common.dfy ===
/** Shared vocabulary of the trading core: optional values, the Python
    built-ins the core leans on (stable `sorted(..., reverse=True)`, `max`
    with a key, dict comprehensions keyed by a field, `str.replace`), and the
    labels and decisions the position managers exchange. */
module Common {

  datatype Option<+T> = None | Some(value: T)

  function Min(a: real, b: real): real { if a <= b then a else b }
  function Max(a: real, b: real): real { if a >= b then a else b }
  function Abs(x: real): real { if x < 0.0 then -x else x }

  // ---------------------------------------------------------------------
  // sorted(s, key=key, reverse=True)
  // ---------------------------------------------------------------------

  ghost predicate DescendingBy<T>(s: seq<T>, key: T -> real)
  {
    forall i, j :: 0 <= i < j < |s| ==> key(s[i]) >= key(s[j])
  }

  /** Inserts `x` in front of the first element whose key is not above
      `x`'s, so that `x` precedes later elements with an equal key. */
  function InsertDesc<T>(x: T, s: seq<T>, key: T -> real): (r: seq<T>)
    requires DescendingBy(s, key)
    ensures |r| == |s| + 1
    ensures multiset(r) == multiset(s) + multiset{x}
    ensures forall y :: y in r ==> y == x || y in s
    ensures DescendingBy(r, key)
  {
    if s == [] || key(s[0]) <= key(x) then [x] + s
    else
      var rest := InsertDesc(x, s[1..], key);
      assert s == [s[0]] + s[1..];
      assert forall y :: y in s[1..] ==> key(y) <= key(s[0]) by {
        forall y | y in s[1..] ensures key(y) <= key(s[0]) {
          var j :| 0 <= j < |s[1..]| && s[1..][j] == y;
          assert s[j + 1] == y;
        }
      }
      InsertDescHead(s[0], rest, x, s[1..], key);
      [s[0]] + rest
  }

  lemma InsertDescHead<T>(h: T, rest: seq<T>, x: T, tail: seq<T>, key: T -> real)
    requires DescendingBy(rest, key)
    requires key(x) < key(h)
    requires forall y :: y in tail ==> key(y) <= key(h)
    requires forall y :: y in rest ==> y == x || y in tail
    ensures DescendingBy([h] + rest, key)
  {
    var r := [h] + rest;
    forall i, j | 0 <= i < j < |r| ensures key(r[i]) >= key(r[j]) {
      assert r[j] == rest[j - 1];
      assert rest[j - 1] in rest;
      if i > 0 {
        assert r[i] == rest[i - 1];
      }
    }
  }

  /** Python's `sorted(s, key=key, reverse=True)`: the result is a
      permutation of `s` ordered by descending key; elements with equal keys
      keep their input order (Python's sort is stable under `reverse`). */
  function SortDesc<T>(s: seq<T>, key: T -> real): (r: seq<T>)
    ensures multiset(r) == multiset(s)
    ensures |r| == |s|
    ensures DescendingBy(r, key)
  {
    if s == [] then []
    else
      assert s == [s[0]] + s[1..];
      InsertDesc(s[0], SortDesc(s[1..], key), key)
  }

  /** Python's slice `s[:n]`. */
  function Take<T>(s: seq<T>, n: nat): (r: seq<T>)
    ensures |r| == if |s| <= n then |s| else n
    ensures r == s[..|r|]
    ensures |s| <= n ==> r == s
  {
    if |s| <= n then s else s[..n]
  }

  /** The elements of `s` whose key is `k`, in their order in `s`. */
  function WithKey<T>(s: seq<T>, key: T -> real, k: real): seq<T>
  {
    if s == [] then []
    else (if key(s[0]) == k then [s[0]] else []) + WithKey(s[1..], key, k)
  }

  /** Inserting `x` puts it in front of every element with its key. */
  lemma {:induction false} InsertDescWithKey<T>(x: T, s: seq<T>, key: T -> real, k: real)
    requires DescendingBy(s, key)
    ensures WithKey(InsertDesc(x, s, key), key, k) == (if key(x) == k then [x] else []) + WithKey(s, key, k)
  {
    if s == [] || key(s[0]) <= key(x) {
      assert InsertDesc(x, s, key) == [x] + s;
      assert ([x] + s)[1..] == s;
    } else {
      DescendingTail(s, key);
      var rest := InsertDesc(x, s[1..], key);
      assert InsertDesc(x, s, key) == [s[0]] + rest;
      InsertDescWithKey(x, s[1..], key, k);
      var hx := if key(x) == k then [x] else [];
      var h0 := if key(s[0]) == k then [s[0]] else [];
      assert ([s[0]] + rest)[1..] == rest;
      assert WithKey([s[0]] + rest, key, k) == h0 + (hx + WithKey(s[1..], key, k));
      assert WithKey(s, key, k) == h0 + WithKey(s[1..], key, k);
      assert h0 == [] || hx == [];
    }
  }

  lemma DescendingTail<T>(s: seq<T>, key: T -> real)
    requires DescendingBy(s, key) && s != []
    ensures DescendingBy(s[1..], key)
  {
    forall i, j | 0 <= i < j < |s[1..]| ensures key(s[1..][i]) >= key(s[1..][j]) {
      assert s[1..][i] == s[i + 1] && s[1..][j] == s[j + 1];
    }
  }

  /** The sort is stable: the elements of each key keep their input order. */
  lemma {:induction false} SortDescStable<T>(s: seq<T>, key: T -> real, k: real)
    ensures WithKey(SortDesc(s, key), key, k) == WithKey(s, key, k)
  {
    if s != [] {
      SortDescStable(s[1..], key, k);
      InsertDescWithKey(s[0], SortDesc(s[1..], key), key, k);
    }
  }

  /** The elements of one key in a prefix are a prefix of those in the whole. */
  lemma {:induction false} WithKeyPrefix<T>(t: seq<T>, m: nat, key: T -> real, k: real)
    requires m <= |t|
    ensures WithKey(t[..m], key, k) <= WithKey(t, key, k)
  {
    if m > 0 {
      WithKeyPrefix(t[1..], m - 1, key, k);
      assert t[..m][1..] == t[1..][..m - 1];
      var head := if key(t[0]) == k then [t[0]] else [];
      var a, b := WithKey(t[1..][..m - 1], key, k), WithKey(t[1..], key, k);
      assert b == a + b[|a|..];
      assert head + b == (head + a) + b[|a|..];
    }
  }

  /** What the top-`n` cut of a descending sort keeps: the first `n`
      elements (all of them when there are fewer), drawn from `s`, in
      descending order; no element left out of it has a larger key than any
      element kept, and among equal keys the earliest in `s` are kept. */
  lemma {:induction false} TopOfSorted<T>(s: seq<T>, key: T -> real, n: nat)
    ensures var r := Take(SortDesc(s, key), n);
      && |r| == (if |s| <= n then |s| else n)
      && multiset(r) <= multiset(s)
      && DescendingBy(r, key)
      && (forall x :: x in r ==> x in s)
      && (forall x, i :: x in s && x !in r && 0 <= i < |r| ==> key(x) <= key(r[i]))
      && (forall k :: WithKey(r, key, k) <= WithKey(s, key, k))
  {
    PrefixMultiset(SortDesc(s, key), |Take(SortDesc(s, key), n)|);
    TopCutDominates(s, key, n);
    forall k ensures WithKey(Take(SortDesc(s, key), n), key, k) <= WithKey(s, key, k) {
      TopKeepsTieOrder(s, key, n, k);
    }
  }

  lemma TopCutDominates<T>(s: seq<T>, key: T -> real, n: nat)
    ensures var r := Take(SortDesc(s, key), n);
      && (forall x :: x in r ==> x in s)
      && (forall x, i :: x in s && x !in r && 0 <= i < |r| ==> key(x) <= key(r[i]))
  {
    var sorted := SortDesc(s, key);
    var r := Take(sorted, n);
    forall x | x in r ensures x in s {
      assert x in multiset(sorted);
    }
    forall x, i | x in s && x !in r && 0 <= i < |r| ensures key(x) <= key(r[i]) {
      assert x in multiset(sorted);
      PrefixDominates(sorted, |r|, key, x, i);
    }
  }

  lemma PrefixMultiset<T>(t: seq<T>, m: nat)
    requires m <= |t|
    ensures multiset(t[..m]) <= multiset(t)
  {
    assert t == t[..m] + t[m..];
    assert multiset(t) == multiset(t[..m]) + multiset(t[m..]);
  }

  lemma TopKeepsTieOrder<T>(s: seq<T>, key: T -> real, n: nat, k: real)
    ensures WithKey(Take(SortDesc(s, key), n), key, k) <= WithKey(s, key, k)
  {
    var sorted := SortDesc(s, key);
    WithKeyPrefix(sorted, |Take(sorted, n)|, key, k);
    SortDescStable(s, key, k);
  }

  /** In a descending list, an element outside the first `n` has no larger
      key than any element inside them. */
  lemma PrefixDominates<T>(sorted: seq<T>, n: nat, key: T -> real, x: T, i: int)
    requires DescendingBy(sorted, key) && n <= |sorted|
    requires x in sorted && x !in sorted[..n] && 0 <= i < n
    ensures key(x) <= key(sorted[i])
  {
    var j :| 0 <= j < |sorted| && sorted[j] == x;
    assert forall k :: 0 <= k < n ==> sorted[..n][k] == sorted[k];
  }

  // ---------------------------------------------------------------------
  // max(s, key=score)
  // ---------------------------------------------------------------------

  /** Index of the element Python's `max(s, key=score)` returns: the first
      element whose score no other element exceeds. */
  function FirstMaxIndex<T>(s: seq<T>, score: T -> real): (k: nat)
    requires |s| > 0
    ensures k < |s|
    ensures forall j :: 0 <= j < |s| ==> score(s[j]) <= score(s[k])
    ensures forall j :: 0 <= j < k ==> score(s[j]) < score(s[k])
  {
    if |s| == 1 then 0
    else
      var k := FirstMaxIndex(s[..|s| - 1], score);
      if score(s[|s| - 1]) > score(s[k]) then |s| - 1 else k
  }

  // ---------------------------------------------------------------------
  // {key(item): item for item in items}
  // ---------------------------------------------------------------------

  /** A dict comprehension keyed by `key`: a later item with the same key
      overwrites an earlier one. */
  function KeyBy<T>(items: seq<T>, key: T -> string): (m: map<string, T>)
    ensures forall k :: k in m ==> key(m[k]) == k && m[k] in items
    ensures forall x :: x in items ==> key(x) in m
  {
    if items == [] then map[]
    else
      var last := items[|items| - 1];
      var m := KeyBy(items[..|items| - 1], key);
      assert forall x :: x in items[..|items| - 1] ==> x in items;
      assert forall x :: x in items ==> x == last || x in items[..|items| - 1];
      m[key(last) := last]
  }

  /** The value kept for a key is the last item carrying that key. */
  lemma {:induction false} KeyByKeepsLast<T>(items: seq<T>, key: T -> string, i: nat)
    requires i < |items|
    requires forall j :: i < j < |items| ==> key(items[j]) != key(items[i])
    ensures KeyBy(items, key)[key(items[i])] == items[i]
  {
    if i < |items| - 1 {
      KeyByKeepsLast(items[..|items| - 1], key, i);
    }
  }

  // ---------------------------------------------------------------------
  // str.replace(pat, "")
  // ---------------------------------------------------------------------

  /** Python's `s.replace(pat, "")`: scanning from the left, every
      non-overlapping occurrence of `pat` is removed. */
  function RemoveAll(s: string, pat: string): (r: string)
    requires |pat| > 0
    ensures |r| <= |s|
    decreases |s|
  {
    if |s| < |pat| then s
    else if s[..|pat|] == pat then RemoveAll(s[|pat|..], pat)
    else [s[0]] + RemoveAll(s[1..], pat)
  }

  ghost predicate OccursAt(pat: string, s: string, i: int)
  {
    0 <= i && i + |pat| <= |s| && s[i..i + |pat|] == pat
  }

  ghost predicate Occurs(pat: string, s: string)
  {
    exists i :: OccursAt(pat, s, i)
  }

  lemma {:induction false} RemoveAllAbsent(s: string, pat: string)
    requires |pat| > 0 && !Occurs(pat, s)
    ensures RemoveAll(s, pat) == s
    decreases |s|
  {
    if |s| >= |pat| {
      assert !OccursAt(pat, s, 0);
      assert s[0..|pat|] == s[..|pat|];
      assert !Occurs(pat, s[1..]) by {
        forall i | OccursAt(pat, s[1..], i) ensures false {
          assert s[1..][i..i + |pat|] == s[i + 1..i + 1 + |pat|];
          assert OccursAt(pat, s, i + 1);
        }
      }
      RemoveAllAbsent(s[1..], pat);
      assert s == [s[0]] + s[1..];
    }
  }

  const KrwPrefix: string := "KRW-"

  /** `market.replace("KRW-", "")`: the currency a market trades. */
  function Currency(market: string): string
  {
    RemoveAll(market, KrwPrefix)
  }

  /** For a market "KRW-c" whose currency code does not itself contain
      "KRW-", the currency is exactly c. */
  lemma CurrencyOfKrwMarket(c: string)
    requires !Occurs(KrwPrefix, c)
    ensures Currency(KrwPrefix + c) == c
  {
    var s := KrwPrefix + c;
    assert s[..|KrwPrefix|] == KrwPrefix;
    assert s[|KrwPrefix|..] == c;
    RemoveAllAbsent(c, KrwPrefix);
  }

  // ---------------------------------------------------------------------
  // Decisions shared by the three position-manager variants
  // ---------------------------------------------------------------------

  /** The combined market trend label; the classifier is external, and any
      label other than the three it is known to produce is kept as is. */
  datatype Trend = Bullish | Neutral | Bearish | OtherTrend(name: string)
  {
    predicate Calm() { Neutral? || Bearish? }
  }

  datatype ExitReason =
    | TimeExitCalm        // neutral/bearish market, held past the long limit, up 1%
    | TimeExitBullish     // bullish market, held past the short limit, up 1%
    | VolatilityStop      // stop-loss tightened for high-volatility markets
    | FixedStop           // -2% stop-loss floor
    | TakeProfit          // target gain reached outside a bullish market
    | TrailingStop        // 1% below the high-water price
    | CrashStop           // 5% below the high-water price
    | LossCut             // last-resort stop-loss

  /** The outcome of one position's exit rules for one tick: at most one sell. */
  datatype Exit = Hold | Sell(reason: ExitReason)
}

=== FILE: compare1.dfy ===
/** The `execute_trade` variant of compareFile/compare1.py, run by the same
    trader: the market data is checked before the hand-sold positions are
    reconciled, a market is high-volatility beyond 3%, the high-water price
    is the larger of the recorded one and the current price and lives in
    memory only, and the exit order is crash stop, take-profit, trailing
    stop (not armed by any gain) and loss cut. The entry is the trader's. */
module Compare1 {
  import opened Common
  import opened Exchange
  import opened CandidateSelection
  import opened Positions
  import opened AutoTrade

  /** Markets moving more than 3% are high-volatility. */
  const Compare1Threshold: real := 0.03

  /** The loss-cut factor: 0.97 for a high-volatility market, else 0.98. */
  function LossCutFactor(highVol: bool): real
  {
    if highVol then 0.97 else 0.98
  }

  // ---------------------------------------------------------------------
  // The exit order
  // ---------------------------------------------------------------------

  /** The exit rules of lines 64-95 for a position bought at `buy`, now
      priced `price`, with high-water price `h`. The first matching rule
      sells: a 5% drop from the high, a 2% gain (whatever the trend), a 1%
      drop from the high, then the loss cut. */
  function Compare1Exit(buy: real, price: real, h: real, highVol: bool): (e: Exit)
    ensures e == Sell(CrashStop) <==> price <= h * 0.95
    ensures e == Sell(TakeProfit) <==> price > h * 0.95 && price >= buy * 1.02
    ensures e == Sell(TrailingStop) ==> price <= h * 0.99
    ensures e == Sell(LossCut) ==> price <= buy * LossCutFactor(highVol) && price > h * 0.99
    ensures e.Sell? ==> e.reason in {CrashStop, TakeProfit, TrailingStop, LossCut}
    ensures e == Hold <==>
      price > h * 0.95 && price < buy * 1.02 && price > h * 0.99 && price > buy * LossCutFactor(highVol)
  {
    if price <= h * 0.95 then Sell(CrashStop)
    else if price >= buy * 1.02 then Sell(TakeProfit)
    else if h * 0.99 >= price then Sell(TrailingStop)
    else if price <= buy * LossCutFactor(highVol) then Sell(LossCut)
    else Hold
  }

  /** With a positive buy price and a high-water price at or above it, a
      position sells exactly when it is 1% under its high or 2% over its
      buy price, and the loss cut never fires: any price at or under 98% of
      the buy price is already at or under 99% of the high. */
  lemma {:induction false} LossCutUnreachable(buy: real, price: real, h: real, highVol: bool)
    requires buy > 0.0 && h >= buy
    ensures Compare1Exit(buy, price, h, highVol) != Sell(LossCut)
    ensures Compare1Exit(buy, price, h, highVol).Sell? <==> price <= h * 0.99 || price >= buy * 1.02
  {
    if price <= buy * LossCutFactor(highVol) {
      calc {
        price;
      <= buy * LossCutFactor(highVol);
      <= buy * 0.98;
      <= h * 0.98;
      <= h * 0.99;
      }
    }
  }

  // ---------------------------------------------------------------------
  // One position, as values
  // ---------------------------------------------------------------------

  /** The in-memory view this variant rebuilds from the active records
      (line 12): it carries no creation time. */
  function Load1(store: Store): (trades: map<string, Position>)
    ensures trades.Keys == Active(store)
    ensures forall m :: m in trades ==> trades[m] == PositionOf(store[m]).(createdAt := None)
  {
    map m | m in store && store[m].isActive :: PositionOf(store[m]).(createdAt := None)
  }

  /** Every active record has a high-water price. A record without one makes
      `max(None, price)` raise, so this variant relies on it. */
  ghost predicate HighWaterKnown(store: Store)
  {
    forall m :: m in store && store[m].isActive ==> store[m].highestPrice.Some?
  }

  ghost predicate Marked(trades: map<string, Position>)
  {
    forall m :: m in trades ==> trades[m].highestPrice.Some?
  }

  /** What the tick does with one position (lines 38-95). */
  function Plan1(env: Env, market: string, p: Position): (s: Step)
    requires p.highestPrice.Some?
    ensures s.Watched? ==>
      var price := PriceOf(env.coins, market);
      && price.Some? && price.value != 0.0
      && s.highest >= p.highestPrice.value && s.highest >= price.value
      && (s.highest == p.highestPrice.value || s.highest == price.value)
      && s.exit == Compare1Exit(p.buyPrice, price.value, s.highest, market in env.highVol)
    ensures s.Closed? <==> CheckOrderFilled(env.orderState(p.uuid))
    ensures s.Skipped? <==>
      !CheckOrderFilled(env.orderState(p.uuid)) && (PriceOf(env.coins, market).None? || PriceOf(env.coins, market).value == 0.0)
  {
    if CheckOrderFilled(env.orderState(p.uuid)) then Closed
    else
      var price := PriceOf(env.coins, market);
      if price.None? || price.value == 0.0 then Skipped
      else
        var h := Max(p.highestPrice.value, price.value);
        Watched(h, Compare1Exit(p.buyPrice, price.value, h, market in env.highVol))
  }

  predicate Sells1(env: Env, market: string, p: Position)
    requires p.highestPrice.Some?
  {
    Plan1(env, market, p).Watched? && Plan1(env, market, p).exit.Sell?
  }

  // ---------------------------------------------------------------------
  // The position loop, as values
  // ---------------------------------------------------------------------

  /** The markets of `rows` whose order is filled: the loop clears them. */
  function Filled1(trades: map<string, Position>, env: Env, rows: seq<string>): (r: set<string>)
    requires Marked(trades)
    ensures r <= trades.Keys
    ensures forall m :: m in r <==> m in trades && m in rows && Plan1(env, m, trades[m]).Closed?
  {
    set m | m in trades && m in rows && Plan1(env, m, trades[m]).Closed?
  }

  /** The in-memory view after the loop: filled positions leave it, the
      others carry the new high-water price and a placed sell's uuid. */
  function Trades1(trades: map<string, Position>, env: Env, failed: set<string>, rows: seq<string>): (r: map<string, Position>)
    requires Marked(trades)
    ensures Marked(r)
    // a filled position leaves memory; a position of no row is untouched
    ensures forall m :: m in rows && m in trades && Plan1(env, m, trades[m]).Closed? ==> m !in r
    ensures forall m :: m in trades && m !in rows ==> m in r && r[m] == trades[m]
  {
    map m | m in trades && !(m in rows && Plan1(env, m, trades[m]).Closed?) ::
      if m in rows then PositionAfter(trades[m], Plan1(env, m, trades[m]), env.replies(m, "ask"), m in failed)
      else trades[m]
  }

  /** The sell requests, in row order. */
  function SellRequests1(rows: seq<string>, trades: map<string, Position>, env: Env, failed: set<string>): seq<map<string, Arg>>
    requires Marked(trades)
  {
    if rows == [] then []
    else
      var m := rows[|rows| - 1];
      SellRequests1(rows[..|rows| - 1], trades, env, failed)
        + (if m in trades && Sells1(env, m, trades[m]) && m !in failed then [SellParams(env, m)] else [])
  }

  /** The markets whose sell attempt came back as an error. */
  function SoldFailed1(trades: map<string, Position>, env: Env, rows: seq<string>): (r: set<string>)
    requires Marked(trades)
    ensures r <= trades.Keys
  {
    set m | m in trades && m in rows && Sells1(env, m, trades[m]) && env.replies(m, "ask").status != 201
  }

  // The part of a tick after reconciliation, for an entry decision `e`.

  function Feed1Store(r: Store, env: Env, tick: Tick, e: Entry, failed: set<string>, budget: real): Store
    requires Marked(Load1(r))
  {
    var managed := DeactivateAll(r, Filled1(Load1(r), env, tick.rows));
    if BuyPlaced(e, tick, failed) then Saved(managed, e.market, e.price, tick.replies(e.market, "bid").uuid, tick.now, budget)
    else managed
  }

  function Feed1Trades(r: Store, env: Env, tick: Tick, e: Entry, failed: set<string>): map<string, Position>
    requires Marked(Load1(r))
  {
    var trades := Trades1(Load1(r), env, failed, tick.rows);
    if BuyPlaced(e, tick, failed) then
      trades[e.market := Position(e.price, Some(e.price), Some(tick.replies(e.market, "bid").uuid), Some(tick.now))]
    else trades
  }

  function Feed1Requests(r: Store, env: Env, tick: Tick, e: Entry, failed: set<string>): seq<map<string, Arg>>
    requires Marked(Load1(r))
  {
    SellRequests1(tick.rows, Load1(r), env, failed) + (if e.Buy? && e.market !in failed then [BuyParams(e)] else [])
  }

  function Feed1Failed(r: Store, env: Env, tick: Tick, e: Entry, failed: set<string>): set<string>
    requires Marked(Load1(r))
  {
    failed + SoldFailed1(Load1(r), env, tick.rows) + (if e.Buy? && !BuyPlaced(e, tick, failed) then {e.market} else {})
  }

  /** The inputs of the loop, with the 3% threshold; the exit rules here
      ignore the trend and the holding time. */
  function Env1(tick: Tick): Env
    requires tick.feed.Quotes?
  {
    Env(CurrentRules, tick.trend, tick.now, tick.feed.coins, HighVolatility(tick.feed.coins, Compare1Threshold),
        tick.orderState, tick.replies, Holdings(tick.accounts))
  }

  /** The entry decision of lines 101-123 on the reconciled table `r`. */
  function Decision1(r: Store, tick: Tick, isActive: bool, budget: real, entries: map<string, CacheEntry>): (e: Entry)
    requires tick.feed.Quotes?
    ensures e.Buy? ==> Selects(isActive, Active(r)) && e.market !in Active(r)
    ensures e.Buy? ==> e.market !in HighVolatility(tick.feed.coins, Compare1Threshold)
    ensures e.Buy? ==> e.amount == Min(budget, KrwBalance(tick.accounts)) && e.amount >= MinOrder
  {
    Decision(CurrentRules, tick, isActive, Active(r), Env1(tick).highVol, budget, KrwBalance(tick.accounts), entries)
  }

  // ---------------------------------------------------------------------
  // The tick, on the trader's state
  // ---------------------------------------------------------------------

  /** Lines 25-32: every tracked market whose currency is not held is
      cleared, in the table and in memory, and dropped from `markets`. */
  method Reconcile1(t: AutoTrader, held: set<string>) returns (markets: set<string>)
    requires t.activeTrades == Load1(t.store)
    modifies t
    ensures t.store == Reconciled(old(t.store), held)
    ensures t.activeTrades == Load1(t.store)
    ensures markets == Active(t.store)
    ensures t.isActive == old(t.isActive) && t.failedTrade == old(t.failedTrade)
  {
    markets := t.activeTrades.Keys;
    var todo := t.activeTrades.Keys;
    ghost var done: set<string> := {};
    while todo != {}
      invariant todo <= Active(old(t.store))
      invariant done == Unheld(Active(old(t.store)) - todo, held)
      invariant t.store == DeactivateAll(old(t.store), done)
      invariant t.activeTrades == Load1(t.store)
      invariant markets == Active(old(t.store)) - done
      invariant t.isActive == old(t.isActive) && t.failedTrade == old(t.failedTrade)
      decreases todo
    {
      var m :| m in todo;
      if Currency(m) !in held {
        ClearStep(old(t.store), done, m);
        Load1Cleared(t.store, m);
        t.ClearTrade(m);
        markets := markets - {m};
        done := done + {m};
      }
      todo := todo - {m};
    }
    ActiveAfterReconcile(old(t.store), held);
  }

  /** One iteration of the loop: a filled order clears the position; a
      missing or zero price skips it; otherwise the high-water price is
      raised in memory and at most one sell is sent. */
  method ManagePosition1(t: AutoTrader, env: Env, market: string)
    requires market in t.activeTrades && t.activeTrades[market].highestPrice.Some?
    modifies t, t.gateway
    ensures var s := Plan1(env, market, old(t.activeTrades)[market]);
      && t.store == (if s.Closed? then Cleared(old(t.store), market) else old(t.store))
      && t.activeTrades == (if s.Closed? then old(t.activeTrades) - {market}
                            else old(t.activeTrades)[market := PositionAfter(old(t.activeTrades)[market], s,
                                                          env.replies(market, "ask"), market in old(t.gateway.failedMarkets))])
    ensures Sells1(env, market, old(t.activeTrades)[market]) ==>
      var r := OrderOutcome(market in old(t.gateway.failedMarkets), env.replies(market, "ask"));
      && t.gateway.sent == old(t.gateway.sent) + (if market in old(t.gateway.failedMarkets) then [] else [SellParams(env, market)])
      && t.gateway.failedMarkets == old(t.gateway.failedMarkets) + (if r.Failed? then {market} else {})
      && t.gateway.failedTable == old(t.gateway.failedTable)
           + (if r.Failed? && market !in old(t.gateway.failedMarkets) then {market} else {})
    ensures !Sells1(env, market, old(t.activeTrades)[market]) ==>
      && t.gateway.sent == old(t.gateway.sent)
      && t.gateway.failedMarkets == old(t.gateway.failedMarkets)
      && t.gateway.failedTable == old(t.gateway.failedTable)
    ensures t.isActive == old(t.isActive) && t.failedTrade == old(t.failedTrade)
  {
    var p := t.activeTrades[market];
    if CheckOrderFilled(env.orderState(p.uuid)) {
      t.ClearTrade(market);
      return;
    }
    var price := PriceOf(env.coins, market);
    if price.None? || price.value == 0.0 {
      return;
    }
    var current := price.value;
    var h := Max(p.highestPrice.value, current);
    t.activeTrades := t.activeTrades[market := p.(highestPrice := Some(h))];
    var exit := Compare1Exit(p.buyPrice, current, h, market in env.highVol);
    assert Plan1(env, market, p) == Watched(h, exit);
    if exit.Sell? {
      t.SellPosition(env, market);
    }
  }

  /** The loop state after the rows `done` were managed. */
  ghost predicate Managed1SoFar(t: AutoTrader, env: Env, store0: Store, trades0: map<string, Position>,
                                sent0: seq<map<string, Arg>>, failed0: set<string>, table0: set<string>, done: seq<string>)
    reads t, t.gateway
  {
    && Marked(trades0)
    && t.store == DeactivateAll(store0, Filled1(trades0, env, done))
    && t.activeTrades == Trades1(trades0, env, failed0, done)
    && t.gateway.sent == sent0 + SellRequests1(done, trades0, env, failed0)
    && t.gateway.failedMarkets == failed0 + SoldFailed1(trades0, env, done)
    && t.gateway.failedTable == table0 + (SoldFailed1(trades0, env, done) - failed0)
  }

  method ManageRow1(t: AutoTrader, env: Env, m: string, ghost store0: Store, ghost trades0: map<string, Position>,
                    ghost sent0: seq<map<string, Arg>>, ghost failed0: set<string>, ghost table0: set<string>,
                    ghost done: seq<string>)
    requires trades0 == Load1(store0) && m !in done
    requires Managed1SoFar(t, env, store0, trades0, sent0, failed0, table0, done)
    modifies t, t.gateway
    ensures Managed1SoFar(t, env, store0, trades0, sent0, failed0, table0, done + [m])
    ensures t.isActive == old(t.isActive) && t.failedTrade == old(t.failedTrade)
  {
    Row1Untouched(store0, trades0, env, failed0, done, m);
    if m in t.activeTrades {
      ghost var store1, trades1, sent1, failed1, table1 := t.store, t.activeTrades, t.gateway.sent, t.gateway.failedMarkets, t.gateway.failedTable;
      assert m in failed1 <==> m in failed0;
      ManagePosition1(t, env, m);
      Row1Store(store0, trades0, env, done, m, store1, t.store);
      Row1Trades(trades0, env, failed0, done, m, trades1, t.activeTrades);
      Row1Sent(trades0, env, failed0, done, m, sent0, sent1, t.gateway.sent, failed1);
      Row1Failed(trades0, env, failed0, done, m, failed1, t.gateway.failedMarkets, table0, table1, t.gateway.failedTable);
    } else {
      Row1Absent(trades0, env, failed0, done, m);
    }
  }

  /** The position loop (lines 35-95) over the rows of the query. */
  method ManagePositions1(t: AutoTrader, env: Env, rows: seq<string>)
    requires Distinct(rows)
    requires t.activeTrades == Load1(t.store) && Marked(t.activeTrades)
    modifies t, t.gateway
    ensures Managed1SoFar(t, env, old(t.store), old(t.activeTrades), old(t.gateway.sent), old(t.gateway.failedMarkets),
                          old(t.gateway.failedTable), rows)
    ensures t.isActive == old(t.isActive) && t.failedTrade == old(t.failedTrade)
  {
    var i := 0;
    while i < |rows|
      invariant 0 <= i <= |rows|
      invariant Managed1SoFar(t, env, old(t.store), old(t.activeTrades), old(t.gateway.sent), old(t.gateway.failedMarkets),
                              old(t.gateway.failedTable), rows[..i])
      invariant t.isActive == old(t.isActive) && t.failedTrade == old(t.failedTrade)
    {
      assert rows[..i + 1] == rows[..i] + [rows[i]];
      ManageRow1(t, env, rows[i], old(t.store), old(t.activeTrades), old(t.gateway.sent), old(t.gateway.failedMarkets),
                 old(t.gateway.failedTable), rows[..i]);
      i := i + 1;
    }
    assert rows[..|rows|] == rows;
  }

  /** compare1's `execute_trade`. Without market data the tick only
      rebuilds the in-memory view. Otherwise it reconciles, runs the
      position loop and then the trader's entry, whose save records the
      trader's budget. */
  method ExecuteTrade(t: AutoTrader, tick: Tick)
    requires RowsMatch(tick.rows, t.store) && HighWaterKnown(t.store)
    modifies t, t.gateway, t.books
    ensures tick.feed.FeedError? ==>
      && t.store == old(t.store) && t.activeTrades == Load1(old(t.store))
      && t.gateway.sent == old(t.gateway.sent) && t.gateway.failedMarkets == old(t.gateway.failedMarkets)
      && t.gateway.failedTable == old(t.gateway.failedTable) && t.books.entries == old(t.books.entries)
    ensures tick.feed.Quotes? ==>
      var r := Reconciled(old(t.store), HeldCurrencies(tick.accounts));
      var failed := old(t.gateway.failedMarkets);
      var e := Decision1(r, tick, old(t.isActive), t.budget, old(t.books.entries));
      && Marked(Load1(r))
      && t.store == Feed1Store(r, Env1(tick), tick, e, failed, t.budget)
      && t.activeTrades == Feed1Trades(r, Env1(tick), tick, e, failed)
      && t.gateway.sent == old(t.gateway.sent) + Feed1Requests(r, Env1(tick), tick, e, failed)
      && t.gateway.failedMarkets == Feed1Failed(r, Env1(tick), tick, e, failed)
      && t.gateway.failedTable == old(t.gateway.failedTable) + (t.gateway.failedMarkets - failed)
      && t.books.entries == (if Selects(old(t.isActive), Active(r)) then BooksAfter(CurrentRules, tick, old(t.books.entries))
                             else old(t.books.entries))
    ensures t.isActive == old(t.isActive) && t.failedTrade == old(t.failedTrade)
  {
    var holdings := Holdings(tick.accounts);
    var krw := KrwBalance(tick.accounts);
    t.activeTrades := Load1(t.store);
    if tick.feed.FeedError? {
      return;
    }
    var env := Env1(tick);
    var markets := Reconcile1(t, holdings.Keys);
    ReconciledKeepsHighWater(old(t.store), holdings.Keys);
    Feed1(t, tick, env, markets, krw);
  }

  /** Lines 35-123 on the reconciled table. */
  method Feed1(t: AutoTrader, tick: Tick, env: Env, markets: set<string>, krw: real)
    requires tick.feed.Quotes? && env == Env1(tick)
    requires Distinct(tick.rows)
    requires t.activeTrades == Load1(t.store) && Marked(t.activeTrades)
    requires markets == Active(t.store) && krw == KrwBalance(tick.accounts)
    modifies t, t.gateway, t.books
    ensures var failed := old(t.gateway.failedMarkets);
      var e := Decision1(old(t.store), tick, old(t.isActive), t.budget, old(t.books.entries));
      && t.store == Feed1Store(old(t.store), env, tick, e, failed, t.budget)
      && t.activeTrades == Feed1Trades(old(t.store), env, tick, e, failed)
      && t.gateway.sent == old(t.gateway.sent) + Feed1Requests(old(t.store), env, tick, e, failed)
      && t.gateway.failedMarkets == Feed1Failed(old(t.store), env, tick, e, failed)
      && t.gateway.failedTable == old(t.gateway.failedTable) + (t.gateway.failedMarkets - failed)
      && t.books.entries == (if Selects(old(t.isActive), markets) then BooksAfter(CurrentRules, tick, old(t.books.entries))
                             else old(t.books.entries))
    ensures t.isActive == old(t.isActive) && t.failedTrade == old(t.failedTrade)
  {
    ghost var store0, trades0, sent0, failed0, table0 :=
      t.store, t.activeTrades, t.gateway.sent, t.gateway.failedMarkets, t.gateway.failedTable;
    ManagePositions1(t, env, tick.rows);
    ghost var store1, trades1, sent1, failed1, table1 :=
      t.store, t.activeTrades, t.gateway.sent, t.gateway.failedMarkets, t.gateway.failedTable;
    t.Enter(env, tick, markets, krw);
    ghost var e := Decision1(store0, tick, t.isActive, t.budget, old(t.books.entries));
    assert e == Decision(env.rules, tick, t.isActive, markets, env.highVol, t.budget, krw, old(t.books.entries));
    Store1Composes(store0, env, tick, e, failed0, t.budget, store1, failed1, t.store);
    Trades1Composes(store0, env, tick, e, failed0, trades1, failed1, t.activeTrades);
    Sent1Composes(store0, env, tick, e, failed0, sent0, sent1, failed1, t.gateway.sent);
    Failed1Composes(store0, env, tick, e, failed0, failed1, t.gateway.failedMarkets);
    TableComposes(failed0, SoldFailed1(trades0, env, tick.rows), e, BuyPlaced(e, tick, failed1), table0, failed1, table1,
                  t.gateway.failedMarkets, t.gateway.failedTable);
  }

  // ---------------------------------------------------------------------
  // Lemmas
  // ---------------------------------------------------------------------

  lemma Load1Cleared(store: Store, market: string)
    ensures Load1(Cleared(store, market)) == Load1(store) - {market}
  {
    var l := Load1(Cleared(store, market));
    assert l.Keys == Load1(store).Keys - {market};
  }

  /** Reconciliation keeps the records it leaves active, so they still have
      a high-water price. */
  lemma ReconciledKeepsHighWater(store: Store, held: set<string>)
    requires HighWaterKnown(store)
    ensures HighWaterKnown(Reconciled(store, held))
    ensures Marked(Load1(Reconciled(store, held)))
  {
  }

  /** A buy is for an untracked market, so no sell of this tick excluded it. */
  lemma Buy1IgnoresSells(r: Store, tick: Tick, env: Env, e: Entry, failed0: set<string>)
    requires Marked(Load1(r))
    requires e.Buy? ==> e.market !in Active(r)
    ensures var sold := SoldFailed1(Load1(r), env, tick.rows);
      && (e.Buy? ==> e.market !in sold)
      && BuyPlaced(e, tick, failed0 + sold) == BuyPlaced(e, tick, failed0)
  {
  }

  // The position loop followed by the entry is the feed part of a tick:
  // one lemma per piece of state.

  lemma Store1Composes(r: Store, env: Env, tick: Tick, e: Entry, failed0: set<string>, budget: real,
                       store1: Store, failed1: set<string>, store2: Store)
    requires Marked(Load1(r))
    requires e.Buy? ==> e.market !in Active(r)
    requires store1 == DeactivateAll(r, Filled1(Load1(r), env, tick.rows))
    requires failed1 == failed0 + SoldFailed1(Load1(r), env, tick.rows)
    requires store2 == (if BuyPlaced(e, tick, failed1)
                        then Saved(store1, e.market, e.price, tick.replies(e.market, "bid").uuid, tick.now, budget)
                        else store1)
    ensures store2 == Feed1Store(r, env, tick, e, failed0, budget)
  {
    Buy1IgnoresSells(r, tick, env, e, failed0);
  }

  lemma Trades1Composes(r: Store, env: Env, tick: Tick, e: Entry, failed0: set<string>,
                        trades1: map<string, Position>, failed1: set<string>, trades2: map<string, Position>)
    requires Marked(Load1(r))
    requires e.Buy? ==> e.market !in Active(r)
    requires trades1 == Trades1(Load1(r), env, failed0, tick.rows)
    requires failed1 == failed0 + SoldFailed1(Load1(r), env, tick.rows)
    requires trades2 == (if BuyPlaced(e, tick, failed1)
                         then trades1[e.market := Position(e.price, Some(e.price), Some(tick.replies(e.market, "bid").uuid), Some(tick.now))]
                         else trades1)
    ensures trades2 == Feed1Trades(r, env, tick, e, failed0)
  {
    Buy1IgnoresSells(r, tick, env, e, failed0);
  }

  lemma Sent1Composes(r: Store, env: Env, tick: Tick, e: Entry, failed0: set<string>,
                      sent0: seq<map<string, Arg>>, sent1: seq<map<string, Arg>>, failed1: set<string>, sent2: seq<map<string, Arg>>)
    requires Marked(Load1(r))
    requires e.Buy? ==> e.market !in Active(r)
    requires sent1 == sent0 + SellRequests1(tick.rows, Load1(r), env, failed0)
    requires failed1 == failed0 + SoldFailed1(Load1(r), env, tick.rows)
    requires sent2 == sent1 + (if e.Buy? && e.market !in failed1 then [BuyParams(e)] else [])
    ensures sent2 == sent0 + Feed1Requests(r, env, tick, e, failed0)
  {
    Buy1IgnoresSells(r, tick, env, e, failed0);
  }

  lemma Failed1Composes(r: Store, env: Env, tick: Tick, e: Entry, failed0: set<string>, failed1: set<string>, failed2: set<string>)
    requires Marked(Load1(r))
    requires e.Buy? ==> e.market !in Active(r)
    requires failed1 == failed0 + SoldFailed1(Load1(r), env, tick.rows)
    requires failed2 == failed1 + (if e.Buy? && !BuyPlaced(e, tick, failed1) then {e.market} else {})
    ensures failed2 == Feed1Failed(r, env, tick, e, failed0)
  {
    Buy1IgnoresSells(r, tick, env, e, failed0);
  }

  // Managing one more market `m`, not managed before, one piece of state
  // at a time.

  /** Before its turn, `m` keeps its starting entries. */
  lemma Row1Untouched(store: Store, trades: map<string, Position>, env: Env, failed: set<string>, done: seq<string>, m: string)
    requires trades == Load1(store) && Marked(trades) && m !in done
    ensures m in trades <==> m in Trades1(trades, env, failed, done)
    ensures m in trades ==>
      && Trades1(trades, env, failed, done)[m] == trades[m]
      && m !in Filled1(trades, env, done)
      && m !in SoldFailed1(trades, env, done)
  {
  }

  /** An untracked row changes nothing. */
  lemma Row1Absent(trades: map<string, Position>, env: Env, failed: set<string>, done: seq<string>, m: string)
    requires Marked(trades) && m !in trades
    ensures Filled1(trades, env, done + [m]) == Filled1(trades, env, done)
    ensures Trades1(trades, env, failed, done + [m]) == Trades1(trades, env, failed, done)
    ensures SellRequests1(done + [m], trades, env, failed) == SellRequests1(done, trades, env, failed)
    ensures SoldFailed1(trades, env, done + [m]) == SoldFailed1(trades, env, done)
  {
    assert (done + [m])[..|done + [m]| - 1] == done;
  }

  /** A tracked row's record is cleared when its order filled. */
  lemma Row1Store(store: Store, trades: map<string, Position>, env: Env, done: seq<string>, m: string,
                  store1: Store, store2: Store)
    requires Marked(trades) && m in trades
    requires store1 == DeactivateAll(store, Filled1(trades, env, done))
    requires store2 == if Plan1(env, m, trades[m]).Closed? then Cleared(store1, m) else store1
    ensures store2 == DeactivateAll(store, Filled1(trades, env, done + [m]))
  {
    var filled := Filled1(trades, env, done);
    if Plan1(env, m, trades[m]).Closed? {
      ClearStep(store, filled, m);
      assert Filled1(trades, env, done + [m]) == filled + {m};
    } else {
      assert Filled1(trades, env, done + [m]) == filled;
    }
  }

  /** A tracked row's position is dropped when its order filled and
      stepped otherwise. */
  lemma Row1Trades(trades: map<string, Position>, env: Env, failed: set<string>, done: seq<string>, m: string,
                   trades1: map<string, Position>, trades2: map<string, Position>)
    requires Marked(trades) && m in trades && m !in done
    requires trades1 == Trades1(trades, env, failed, done)
    requires trades2 == if Plan1(env, m, trades[m]).Closed? then trades1 - {m}
                        else trades1[m := PositionAfter(trades[m], Plan1(env, m, trades[m]), env.replies(m, "ask"), m in failed)]
    ensures trades2 == Trades1(trades, env, failed, done + [m])
  {
    var expected := Trades1(trades, env, failed, done + [m]);
    assert trades2.Keys == expected.Keys;
  }

  /** A tracked row adds its sell request, if any. */
  lemma Row1Sent(trades: map<string, Position>, env: Env, failed0: set<string>, done: seq<string>, m: string,
                 sent0: seq<map<string, Arg>>, sent1: seq<map<string, Arg>>, sent2: seq<map<string, Arg>>, failed1: set<string>)
    requires Marked(trades) && m in trades && (m in failed1 <==> m in failed0)
    requires sent1 == sent0 + SellRequests1(done, trades, env, failed0)
    requires Sells1(env, m, trades[m]) ==> sent2 == sent1 + (if m in failed1 then [] else [SellParams(env, m)])
    requires !Sells1(env, m, trades[m]) ==> sent2 == sent1
    ensures sent2 == sent0 + SellRequests1(done + [m], trades, env, failed0)
  {
    assert (done + [m])[..|done + [m]| - 1] == done;
  }

  /** A tracked row's failed sell adds its market to the excluded ones. */
  lemma Row1Failed(trades: map<string, Position>, env: Env, failed0: set<string>, done: seq<string>, m: string,
                   failed1: set<string>, failed2: set<string>, table0: set<string>, table1: set<string>, table2: set<string>)
    requires Marked(trades) && m in trades && m !in done
    requires failed1 == failed0 + SoldFailed1(trades, env, done)
    requires table1 == table0 + (SoldFailed1(trades, env, done) - failed0)
    requires Sells1(env, m, trades[m]) ==>
      var r := OrderOutcome(m in failed1, env.replies(m, "ask"));
      && failed2 == failed1 + (if r.Failed? then {m} else {})
      && table2 == table1 + (if r.Failed? && m !in failed1 then {m} else {})
    requires !Sells1(env, m, trades[m]) ==> failed2 == failed1 && table2 == table1
    ensures failed2 == failed0 + SoldFailed1(trades, env, done + [m])
    ensures table2 == table0 + (SoldFailed1(trades, env, done + [m]) - failed0)
  {
    var sold := SoldFailed1(trades, env, done);
    var adds := Sells1(env, m, trades[m]) && env.replies(m, "ask").status != 201;
    assert SoldFailed1(trades, env, done + [m]) == sold + (if adds then {m} else {});
    assert m !in sold;
    var failedNow := Sells1(env, m, trades[m]) && OrderOutcome(m in failed1, env.replies(m, "ask")).Failed?;
    ExcludedStep(failed0, sold, m, adds, failedNow, failed1, failed2, table0, table1, table2);
  }

  // ---------------------------------------------------------------------
  // What one tick of this variant guarantees
  // ---------------------------------------------------------------------

  /** Every sell request is for a tracked market of the rows whose exit
      rules sell and which is not excluded. */
  lemma {:induction false} SellRequests1Facts(rows: seq<string>, trades: map<string, Position>, env: Env, failed: set<string>)
    requires Marked(trades)
    ensures forall p :: p in SellRequests1(rows, trades, env, failed) ==>
      && SideOf(p) == "ask"
      && MarketOf(p) in trades && MarketOf(p) in rows && MarketOf(p) !in failed
      && Sells1(env, MarketOf(p), trades[MarketOf(p)])
  {
    if rows != [] {
      var front := rows[..|rows| - 1];
      var m := rows[|rows| - 1];
      SellRequests1Facts(front, trades, env, failed);
      assert rows == front + [m];
      assert forall x :: x in front ==> x in rows;
    }
  }

  /** The table's high-water prices are never written by this variant:
      every record but a freshly bought one keeps its prices, while the
      in-memory high-water price of every position kept never falls. */
  lemma Feed1HighWater(r: Store, env: Env, tick: Tick, e: Entry, failed: set<string>, budget: real)
    requires Marked(Load1(r))
    ensures var after := Feed1Store(r, env, tick, e, failed, budget);
      forall m :: m in r && !(BuyPlaced(e, tick, failed) && m == e.market) ==>
        && m in after
        && after[m].highestPrice == r[m].highestPrice && after[m].buyPrice == r[m].buyPrice
    ensures var trades := Trades1(Load1(r), env, failed, tick.rows);
      forall m :: m in trades ==>
        m in Load1(r) && trades[m].highestPrice.value >= Load1(r)[m].highestPrice.value
  {
  }

  /** The loss cut is dead code on a table whose high-water prices are at
      or above positive buy prices, which is what the trader's own ticks
      keep (`HighWaterAtLeastBuy`). */
  lemma NeverLossCuts(r: Store, env: Env)
    requires HighWaterKnown(r) && HighWaterAtLeastBuy(r)
    requires forall m :: m in r && r[m].isActive ==> r[m].buyPrice > 0.0
    ensures Marked(Load1(r))
    ensures forall m :: m in Load1(r) && Plan1(env, m, Load1(r)[m]).Watched? ==>
      Plan1(env, m, Load1(r)[m]).exit != Sell(LossCut)
  {
    var trades := Load1(r);
    forall m | m in trades && Plan1(env, m, trades[m]).Watched?
      ensures Plan1(env, m, trades[m]).exit != Sell(LossCut)
    {
      var p := trades[m];
      var s := Plan1(env, m, p);
      var price := PriceOf(env.coins, m);
      LossCutUnreachable(p.buyPrice, price.value, s.highest, m in env.highVol);
    }
  }

  /** An untracked market stays out of the loop: it gets no sell request
      and its record stays inactive unless the entry buys it. */
  lemma Feed1LeavesUntracked(r: Store, env: Env, tick: Tick, e: Entry, failed: set<string>, budget: real, m: string)
    requires Marked(Load1(r))
    requires m in r && !r[m].isActive
    ensures var after := Feed1Store(r, env, tick, e, failed, budget);
      m in after && (after[m].isActive ==> BuyPlaced(e, tick, failed) && e.market == m)
    ensures forall p :: p in Feed1Requests(r, env, tick, e, failed) && SideOf(p) == "ask" ==> MarketOf(p) != m
  {
    SellRequests1Facts(tick.rows, Load1(r), env, failed);
    if e.Buy? {
      assert SideOf(BuyParams(e)) == "bid";
    }
  }

  /** Reconciliation: a tracked market whose currency is no longer held
      gets no sell request, and its record is inactive after the tick
      unless the tick bought it afresh. */
  lemma Tick1Reconciles(store: Store, tick: Tick, isActive: bool, budget: real, failed: set<string>,
                        entries: map<string, CacheEntry>, m: string)
    requires tick.feed.Quotes? && HighWaterKnown(store)
    requires m in Active(store) && Currency(m) !in HeldCurrencies(tick.accounts)
    ensures var r := Reconciled(store, HeldCurrencies(tick.accounts));
      var e := Decision1(r, tick, isActive, budget, entries);
      && Marked(Load1(r))
      && m !in Load1(r)
      && (var after := Feed1Store(r, Env1(tick), tick, e, failed, budget);
          m in after && (after[m].isActive ==> BuyPlaced(e, tick, failed) && e.market == m))
      && (forall p :: p in Feed1Requests(r, Env1(tick), tick, e, failed) && SideOf(p) == "ask" ==> MarketOf(p) != m)
  {
    var r := Reconciled(store, HeldCurrencies(tick.accounts));
    ReconciledKeepsHighWater(store, HeldCurrencies(tick.accounts));
    Feed1LeavesUntracked(r, Env1(tick), tick, Decision1(r, tick, isActive, budget, entries), failed, budget, m);
  }
}

=== FILE: exchange.dfy ===
/** The order and market-data rules of the exchange client
    (autoCodeProWeb/trading/utils.py). The HTTP requests themselves, their
    signing and hashing are outside the model: every reply the exchange
    gives is an input. */
module Exchange {
  import opened Common

  // ---------------------------------------------------------------------
  // Market data
  // ---------------------------------------------------------------------

  /** A ticker row as the exchange reports it (the fields the core reads). */
  datatype Ticker = Ticker(
    market: string,
    tradePrice: real,
    changeRate: real,        // signed_change_rate, day over day
    accTradePrice24h: real,
    tradeVolume: real,
    highPrice: real)

  /** One row of `get_krw_market_coin_info`: the four ticker fields it keeps. */
  datatype Quote = Quote(market: string, tradePrice: real, changeRate: real, accTradePrice24h: real)

  /** `get_krw_market_coin_info`'s result: a list, or the `{"error": ...}` tag. */
  datatype Feed = Quotes(coins: seq<Quote>) | FeedError

  /** An HTTP reply: its status code and its decoded body. */
  datatype Reply<T> = Reply(status: int, body: T)

  function Acc(q: Quote): real { q.accTradePrice24h }

  predicate StartsWith(s: string, prefix: string)
  {
    |prefix| <= |s| && s[..|prefix|] == prefix
  }

  /** The market codes of the won-quoted markets, in listing order. */
  function KrwMarkets(all: seq<string>): (r: seq<string>)
    ensures |r| <= |all|
    ensures forall m :: m in r <==> m in all && StartsWith(m, KrwPrefix)
  {
    if all == [] then []
    else
      assert all == [all[0]] + all[1..];
      (if StartsWith(all[0], KrwPrefix) then [all[0]] else []) + KrwMarkets(all[1..])
  }

  function ProjectQuote(t: Ticker): Quote
  {
    Quote(t.market, t.tradePrice, t.changeRate, t.accTradePrice24h)
  }

  function ProjectAll(ts: seq<Ticker>): (r: seq<Quote>)
    ensures |r| == |ts|
    ensures forall i :: 0 <= i < |ts| ==> r[i] == ProjectQuote(ts[i])
  {
    seq(|ts|, i requires 0 <= i < |ts| => ProjectQuote(ts[i]))
  }

  /** `get_krw_market_coin_info`: list every market, ask the ticker endpoint
      about the won-quoted ones, and sort the rows by 24h traded value,
      largest first. A non-200 reply at either step is the error tag. */
  function KrwMarketCoinInfo(
    markets: Reply<seq<string>>,
    ticker: seq<string> -> Reply<seq<Ticker>>): (r: Feed)
    ensures markets.status != 200 ==> r == FeedError
    ensures markets.status == 200 && ticker(KrwMarkets(markets.body)).status != 200 ==> r == FeedError
    ensures markets.status == 200 && ticker(KrwMarkets(markets.body)).status == 200 ==>
      var rows := ticker(KrwMarkets(markets.body)).body;
      && r.Quotes?
      && multiset(r.coins) == multiset(ProjectAll(rows))
      && DescendingBy(r.coins, Acc)
      // the sort is stable: rows with equal traded value keep the reply's order
      && (forall k :: WithKey(r.coins, Acc, k) == WithKey(ProjectAll(rows), Acc, k))
      // when the ticker endpoint answers only about the markets asked for,
      // every row is a won-quoted market
      && ((forall t :: t in rows ==> t.market in KrwMarkets(markets.body)) ==>
            forall q :: q in r.coins ==> StartsWith(q.market, KrwPrefix))
  {
    if markets.status != 200 then FeedError
    else
      var reply := ticker(KrwMarkets(markets.body));
      if reply.status != 200 then FeedError
      else
        var coins := SortDesc(ProjectAll(reply.body), Acc);
        SortedRowsFromReply(reply.body);
        SortedRowsStable(reply.body);
        Quotes(coins)
  }

  /** Every sorted row is the projection of a row of the reply. */
  lemma SortedRowsFromReply(rows: seq<Ticker>)
    ensures forall q :: q in SortDesc(ProjectAll(rows), Acc) ==> exists i :: 0 <= i < |rows| && q == ProjectQuote(rows[i])
  {
    forall q | q in SortDesc(ProjectAll(rows), Acc) ensures exists i :: 0 <= i < |rows| && q == ProjectQuote(rows[i]) {
      assert q in multiset(ProjectAll(rows));
      var i :| 0 <= i < |rows| && ProjectAll(rows)[i] == q;
    }
  }

  /** Sorting the projected rows keeps the reply's order among equal values. */
  lemma SortedRowsStable(rows: seq<Ticker>)
    ensures forall k :: WithKey(SortDesc(ProjectAll(rows), Acc), Acc, k) == WithKey(ProjectAll(rows), Acc, k)
  {
    forall k ensures WithKey(SortDesc(ProjectAll(rows), Acc), Acc, k) == WithKey(ProjectAll(rows), Acc, k) {
      SortDescStable(ProjectAll(rows), Acc, k);
    }
  }

  // ---------------------------------------------------------------------
  // Orders
  // ---------------------------------------------------------------------

  /** An order argument as the caller passes it: absent, a number, or text. */
  datatype Arg = NoArg | Num(amount: real) | Text(text: string)

  /** Python's `str(...)` of an order argument: `None` becomes "None". */
  function Str(a: Arg): Arg
  {
    if a.NoArg? then Text("None") else a
  }

  const ParamNames: set<string> := {"market", "side", "ord_type", "price", "volume", "time_in_force"}

  /** The request parameters `upbit_order` sends. */
  function OrderParams(
    market: string, side: string, volume: Arg, price: Arg,
    ordType: string, timeInForce: Option<string>): (p: map<string, Arg>)
    ensures p.Keys <= ParamNames
    ensures "market" in p && p["market"] == Text(market)
    ensures "side" in p && p["side"] == Text(side)
    ensures "ord_type" in p && p["ord_type"] == Text(ordType)
    // "price" orders carry only a price, "market" orders only a volume,
    // "limit" orders both, any other type neither
    ensures "price" in p <==> ordType == "price" || ordType == "limit"
    ensures "volume" in p <==> ordType == "market" || ordType == "limit"
    ensures "price" in p ==> p["price"] == Str(price)
    ensures "volume" in p ==> p["volume"] == Str(volume)
    // time_in_force only when given (a non-empty string)
    ensures "time_in_force" in p <==> timeInForce.Some? && timeInForce.value != ""
    ensures "time_in_force" in p ==> p["time_in_force"] == Text(timeInForce.value)
  {
    var base := map["market" := Text(market), "side" := Text(side), "ord_type" := Text(ordType)];
    var sized :=
      if ordType == "price" then base["price" := Str(price)]
      else if ordType == "market" then base["volume" := Str(volume)]
      else if ordType == "limit" then base["price" := Str(price)]["volume" := Str(volume)]
      else base;
    if timeInForce.Some? && timeInForce.value != "" then sized["time_in_force" := Text(timeInForce.value)]
    else sized
  }

  /** The market a request was sent for. */
  function MarketOf(p: map<string, Arg>): string
  {
    if "market" in p && p["market"].Text? then p["market"].text else ""
  }

  /** The side ("bid" or "ask") a request was sent for. */
  function SideOf(p: map<string, Arg>): string
  {
    if "side" in p && p["side"].Text? then p["side"].text else ""
  }

  /** The exchange's answer to an order request. */
  datatype OrderResponse = OrderResponse(status: int, uuid: string)

  datatype OrderError = Excluded | Rejected(status: int)

  /** What `upbit_order` hands back: the order, or an `{"error": ...}` tag. */
  datatype OrderReply = Placed(uuid: string) | Failed(error: OrderError)

  /** The reply for an order on a market that is or is not excluded. */
  function OrderOutcome(excluded: bool, response: OrderResponse): (r: OrderReply)
    ensures r.Placed? <==> !excluded && response.status == 201
    ensures r.Placed? ==> r.uuid == response.uuid
    ensures excluded ==> r == Failed(Excluded)
  {
    if excluded then Failed(Excluded)
    else if response.status != 201 then Failed(Rejected(response.status))
    else Placed(response.uuid)
  }

  /** The order side of the exchange client: the set of markets excluded
      after a rejected order (kept in memory and in the FailedMarket table)
      and the requests sent so far. */
  class OrderGateway {
    var failedMarkets: set<string>
    var failedTable: set<string>
    var sent: seq<map<string, Arg>>

    /** At import time the exclusion set is read from the FailedMarket table. */
    constructor(table: set<string>)
      ensures failedMarkets == table && failedTable == table && sent == []
    {
      failedMarkets := table;
      failedTable := table;
      sent := [];
    }

    /** `upbit_order`: an excluded market gets the error tag and no request
        is built; otherwise the parameters are built and sent, and a reply
        other than 201 excludes the market from then on. */
    method Order(
      market: string, side: string, volume: Arg, price: Arg,
      ordType: string, timeInForce: Option<string>,
      response: OrderResponse) returns (r: OrderReply)
      modifies this
      ensures r == OrderOutcome(market in old(failedMarkets), response)
      ensures market in old(failedMarkets) ==> sent == old(sent)
      ensures market !in old(failedMarkets) ==>
        sent == old(sent) + [OrderParams(market, side, volume, price, ordType, timeInForce)]
      ensures failedMarkets == old(failedMarkets) + (if r.Failed? then {market} else {})
      ensures failedTable == old(failedTable) + (if r.Failed? && market !in old(failedMarkets) then {market} else {})
      // one step of a run of orders
      ensures var call := OrderCall(market, side, volume, price, ordType, timeInForce, response);
        && sent == old(sent) + SentBy(old(failedMarkets), [call])
        && failedMarkets == ExcludedAfter(old(failedMarkets), [call])
    {
      if market in failedMarkets {
        return Failed(Excluded);
      }
      var params := map["market" := Text(market), "side" := Text(side), "ord_type" := Text(ordType)];
      if ordType == "price" {
        params := params["price" := Str(price)];
      } else if ordType == "market" {
        params := params["volume" := Str(volume)];
      } else if ordType == "limit" {
        params := params["price" := Str(price)];
        params := params["volume" := Str(volume)];
      }
      if timeInForce.Some? && timeInForce.value != "" {
        params := params["time_in_force" := Text(timeInForce.value)];
      }
      sent := sent + [params];
      if response.status != 201 {
        failedTable := failedTable + {market};
        failedMarkets := failedMarkets + {market};
        return Failed(Rejected(response.status));
      }
      r := Placed(response.uuid);
    }
  }

  /** One call of `upbit_order`, with the exchange's response. */
  datatype OrderCall = OrderCall(
    market: string, side: string, volume: Arg, price: Arg,
    ordType: string, timeInForce: Option<string>, response: OrderResponse)

  /** The exclusion set after one call. */
  function ExcludedAfterCall(failed: set<string>, c: OrderCall): set<string>
  {
    failed + (if OrderOutcome(c.market in failed, c.response).Failed? then {c.market} else {})
  }

  /** The requests a run of calls sends, starting from the exclusion set
      `failed`. */
  function SentBy(failed: set<string>, calls: seq<OrderCall>): seq<map<string, Arg>>
    decreases calls
  {
    if calls == [] then []
    else
      var c := calls[0];
      (if c.market in failed then []
       else [OrderParams(c.market, c.side, c.volume, c.price, c.ordType, c.timeInForce)])
        + SentBy(ExcludedAfterCall(failed, c), calls[1..])
  }

  /** The exclusion set at the end of a run of calls. */
  function ExcludedAfter(failed: set<string>, calls: seq<OrderCall>): set<string>
    decreases calls
  {
    if calls == [] then failed else ExcludedAfter(ExcludedAfterCall(failed, calls[0]), calls[1..])
  }

  /** Once excluded, a market stays excluded: over any run of orders the
      exclusion set only grows, a market excluded at the start gets no
      request during the run, and every order the exchange rejected leaves
      its market excluded at the end. */
  lemma {:induction false} ExclusionIsFinal(failed: set<string>, calls: seq<OrderCall>)
    ensures failed <= ExcludedAfter(failed, calls)
    ensures forall p :: p in SentBy(failed, calls) ==> MarketOf(p) !in failed
    ensures forall i :: 0 <= i < |calls| && calls[i].response.status != 201 ==>
      calls[i].market in ExcludedAfter(failed, calls)
    decreases calls
  {
    if calls != [] {
      var c := calls[0];
      var next := ExcludedAfterCall(failed, c);
      ExclusionIsFinal(next, calls[1..]);
      assert c.response.status != 201 ==> c.market in next;
      forall i | 1 <= i < |calls| && calls[i].response.status != 201
        ensures calls[i].market in ExcludedAfter(failed, calls)
      {
        assert calls[1..][i - 1] == calls[i];
      }
    }
  }

  /** The exclusion bookkeeping of a run of orders, one order on `m` at a
      time: `sold` holds the earlier markets whose order was rejected (`m`
      not among them), `adds` says whether `m`'s order is rejected, and
      `failedNow` whether `m`'s reply is a failure. In memory and in the
      table, the excluded markets grow by exactly the rejected ones. */
  lemma ExcludedStep(failed0: set<string>, sold: set<string>, m: string, adds: bool, failedNow: bool,
                     failed1: set<string>, failed2: set<string>,
                     table0: set<string>, table1: set<string>, table2: set<string>)
    requires failed1 == failed0 + sold && table1 == table0 + (sold - failed0) && m !in sold
    requires adds ==> failedNow
    requires failedNow ==> m in failed1 || adds
    requires failed2 == failed1 + (if failedNow then {m} else {})
    requires table2 == table1 + (if failedNow && m !in failed1 then {m} else {})
    ensures failed2 == failed0 + (sold + (if adds then {m} else {}))
    ensures table2 == table0 + ((sold + (if adds then {m} else {})) - failed0)
  {
  }

  // ---------------------------------------------------------------------
  // Fill test and order books
  // ---------------------------------------------------------------------

  /** The exchange's answer about one order. */
  datatype OrderQuery = OrderQuery(status: int, state: Option<string>)

  /** `check_order_filled`: the order is filled exactly when the query
      succeeds and reports the state "done". */
  function CheckOrderFilled(q: OrderQuery): (filled: bool)
    ensures filled <==> q.status == 200 && q.state == Some("done")
  {
    if q.status != 200 then false
    else match q.state
      case Some(s) => s == "done"
      case None => false
  }

  /** One market's order book: total resting sizes and the best level. */
  datatype Orderbook = Orderbook(
    market: string,
    totalBidSize: real,
    totalAskSize: real,
    askPrice: real,   // orderbook_units[0].ask_price
    bidPrice: real)   // orderbook_units[0].bid_price

  function BookMarket(b: Orderbook): string { b.market }

  /** The order-book endpoint's reply, or a transport failure. */
  datatype BookReply = BookReply(status: int, items: seq<Orderbook>) | BookRequestFailed

  /** `get_orderbook`: the books keyed by market; any failure is an empty map. */
  function GetOrderbook(reply: BookReply): (r: map<string, Orderbook>)
    ensures reply.BookRequestFailed? || reply.status != 200 ==> r == map[]
    ensures reply.BookReply? && reply.status == 200 ==>
      && (forall m :: m in r ==> r[m].market == m && r[m] in reply.items)
      && (forall b :: b in reply.items ==> b.market in r)
  {
    match reply
    case BookRequestFailed => map[]
    case BookReply(status, items) =>
      if status != 200 then map[] else KeyBy(items, BookMarket)
  }
}

=== FILE: positions.dfy ===
/** The position bookkeeping of the trader in
    autoCodeProWeb/trading/auto_trade.py: the TradeRecord table (one record
    per market, autoCodeProWeb/trading/models.py), the in-memory view of the
    active records, the bounded activity log, and the per-tick exit rule. */
module Positions {
  import opened Common

  // ---------------------------------------------------------------------
  // The TradeRecord table
  // ---------------------------------------------------------------------

  /** One row of the table. `createdAt` is in seconds. */
  datatype TradeRecord = TradeRecord(
    buyPrice: real,
    highestPrice: Option<real>,
    uuid: Option<string>,
    createdAt: real,
    isActive: bool,
    buyKrwPrice: real)

  /** The table, keyed by its unique `market` column. */
  type Store = map<string, TradeRecord>

  /** A tracked position as the trader keeps it in `active_trades`. */
  datatype Position = Position(
    buyPrice: real,
    highestPrice: Option<real>,
    uuid: Option<string>,
    createdAt: Option<real>)

  function PositionOf(r: TradeRecord): Position
  {
    Position(r.buyPrice, r.highestPrice, r.uuid, Some(r.createdAt))
  }

  /** The markets with an active record. */
  function Active(store: Store): set<string>
  {
    set m | m in store && store[m].isActive
  }

  /** `{trade.market: {...} for trade in TradeRecord.objects.filter(is_active=True)}`. */
  function Load(store: Store): (trades: map<string, Position>)
    ensures trades.Keys == Active(store)
    ensures forall m :: m in trades ==> trades[m] == PositionOf(store[m])
  {
    map m | m in store && store[m].isActive :: PositionOf(store[m])
  }

  /** The table after `save_trade`'s `update_or_create`: the market's record
      is created or overwritten as an active position bought at `buyPrice`
      whose high-water price starts at the buy price. */
  function Saved(store: Store, market: string, buyPrice: real, uuid: string, now: real, budget: real): (r: Store)
    ensures r.Keys == store.Keys + {market}
    ensures r[market] == TradeRecord(buyPrice, Some(buyPrice), Some(uuid), now, true, budget)
    ensures forall m :: m in store && m != market ==> r[m] == store[m]
  {
    store[market := TradeRecord(buyPrice, Some(buyPrice), Some(uuid), now, true, budget)]
  }

  /** Saving makes the market active and leaves every other market's
      activity as it was. */
  lemma ActiveSaved(store: Store, market: string, buyPrice: real, uuid: string, now: real, budget: real)
    ensures Active(Saved(store, market, buyPrice, uuid, now, budget)) == Active(store) + {market}
  {
  }

  /** The table after `filter(market=market).update(is_active=False)`. */
  function Cleared(store: Store, market: string): (r: Store)
    ensures r.Keys == store.Keys
    ensures market in store ==> r[market] == store[market].(isActive := false)
    ensures forall m :: m in store && m != market ==> r[m] == store[m]
  {
    if market in store then store[market := store[market].(isActive := false)] else store
  }

  /** The table after every market of `markets` is cleared. */
  function DeactivateAll(store: Store, markets: set<string>): (r: Store)
    ensures r.Keys == store.Keys
    ensures forall m :: m in store ==> r[m] == if m in markets then store[m].(isActive := false) else store[m]
  {
    map m | m in store :: if m in markets then store[m].(isActive := false) else store[m]
  }

  /** Saving a trade mirrors it in the loaded view and changes no other
      market's entry there. */
  lemma LoadAfterSave(store: Store, market: string, buyPrice: real, uuid: string, now: real, budget: real)
    ensures Load(Saved(store, market, buyPrice, uuid, now, budget))
      == Load(store)[market := Position(buyPrice, Some(buyPrice), Some(uuid), Some(now))]
  {
    var l := Load(Saved(store, market, buyPrice, uuid, now, budget));
    var r := Load(store)[market := Position(buyPrice, Some(buyPrice), Some(uuid), Some(now))];
    assert l.Keys == r.Keys;
  }

  /** Clearing is idempotent, keeps every row, and removes exactly that
      market from the loaded view. */
  lemma ClearTwice(store: Store, market: string)
    ensures Cleared(Cleared(store, market), market) == Cleared(store, market)
    ensures Load(Cleared(store, market)) == Load(store) - {market}
  {
    var l := Load(Cleared(store, market));
    assert l.Keys == Load(store).Keys - {market};
  }

  /** Clearing the markets one at a time is clearing them all at once. */
  lemma {:induction false} ClearStep(store: Store, done: set<string>, market: string)
    ensures Cleared(DeactivateAll(store, done), market) == DeactivateAll(store, done + {market})
  {
    var l := Cleared(DeactivateAll(store, done), market);
    var r := DeactivateAll(store, done + {market});
    assert l.Keys == r.Keys;
    forall m | m in l.Keys ensures l[m] == r[m] {
      if m == market {
        assert l[m] == DeactivateAll(store, done)[m].(isActive := false);
      }
    }
  }

  /** `market.replace("KRW-", "")` is missing from the holdings. */
  function Unheld(markets: set<string>, held: set<string>): (r: set<string>)
    ensures forall m :: m in r <==> m in markets && Currency(m) !in held
  {
    set m | m in markets && Currency(m) !in held
  }

  // ---------------------------------------------------------------------
  // The activity log
  // ---------------------------------------------------------------------

  const MaxLogEntries: nat := 50

  /** `trade_logs.append(message)` followed by one `pop(0)` when the list
      has grown past fifty entries. */
  function Appended(entries: seq<string>, message: string): (r: seq<string>)
    ensures |r| > 0 && r[|r| - 1] == message
    ensures r == entries + [message] || r == (entries + [message])[1..]
    ensures |entries| < MaxLogEntries ==> r == entries + [message]
    ensures |entries| <= MaxLogEntries ==> |r| <= MaxLogEntries
  {
    var grown := entries + [message];
    if |grown| > MaxLogEntries then grown[1..] else grown
  }

  /** The module-level log list shared by every trader. */
  class TradeLog {
    var entries: seq<string>

    ghost predicate Valid()
      reads this
    {
      |entries| <= MaxLogEntries
    }

    constructor()
      ensures Valid() && entries == []
    {
      entries := [];
    }

    method Append(message: string)
      requires Valid()
      modifies this
      ensures Valid()
      ensures entries == Appended(old(entries), message)
    {
      entries := entries + [message];
      if |entries| > MaxLogEntries {
        entries := entries[1..];
      }
    }
  }

  // ---------------------------------------------------------------------
  // Per-position arithmetic
  // ---------------------------------------------------------------------

  /** The high-water step: a missing value starts at the buy price, and a
      higher price raises it. */
  function HighWater(stored: Option<real>, buy: real, price: real): (h: real)
    ensures h >= price
    ensures h >= (if stored.Some? then stored.value else buy)
    ensures h == price || h == (if stored.Some? then stored.value else buy)
  {
    var start := if stored.Some? then stored.value else buy;
    if price > start then price else start
  }

  const FeeRate: real := 0.0005

  /** The profit rate in percent after a 0.05% fee on both legs. It is not
      negative exactly when the price net of the fee covers the buy price
      plus the fee. */
  function ProfitRate(buy: real, price: real): (r: real)
    requires buy > 0.0
    ensures r >= 0.0 <==> price * (1.0 - FeeRate) >= buy * (1.0 + FeeRate)
  {
    var realBuy := buy * (1.0 + FeeRate);
    var realSell := price * (1.0 - FeeRate);
    assert realBuy > 0.0;
    ((realSell - realBuy) / realBuy) * 100.0
  }

  /** Seconds since the position was opened; 0 when the time is unknown. */
  function HoldingTime(now: real, createdAt: Option<real>): (r: real)
    ensures createdAt.None? ==> r == 0.0
    ensures createdAt.Some? ==> createdAt.value + r == now
    ensures createdAt.Some? && createdAt.value <= now ==> r >= 0.0
  {
    if createdAt.Some? then now - createdAt.value else 0.0
  }

  /** The stop-loss factor: 0.96 for a high-volatility market, else 0.98. */
  function VolatilityFactor(highVol: bool): real
  {
    if highVol then 0.96 else 0.98
  }

  /** The time exits: calm market held over ten minutes, or bullish market
      held over six minutes, with at least a 1% gain. */
  predicate TimeExit(trend: Trend, holding: real, buy: real, price: real)
  {
    && ((trend.Calm() && holding > 600.0) || (trend == Bullish && holding > 360.0))
    && price >= buy * 1.01
  }

  /** The exit decision of `execute_trade` (lines 266-348) for a position
      bought at `buy`, now priced `price`, whose high-water price is `h`
      (already raised to at least `price`): time exits first, then the
      volatility stop, the fixed -2% stop, the 2% take-profit (kept open in
      a bullish market), and the trailing stop armed at +2%. */
  function CurrentExit(trend: Trend, holding: real, buy: real, price: real, h: real, highVol: bool): (e: Exit)
    requires h >= price
    ensures e == Sell(TimeExitCalm) <==> trend.Calm() && holding > 600.0 && price >= buy * 1.01
    ensures e == Sell(TimeExitBullish) <==> trend == Bullish && holding > 360.0 && price >= buy * 1.01
    // with a positive buy price: a price at or under 98% always sells, by the
    // volatility stop when it reaches the factor and by the fixed stop only
    // in the high-volatility band above 96%
    ensures buy > 0.0 ==> (e == Sell(VolatilityStop) <==> price <= buy * VolatilityFactor(highVol))
    ensures buy > 0.0 ==> (e == Sell(FixedStop) <==> highVol && buy * 0.96 < price <= buy * 0.98)
    ensures buy > 0.0 && price <= buy * 0.98 ==> e.Sell?
    // the take-profit never fires in a bullish market
    ensures buy > 0.0 ==>
      (e == Sell(TakeProfit) <==> trend != Bullish && price >= buy * 1.02 && !TimeExit(trend, holding, buy, price))
    ensures e == Sell(TrailingStop) ==> h >= buy * 1.02 && price <= h * 0.99
    ensures (&& buy > 0.0 && h >= buy * 1.02 && price <= h * 0.99 && price > buy * 0.98
             && !TimeExit(trend, holding, buy, price)
             && !(trend != Bullish && price >= buy * 1.02)) ==>
      e == Sell(TrailingStop)
    // only the six rules of this chain can sell, and a position with a
    // positive buy price is held exactly when none of them fires
    ensures e.Sell? ==> e.reason != CrashStop && e.reason != LossCut
    ensures buy > 0.0 ==>
      (e == Hold <==>
         && price > buy * 0.98
         && !TimeExit(trend, holding, buy, price)
         && !(trend != Bullish && price >= buy * 1.02)
         && !(h >= buy * 1.02 && price <= h * 0.99))
  {
    if trend.Calm() && holding > 600.0 && price >= buy * 1.01 then Sell(TimeExitCalm)
    else if trend == Bullish && holding > 360.0 && price >= buy * 1.01 then Sell(TimeExitBullish)
    else if price <= buy * VolatilityFactor(highVol) then Sell(VolatilityStop)
    else if price <= buy * 0.98 then Sell(FixedStop)
    else if price >= buy * 1.02 && trend != Bullish then Sell(TakeProfit)
    else
      // the trailing stop's own raise of the high-water price
      var raised := if price >= buy * 1.02 then Max(h, price) else h;
      if raised >= buy * 1.02 && price <= raised * 0.99 then Sell(TrailingStop)
      else Hold
  }
}

=== FILE: selector.dfy ===
/** Candidate selection of the current trader
    (`get_best_trade_coin` in autoCodeProWeb/trading/auto_trade.py): the ten
    biggest day-over-day gainers, kept only when their order book shows
    strong bids and a tight spread, then the five with the largest 24h
    traded value, and among those the one with the largest
    price x traded value. Order books are cached for five seconds. */
module CandidateSelection {
  import opened Common
  import opened Exchange

  function ChangeRate(q: Quote): real { q.changeRate }

  /** The final ranking score: price times 24h traded value. */
  function Score(q: Quote): real { q.tradePrice * q.accTradePrice24h }

  function MarketsOf(qs: seq<Quote>): (r: seq<string>)
    ensures |r| == |qs|
    ensures forall i :: 0 <= i < |qs| ==> r[i] == qs[i].market
  {
    seq(|qs|, i requires 0 <= i < |qs| => qs[i].market)
  }

  /** The coins whose price rose since the previous day, in feed order. */
  function Rising(coins: seq<Quote>): (r: seq<Quote>)
    ensures forall q :: q in r <==> q in coins && q.changeRate > 0.0
  {
    if coins == [] then []
    else
      assert coins == [coins[0]] + coins[1..];
      (if coins[0].changeRate > 0.0 then [coins[0]] else []) + Rising(coins[1..])
  }

  /** `sorted(positive_coins, key=signed_change_rate, reverse=True)[:10]`. */
  function TopGainers(coins: seq<Quote>): seq<Quote>
  {
    Take(SortDesc(Rising(coins), ChangeRate), 10)
  }

  /** The gainers are the ten rising coins with the largest change (all of
      them when fewer rise), in descending order of change; no rising coin
      left out rose more than one kept, and among equal changes the earliest
      in the feed are kept. */
  lemma TopGainersCut(coins: seq<Quote>)
    ensures var r := TopGainers(coins);
      && |r| == (if |Rising(coins)| <= 10 then |Rising(coins)| else 10)
      && multiset(r) <= multiset(Rising(coins))
      && (forall q :: q in r ==> q in coins && q.changeRate > 0.0)
      && DescendingBy(r, ChangeRate)
      && (forall q, i :: q in coins && q.changeRate > 0.0 && q !in r && 0 <= i < |r| ==>
            ChangeRate(q) <= ChangeRate(r[i]))
      && (forall k :: WithKey(r, ChangeRate, k) <= WithKey(Rising(coins), ChangeRate, k))
  {
    GainersSize(coins);
    GainersRanked(coins);
    GainersTies(coins);
  }

  lemma GainersSize(coins: seq<Quote>)
    ensures |TopGainers(coins)| == (if |Rising(coins)| <= 10 then |Rising(coins)| else 10)
    ensures multiset(TopGainers(coins)) <= multiset(Rising(coins))
  {
    TopOfSorted(Rising(coins), ChangeRate, 10);
  }

  lemma GainersRanked(coins: seq<Quote>)
    ensures var r := TopGainers(coins);
      && (forall q :: q in r ==> q in coins && q.changeRate > 0.0)
      && DescendingBy(r, ChangeRate)
      && (forall q, i :: q in coins && q.changeRate > 0.0 && q !in r && 0 <= i < |r| ==>
            ChangeRate(q) <= ChangeRate(r[i]))
  {
    TopCutDominates(Rising(coins), ChangeRate, 10);
    RisingCut(coins, TopGainers(coins));
  }

  lemma GainersTies(coins: seq<Quote>)
    ensures forall k :: WithKey(TopGainers(coins), ChangeRate, k) <= WithKey(Rising(coins), ChangeRate, k)
  {
    forall k ensures WithKey(TopGainers(coins), ChangeRate, k) <= WithKey(Rising(coins), ChangeRate, k) {
      TopKeepsTieOrder(Rising(coins), ChangeRate, 10, k);
    }
  }

  /** Facts about a cut of the rising coins, restated over all coins. */
  lemma RisingCut(coins: seq<Quote>, r: seq<Quote>)
    requires forall q :: q in r ==> q in Rising(coins)
    requires forall q, i :: q in Rising(coins) && q !in r && 0 <= i < |r| ==> ChangeRate(q) <= ChangeRate(r[i])
    ensures forall q :: q in r ==> q in coins && q.changeRate > 0.0
    ensures forall q, i :: q in coins && q.changeRate > 0.0 && q !in r && 0 <= i < |r| ==>
      ChangeRate(q) <= ChangeRate(r[i])
  {
  }

  // ---------------------------------------------------------------------
  // The order-book cache
  // ---------------------------------------------------------------------

  datatype CacheEntry = CacheEntry(data: Orderbook, timestamp: real)

  const CacheTtl: real := 5.0

  /** The markets whose book is missing or more than five seconds old. */
  function StaleMarkets(markets: seq<string>, cache: map<string, CacheEntry>, now: real): (r: seq<string>)
    ensures forall m :: m in r <==> m in markets && (m !in cache || now - cache[m].timestamp > CacheTtl)
  {
    if markets == [] then []
    else
      var m := markets[0];
      assert markets == [m] + markets[1..];
      (if m !in cache || now - cache[m].timestamp > CacheTtl then [m] else [])
        + StaleMarkets(markets[1..], cache, now)
  }

  /** The cache after storing every fetched book with timestamp `now`. */
  function Refreshed(cache: map<string, CacheEntry>, fetched: map<string, Orderbook>, now: real): (r: map<string, CacheEntry>)
    ensures r.Keys == cache.Keys + fetched.Keys
    ensures forall m :: m in fetched ==> r[m] == CacheEntry(fetched[m], now)
    ensures forall m :: m in cache && m !in fetched ==> r[m] == cache[m]
  {
    map m | m in cache.Keys + fetched.Keys :: if m in fetched then CacheEntry(fetched[m], now) else cache[m]
  }

  /** The cache after a selection round has looked at `markets`: a fetch is
      made only when some of them are stale, and then for those only. */
  function AfterLookup(cache: map<string, CacheEntry>, markets: seq<string>, now: real, fetch: seq<string> -> BookReply): (r: map<string, CacheEntry>)
    ensures StaleMarkets(markets, cache, now) == [] ==> r == cache
    ensures cache.Keys <= r.Keys
    ensures forall m :: m in r ==> (m in cache && r[m] == cache[m]) || r[m].timestamp == now
    ensures var stale := StaleMarkets(markets, cache, now);
      forall m :: m in stale && m in GetOrderbook(fetch(stale)) ==>
        m in r && r[m] == CacheEntry(GetOrderbook(fetch(stale))[m], now)
  {
    var stale := StaleMarkets(markets, cache, now);
    if stale == [] then cache else Refreshed(cache, GetOrderbook(fetch(stale)), now)
  }

  /** The cache after a selection round on `feed`: untouched on the error
      tag, else the top gainers' books looked up. */
  function SelectedCache(cache: map<string, CacheEntry>, feed: Feed, now: real, fetch: seq<string> -> BookReply): map<string, CacheEntry>
  {
    match feed
    case FeedError => cache
    case Quotes(coins) => AfterLookup(cache, MarketsOf(TopGainers(coins)), now, fetch)
  }

  // ---------------------------------------------------------------------
  // Ranking
  // ---------------------------------------------------------------------

  /** Strong bids (more than 1.5 times the asks) and a spread under 0.1%
      of the best bid. A book whose best bid is zero is refused. */
  predicate PassesBook(b: Orderbook)
  {
    && b.totalBidSize > b.totalAskSize * 1.5
    && b.bidPrice != 0.0
    && (b.askPrice - b.bidPrice) / b.bidPrice < 0.001
  }

  predicate Qualifies(q: Quote, cache: map<string, CacheEntry>)
  {
    q.market in cache && PassesBook(cache[q.market].data)
  }

  /** The coins whose cached book passes, in their ranking order. */
  function Qualified(top: seq<Quote>, cache: map<string, CacheEntry>): (r: seq<Quote>)
    ensures forall q :: q in r <==> q in top && Qualifies(q, cache)
  {
    if top == [] then []
    else
      assert top == [top[0]] + top[1..];
      (if Qualifies(top[0], cache) then [top[0]] else []) + Qualified(top[1..], cache)
  }

  /** `(best_coin, top_5_coins)`. */
  datatype Selection = Selection(best: Option<Quote>, shortlist: seq<Quote>)

  /** `sorted(candidates, key=acc_trade_price_24h, reverse=True)[:5]`. */
  function Shortlist(passing: seq<Quote>): (r: seq<Quote>)
    ensures |r| == if |passing| <= 5 then |passing| else 5
    ensures multiset(r) <= multiset(passing)
    ensures forall q :: q in r ==> q in passing
    ensures DescendingBy(r, Acc)
    ensures forall q, i :: q in passing && q !in r && 0 <= i < |r| ==> Acc(q) <= Acc(r[i])
    ensures forall k :: WithKey(r, Acc, k) <= WithKey(passing, Acc, k)
  {
    TopOfSorted(passing, Acc, 5);
    Take(SortDesc(passing, Acc), 5)
  }

  /** `max(top_5, key=price * acc_trade_price_24h)`: the first element with
      the largest score. */
  function Best(shortlist: seq<Quote>): (b: Quote)
    requires |shortlist| > 0
    ensures exists k :: (
      && 0 <= k < |shortlist| && b == shortlist[k]
      && (forall j :: 0 <= j < |shortlist| ==> Score(shortlist[j]) <= Score(shortlist[k]))
      && (forall j :: 0 <= j < k ==> Score(shortlist[j]) < Score(shortlist[k])))
  {
    var k := FirstMaxIndex(shortlist, Score);
    shortlist[k]
  }

  /** Picks from the gainers with the books now cached. The shortlist holds
      at most five qualifying coins by descending 24h traded value, no
      qualifying coin left out has a larger traded value, and the pick is
      the first shortlisted coin with the largest score. */
  function Choose(top: seq<Quote>, cache: map<string, CacheEntry>): (s: Selection)
    ensures Qualified(top, cache) == [] <==> s.best.None?
    ensures s.best.None? ==> s.shortlist == []
    ensures s.best.Some? ==> |s.shortlist| > 0 && s.best.value == Best(s.shortlist)
    ensures var passing := Qualified(top, cache);
      && |s.shortlist| == (if |passing| <= 5 then |passing| else 5)
      && multiset(s.shortlist) <= multiset(passing)
      && forall k :: WithKey(s.shortlist, Acc, k) <= WithKey(passing, Acc, k)
    ensures forall q :: q in s.shortlist ==> q in top && Qualifies(q, cache)
    ensures DescendingBy(s.shortlist, Acc)
    ensures forall q, i :: q in top && Qualifies(q, cache) && q !in s.shortlist && 0 <= i < |s.shortlist| ==>
      Acc(q) <= Acc(s.shortlist[i])
  {
    var passing := Qualified(top, cache);
    if passing == [] then Selection(None, [])
    else
      var shortlist := Shortlist(passing);
      Selection(Some(Best(shortlist)), shortlist)
  }

  /** The module-level order-book cache and the selection that refreshes it. */
  class OrderbookCache {
    var entries: map<string, CacheEntry>

    constructor()
      ensures entries == map[]
    {
      entries := map[];
    }

    /** Stores every fetched book, stamped `now`. */
    method Store(fetched: map<string, Orderbook>, now: real)
      modifies this
      ensures entries == Refreshed(old(entries), fetched, now)
    {
      var pending := fetched.Keys;
      while pending != {}
        invariant pending <= fetched.Keys
        invariant entries.Keys == old(entries).Keys + (fetched.Keys - pending)
        invariant forall m :: m in fetched && m !in pending ==> entries[m] == CacheEntry(fetched[m], now)
        invariant forall m :: m in old(entries) && (m !in fetched || m in pending) ==> entries[m] == old(entries)[m]
        decreases pending
      {
        var m :| m in pending;
        entries := entries[m := CacheEntry(fetched[m], now)];
        pending := pending - {m};
      }
    }

    /** Fetches the books of the stale markets in one request and stores
        every book the reply holds. */
    method Refresh(markets: seq<string>, now: real, fetch: seq<string> -> BookReply)
      modifies this
      ensures entries == AfterLookup(old(entries), markets, now, fetch)
    {
      var stale := StaleMarkets(markets, entries, now);
      if stale != [] {
        Store(GetOrderbook(fetch(stale)), now);
      }
    }

    /** `get_best_trade_coin`. On the error tag: `(None, [])`, cache
        untouched. Otherwise the gainers' books are refreshed and the pick
        is made from the refreshed cache. */
    method BestTradeCoin(feed: Feed, now: real, fetch: seq<string> -> BookReply) returns (s: Selection)
      modifies this
      ensures entries == SelectedCache(old(entries), feed, now, fetch)
      ensures feed.FeedError? ==> s == Selection(None, []) && entries == old(entries)
      ensures feed.Quotes? ==>
        && entries == AfterLookup(old(entries), MarketsOf(TopGainers(feed.coins)), now, fetch)
        && s == Choose(TopGainers(feed.coins), entries)
    {
      match feed
      case FeedError =>
        return Selection(None, []);
      case Quotes(coins) =>
        var top := TopGainers(coins);
        Refresh(MarketsOf(top), now, fetch);
        s := Choose(top, entries);
    }
  }
}
